=== FILE: README.md ===
# plants-helper care scheduler, in Dafny

A model of the core of plants-helper, a Telegram bot that looks after house
plants. The bot asks the active waterer each morning how moist the soil is or
whether a plant has been watered. It stores the answers, computes each plant's
next check date, reminds the waterer in the evening about unanswered prompts,
and at the end of the day reschedules what is still open and counts ignored
watering requests. It can also mirror the schedule into a Google Sheets
calendar: one row per plant, one column per `DD.MM` day key.

The model is purely functional. The SQLite store becomes a value `Store`, the
worksheet a `Grid` inside a `Mirror`, and each handler a function from the old
world to the new world and a reply. The clock (`Clock`: today's day number and
a time stamp), the outcome of every Telegram send, and the outcome of
connecting to the spreadsheet are parameters.

Modules, in dependency order:

- `Wrappers`: `Option` and `Result`.
- `Text`: Python's `split`, `strip`, `int()` and `str()` on strings.
- `Calendar`: day numbers (day 0 is 2000-01-01) and their civil dates.
- `Models`: the entities of `bot/database/models.py`, their enums and their
  constructors with defaults.
- `Config`: the admin id list and name map of `bot/config.py`.
- `Repository`: the tables and queries of `bot/database/repository.py`.
- `PlantService`: the catalog cache and care rules of
  `bot/services/plant_service.py`.
- `Grid`: the slice of the worksheet API the mirror uses, with A1 addresses.
- `Sheets`: the calendar mirror of `bot/services/sheets.py`.
- `Keyboards`: the callback data of `bot/keyboards/inline.py`.
- `Callbacks`: the three answer handlers of `bot/handlers/callbacks.py`.
- `Admin`: the three admin handlers of `bot/handlers/admin.py`.
- `Routing`: which handler a button press reaches, in the order `bot/main.py`
  registers the routers.
- `Scheduler`: the three jobs of `bot/services/scheduler.py`.

The source increments the overdue counter and then writes an older copy of
the row back over it (see "## Findings"). The evening job of the model
therefore uses the corrected sweep, `PlantService.RescheduleUnansweredIntended`. The sweep as
written is kept beside it as `PlantService.RescheduleUnanswered`, with the
lemmas that show the difference.

## Model

| member | source | states |
|---|---|---|
| Text.Split | bot/config.py:29 | `str.split(sep)` gives at least one part and no part contains the separator |
| Text.JoinSplit | bot/handlers/callbacks.py:24-26 | joining the parts of a split with the separator gives back the original data |
| Text.SplitJoin | bot/handlers/callbacks.py:24-26 | splitting a join of separator-free fields recovers exactly those fields |
| Text.Strip | bot/config.py:29 | `strip()` leaves no whitespace at either end and keeps a string already clean at both ends |
| Text.ParseInt | bot/config.py:29 | `int()` succeeds exactly on a stripped string of ASCII digits, or of a sign followed by digits, and then gives their decimal value, negated after a minus |
| Text.IntToString | bot/config.py:39 | `str(n)` is digits, with a leading minus sign for a negative number |
| Text.ParseIntOfString | bot/config.py:29-39 | `int(str(n)) == n` for every integer |
| Calendar.ToCivil | bot/services/sheets.py:107-111 | every day number names a valid calendar date |
| Models.ParseMoisture | bot/database/models.py:9-15 | `SoilMoisture(s)` succeeds exactly for the four enum values and yields the member with that value |
| Models.ParseStatus | bot/database/models.py:18-24 | `NotificationStatus(s)` succeeds exactly for the four status values |
| Models.ParseType | bot/database/models.py:27-31 | `NotificationType(s)` succeeds exactly for "check" and "water" |
| Models.ParsePreference | bot/database/models.py:34-38 | `WateringPreference(s)` succeeds exactly for the two preference values |
| Models.NewPlantStatus | bot/database/models.py:55-68 | the counter defaults to 0 and a missing update time becomes now; the other fields are as given |
| Models.NewNotification | bot/database/models.py:71-82 | a new notification has no answer and no answer time |
| Models.NewUserSettings | bot/database/models.py:85-99 | the time defaults to "09:00"; a missing creation or update time becomes now, and a given one is kept |
| Models.FindPlant | bot/services/plant_service.py:67-70 | a plant is found exactly when the catalog holds its id, and the one found carries that id |
| Config.Kept | bot/config.py:29 | the comprehension keeps only non-empty stripped parts |
| Config.ParseAll | bot/config.py:29 | the list is read only if every part parses, and then element by element in order |
| Config.AdminIdsList | bot/config.py:26-29 | the ids are the `int()` values of the non-blank stripped parts, in order; one unparsable part makes the property raise |
| Config.AdminIdsRoundTrip | bot/config.py:26-29 | writing ids out comma-separated and reading them back gives the same list |
| Config.ZipEqual | bot/config.py:35 | `dict(zip(...))` on lists of equal length: its keys are exactly the ids, and a later duplicate id takes its later name |
| Config.PairNames | bot/config.py:31-35 | ids pair with stripped names by position, cut to the shorter list, a later duplicate winning |
| Config.AdminNamesMap | bot/config.py:31-35 | the name map raises exactly when the id list does, and is otherwise the pairing of the two lists |
| Config.GetAdminName | bot/config.py:37-39 | a mapped user gets their name; anyone else gets "User " followed by the id, which reads back as the id |
| Config.IsAdmin | bot/config.py:41-43 | a user is an admin exactly when their id is in the parsed list; an unparsable list raises |
| Config.IsAdminOfWritten | bot/config.py:41-43 | for a written list, exactly its ids are admins |
| Repository.UpsertPlantStatus | bot/database/repository.py:101-125 | afterwards the key holds exactly the row written, the key set grows by at most that key, and nothing else changes |
| Repository.UpsertThenGetStatus | bot/database/repository.py:64-125 | reading a status after an upsert gives the row written for its key and the old answer for every other key |
| Repository.IncrementOverdueDays | bot/database/repository.py:127-138 | the counter grows by exactly one, only the update time changes with it, and a missing row means no change |
| Repository.ResetOverdueDays | bot/database/repository.py:140-152 | the counter becomes 0, only the update time changes with it, and a missing row means no change |
| Repository.CreateNotification | bot/database/repository.py:154-172 | the new row gets a fresh id and holds only the inserted columns (no answer); old rows are kept |
| Repository.UpdateNotification | bot/database/repository.py:174-195 | status and answer are overwritten; the answer time is set to now exactly when the answer is truthy and cleared otherwise; other rows and columns are kept |
| Repository.UpdateNotificationMessageId | bot/database/repository.py:197-204 | only that row's message id changes; an unknown id changes nothing |
| Repository.MessageIdThenLookup | bot/database/repository.py:197-267 | after a row gets a message id, the lookup by that message finds it or an earlier row already carrying the same id |
| Repository.PendingNotifications | bot/database/repository.py:206-242 | exactly the rows that are pending or reminded and were created on the day, in ascending id order |
| Repository.NotificationByMessageId | bot/database/repository.py:244-267 | the first row carrying the message id, and None exactly when no row carries it |
| Repository.TodayNotificationForPlant | bot/database/repository.py:269-300 | a row of the plant, of the given type (any type when absent), created that day whatever its status; None exactly when there is none |
| Repository.SameDayLookupIgnoresStatus | bot/database/repository.py:174-300 | a status update on any row never changes what the same-day lookup finds |
| Repository.UpsertUserSettings | bot/database/repository.py:320-342 | a new user is inserted as given; a known user keeps the stored creation time and takes the new time and update time |
| Repository.UpsertThenGetSettings | bot/database/repository.py:303-342 | reading settings back after an upsert: new time and update time, a kept creation time, and other users unchanged |
| PlantService.Put | bot/services/plant_service.py:52 | the id now finds the new plant, every other id finds what it found before, and the catalog grows only for a new id |
| PlantService.PutAllFind | bot/services/plant_service.py:41-52 | after inserting the file's entries, an id finds its last entry in the file, or what it found before |
| PlantService.Load | bot/services/plant_service.py:27-54 | a loaded cache is returned as it is; otherwise a missing file gives an empty catalog and a present file its entries; the cache ends loaded |
| PlantService.Reload | bot/services/plant_service.py:56-60 | reloading rebuilds the catalog from the file alone, forgetting earlier entries |
| PlantService.GetPlant | bot/services/plant_service.py:67-70 | loads on first use; the plant returned carries the id, and None means no cached plant carries it |
| PlantService.GetAllPlants | bot/services/plant_service.py:62-65 | loads on first use and lists the cached plants in insertion order |
| PlantService.ReloadThenGet | bot/services/plant_service.py:56-70 | right after a reload, a lookup yields the file's last entry with that id, and nothing when the file is missing or lacks it |
| PlantService.LoadedCacheIsStale | bot/services/plant_service.py:27-30 | once loaded, the cache ignores later changes to the file |
| PlantService.NextCheckDate | bot/services/plant_service.py:91-109 | a non-DRY answer moves the check by the plant's interval for that answer; DRY gives today for overwatering and tomorrow for underwatering |
| PlantService.NextCheckTodayIff | bot/services/plant_service.py:91-109 | with positive intervals, the next check is today exactly for a DRY answer about an overwatering plant, and never earlier than today |
| PlantService.ProcessMoistureAnswer | bot/services/plant_service.py:111-144 | an unknown plant raises before any write; otherwise only its row changes, to the answered row with the counter at 0; advice is given exactly for DRY, "water now" exactly for overwatering |
| PlantService.ProcessWateringDone | bot/services/plant_service.py:146-164 | an unknown plant raises before any write; otherwise only its row changes: WATERED, checked today, due after the check interval, counter 0 |
| PlantService.WateringResetIsRedundant | bot/services/plant_service.py:154-162 | the reset after the upsert changes nothing: the upsert alone leaves the same store |
| PlantService.InitialStatus | bot/services/plant_service.py:80-87 | a new row is DRY, checked and due today, with the counter at 0 |
| PlantService.GetOrCreateStatus | bot/services/plant_service.py:76-89 | an existing row is returned with no write; a missing one is created as the initial row and stored |
| PlantService.BucketsMembers | bot/services/plant_service.py:181-192 | a plant is in the water list exactly when it is due, DRY and overdue, and in the check list exactly when it is due and not both |
| PlantService.PlantsForToday | bot/services/plant_service.py:166-194 | missing catalog rows are created as initial rows, existing rows are untouched, and the lists classify the final rows |
| PlantService.PlantsForTodayPartition | bot/services/plant_service.py:181-194 | no plant is in both lists, and a plant is in one of them exactly when it is due today |
| PlantService.PlantsForTodayIdempotent | bot/services/plant_service.py:166-194 | a second run the same day writes nothing and returns the same lists |
| PlantService.NoWateringWithoutOverdue | bot/services/plant_service.py:184-192 | with every counter at 0 the water list is empty |
| PlantService.SweepStep | bot/services/plant_service.py:203-219 | one iteration as written: the row is cleared to RESCHEDULED and the plant is moved to tomorrow with its counter as it was |
| PlantService.Sweep | bot/services/plant_service.py:203-219 | the loop as written: the listed rows are cleared and every plant they touch is moved to tomorrow, counter unchanged |
| PlantService.RescheduleUnanswered | bot/services/plant_service.py:196-219 | as written: every row open today becomes RESCHEDULED, and each plant with one is due tomorrow with its counter unchanged |
| PlantService.PendingTouches | bot/services/plant_service.py:201-211 | the rows open today touch a plant exactly when it has a row open today |
| PlantService.SweepKeepsOverdue | bot/services/plant_service.py:210-219 | as written, the sweep never changes any overdue counter |
| PlantService.SweepStepIntended | bot/services/plant_service.py:210-219 | one iteration as intended: a WATER row leaves the plant's counter one higher |
| PlantService.SweepIntended | bot/services/plant_service.py:203-219 | the intended loop: each touched plant's counter grows by its number of WATER rows |
| PlantService.RescheduleUnansweredIntended | bot/services/plant_service.py:196-219 | as intended: a plant with a row open today is due tomorrow, stamped now, and its counter grows by exactly the number of its WATER rows open today, all else of its row kept; a plant with no row open today keeps its status |
| PlantService.PendingWaterCount | bot/services/plant_service.py:201-214 | today's open rows count a WATER row for a plant exactly when it has one open today |
| PlantService.SweepLosesIncrement | bot/services/plant_service.py:210-219 | on one concrete store the sweep as written leaves the counter at 0 where the intended sweep gives 1 |
| Grid.UpdateCell | bot/services/sheets.py:127 | inside the grid exactly that cell takes the value; outside it the API refuses and nothing changes |
| Grid.ColLen | bot/services/sheets.py:123-124 | the length of `col_values`: every cell below it in the column is empty and the last one counted is not |
| Grid.RowLen | bot/services/sheets.py:163-164 | the length of `row_values`: every cell right of it in the row is empty and the last one counted is not |
| Grid.ColValues | bot/services/sheets.py:92 | `col_values` lists the column's cells from row 1 to its last non-empty cell |
| Grid.RowValues | bot/services/sheets.py:99 | `row_values` lists the row's cells from column 1 to its last non-empty cell |
| Grid.ColLetter | bot/services/sheets.py:300-306 | the letters are all capitals, and empty exactly for a column number at or below 0 |
| Grid.LettersOfColumn | bot/services/sheets.py:300-306 | decoding the letters of a column number gives the number back |
| Grid.ColumnOfLetters | bot/services/sheets.py:300-306 | every string of capital letters is the letters of exactly one column |
| Grid.ColLetterLoop | bot/services/sheets.py:300-306 | the `divmod` loop computes the column letters, and they decode to the column |
| Grid.ParseA1 | bot/services/sheets.py:223-226 | an address that reads back names a row and a column, both at least 1 |
| Grid.A1RoundTrip | bot/services/sheets.py:223-226 | every cell's A1 address reads back as that cell |
| Grid.SetColor | bot/services/sheets.py:217-228 | formatting never changes values or size, nor the colour of any cell other than the one addressed |
| Grid.SetColorAt | bot/services/sheets.py:217-228 | colouring a cell through its A1 address colours exactly that cell |
| Sheets.DateKey | bot/services/sheets.py:107-111 | the key is five characters with a dot in the middle |
| Sheets.DateKeyRoundTrip | bot/services/sheets.py:107-111 | a date's key reads back as its day and month |
| Sheets.DateKeyIff | bot/services/sheets.py:107-111 | two dates share a key exactly when they share day and month, whatever their years |
| Sheets.KeysCollideAcrossYears | bot/services/sheets.py:107-111 | the same day of two different years gets the same key |
| Sheets.IndexLineAt | bot/services/sheets.py:93-102 | a non-empty value after the first is indexed at its last position; other texts keep their entries |
| Sheets.IndexNames | bot/services/sheets.py:91-96 | every plant name below the header is indexed at a row holding that name |
| Sheets.IndexDates | bot/services/sheets.py:98-102 | every day key right of the first column is indexed at a column holding that key |
| Sheets.LoadStructure | bot/services/sheets.py:85-105 | loading only reads the sheet, indexing names and keys into the indexes already held |
| Sheets.EnsurePlantRow | bot/services/sheets.py:113-135 | a cached name returns its row with no write; cached rows never move; no worksheet gives -1 |
| Sheets.EnsurePlantRowAdds | bot/services/sheets.py:121-135 | a new name goes into the first empty row below the column's contents, and only that cell changes; outside the grid, -1 and no change |
| Sheets.InsertPosition | bot/services/sheets.py:148-160 | the scan ends just after the right-most cached earlier day, or at column 2 when there is none |
| Sheets.EnsureDateColumn | bot/services/sheets.py:137-176 | a cached key returns its column with no write; cached columns never move; no worksheet or no column gives -1 |
| Sheets.EnsureDateColumnAdds | bot/services/sheets.py:147-176 | a new key is written into an empty header cell past the header's contents and after every earlier cached day, and only that cell changes |
| Sheets.MissingDays | bot/services/sheets.py:185-192 | exactly the days of the period whose keys are not cached, in ascending order |
| Sheets.MissingKeys | bot/services/sheets.py:185-192 | every day of the period has its key cached already or among the missing keys, which are all uncached |
| Sheets.AssignColumnsAt | bot/services/sheets.py:202-206 | each new key is cached at the column of its last occurrence from the start column; other keys keep their columns |
| Sheets.WriteHeader | bot/services/sheets.py:208-210 | the header cells from the start column take the keys in order where the grid reaches; no other cell changes |
| Sheets.AssignColumnsAll | bot/services/sheets.py:202-206 | the caching loop caches exactly the old keys and the new ones; a new key sits at the start column plus the index of its last occurrence; other keys keep their columns |
| Sheets.WriteHeaderGrows | bot/services/sheets.py:197-210 | writing the keys from one past the header row's contents keeps the worksheet's size and overwrites no non-empty cell |
| Sheets.AddColumns | bot/services/sheets.py:197-210 | the keys are cached from the first column past the header's contents, each at the start column plus the index of its last occurrence, and written into header cell start+j where the grid reaches; only those header cells change and nothing non-empty is overwritten |
| Sheets.EnsureDateColumnsForPeriod | bot/services/sheets.py:178-215 | afterwards every day of the period has a cached column; old columns stay where they were; with a worksheet and ds the days missing before the loop, the cached keys are the old ones plus the keys of ds, a new key sits at column start+j for the last j whose day has it (start being one past the header row's contents), header cell start+j holds the key of ds[j] where the grid reaches, and no cell outside those header cells changes |
| Sheets.LayoutNewKeys | bot/services/sheets.py:197-210 | under that layout a new key lies past the old header and its header cell holds the key where the grid reaches |
| Sheets.AddColumnsLayout | bot/services/sheets.py:197-210 | adding the columns of the missing days gives that layout |
| Sheets.AssignColumnsDomain | bot/services/sheets.py:202-206 | the caching loop caches exactly the old keys and the new ones, and keeps the columns of keys it does not list |
| Sheets.AssignColumnsLast | bot/services/sheets.py:202-206 | the caching loop puts each listed key at the start column plus the index of its last occurrence |
| Sheets.AddColumnsColumns | bot/services/sheets.py:202-206 | the batch step caches a new key at the last missing day that has it |
| Sheets.KeysOfHas | bot/services/sheets.py:188-192 | a key is among the missing keys exactly when some missing day has it |
| Sheets.Locate | bot/services/sheets.py:236-237 | locating only grows the sheet and the indexes, and a cached row or column is returned as cached |
| Sheets.LocateFinds | bot/services/sheets.py:113-176 | the row and column found are the indexed ones, or -1 when the first column is full or the day got no column |
| Sheets.LocateIdempotent | bot/services/sheets.py:113-176 | locating twice is locating once: what was found is cached and what failed fails again |
| Sheets.LocateCached | bot/services/sheets.py:118-119 | with row and column both cached, locating writes nothing |
| Sheets.MarkScheduled | bot/services/sheets.py:230-247 | never overwrites a non-empty cell; a located cell inside the grid ends non-empty; disabled or no worksheet means no change |
| Sheets.MarkScheduledWrites | bot/services/sheets.py:232-244 | enabled with a worksheet: the indexes are those locating left; the placeholder goes into the located cell exactly when row and column were found, the cell is inside the grid and empty; no other cell and no colour changes, and otherwise the located state is the result |
| Sheets.MarkScheduledIdempotent | bot/services/sheets.py:230-247 | marking a scheduled check twice is marking it once |
| Sheets.WriteColored | bot/services/sheets.py:258-261 | a located cell inside the grid takes the text and the colour, and nothing else changes |
| Sheets.MarkCellKeeps | bot/services/sheets.py:249-283 | a sent or answered mark changes nothing when disabled or without a worksheet, and only grows the indexes |
| Sheets.MarkCellWrites | bot/services/sheets.py:249-283 | a sent or answered mark writes the located cell in its colour and changes no other cell |
| Sheets.MarkCellIdempotent | bot/services/sheets.py:249-283 | writing the same mark twice is writing it once |
| Sheets.AnswerSurvivesSchedule | bot/services/sheets.py:239-243 | an answer followed by the scheduling mark keeps the answer in today's cell, since the placeholder only fills empty cells |
| Sheets.AddNames | bot/services/sheets.py:79-80 | each listed name gets a row unless the first column is full; cached rows never move |
| Sheets.InitPlants | bot/services/sheets.py:73-83 | with the integration on, every plant gets a row unless the first column is full; otherwise no change |
| Sheets.MarkDays | bot/services/sheets.py:296-297 | marking a plant's days keeps every cached row and column, and gives the plant a row unless the column is full |
| Sheets.MarkAll | bot/services/sheets.py:295-297 | every plant with at least one day ends with a row unless the first column is full |
| Sheets.SyncScheduledDates | bot/services/sheets.py:285-297 | no cached row or column moves, and every scheduled plant gets a row unless the first column is full |
| Sheets.NewCalendar | bot/services/sheets.py:55-59 | a created worksheet is 50 by 100 with only the header cell filled |
| Sheets.Init | bot/services/sheets.py:27-71 | disabled or unreachable means no change; otherwise the sheet is opened or created and the next 30 days all have cached columns |
| Keyboards.MoistureKeyboard | bot/keyboards/inline.py:21-44 | three answer buttons, then the photo button |
| Keyboards.MoistureKeyboardSplits | bot/keyboards/inline.py:21-44 | for an id without ':', splitting each answer button gives back the id and the answer |
| Keyboards.WateringKeyboard | bot/keyboards/inline.py:47-60 | the watered button, then the photo button |
| Keyboards.WateringKeyboardSplits | bot/keyboards/inline.py:47-60 | splitting either button gives back the id |
| Keyboards.AnsweredKeyboard | bot/keyboards/inline.py:63-76 | an inert button, then the correction button |
| Keyboards.AnsweredKeyboardSplits | bot/keyboards/inline.py:63-76 | splitting the correction button gives back the id |
| Keyboards.AdminPlantKeyboard | bot/keyboards/inline.py:169-197 | four status buttons, then the admin menu button |
| Keyboards.AdminPlantKeyboardSplits | bot/keyboards/inline.py:169-197 | splitting each status button gives back the id and the status |
| Keyboards.ListKeyboard | bot/keyboards/inline.py:151-166 | one button per plant, in order, holding the prefix then the plant's id, then one navigation button |
| Keyboards.ListNavigationIsApart | bot/keyboards/inline.py:79-166 | for every plant list, in the plants, photo and admin list keyboards each plant button carries the list's prefix and the trailing navigation button does not |
| Keyboards.ColonInIdIsNotRecovered | bot/keyboards/inline.py:21-44 | an id containing ':' is split into extra fields |
| Callbacks.MoistureChoice | bot/handlers/callbacks.py:34-39 | the handler's map accepts exactly the three soil answers, never "watered" |
| Callbacks.MoistureChoiceAgrees | bot/handlers/callbacks.py:34-39 | where it accepts a token, the map agrees with the enum's own parser |
| Callbacks.FormatMoisture | bot/handlers/callbacks.py:165-172 | a soil answer gets a label starting with its emoji; any other text is returned as it is |
| Callbacks.FormatMoistureShort | bot/handlers/callbacks.py:175-182 | a soil answer gets a non-empty emoji; any other text is returned as it is |
| Callbacks.FormatsAreInjective | bot/handlers/callbacks.py:165-182 | distinct soil answers get distinct labels and distinct emoji |
| Callbacks.AnswerNotification | bot/handlers/callbacks.py:49-53 | the first row carrying the message becomes ANSWERED with the answer, stamped now; no such row means no change |
| Callbacks.AnswerKeepsLookup | bot/handlers/callbacks.py:49-53 | answering keeps message ids, so the same row is found by its message afterwards |
| Callbacks.HandleMoisture | bot/handlers/callbacks.py:21-97 | a short datum raises, an unknown plant and a bad answer are refused before any write; otherwise the answer is stored and the notification answered, and a watering prompt follows exactly for DRY due today |
| Callbacks.MoistureStored | bot/handlers/callbacks.py:24-46 | a well-formed answer for a known plant is always saved, and becomes the plant's stored moisture |
| Callbacks.MoisturePromptIff | bot/handlers/callbacks.py:62-80 | with positive intervals, a watering prompt follows exactly a "dry" answer about an overwatering plant |
| Callbacks.MoistureMarked | bot/handlers/callbacks.py:55-57 | a saved answer leaves today's located cell holding the answer's emoji |
| Callbacks.HandleWatered | bot/handlers/callbacks.py:100-132 | a short datum raises and an unknown plant is refused before any write; otherwise the watering is recorded and the notification answered "watered" |
| Callbacks.WateredMarked | bot/handlers/callbacks.py:120-122 | a confirmed watering leaves today's located cell holding the watering mark |
| Callbacks.HandleCorrect | bot/handlers/callbacks.py:135-162 | nothing is written; the watering keyboard comes back exactly when the message's row was answered "watered", and the moisture keyboard otherwise |
| Callbacks.CorrectAfterWatered | bot/handlers/callbacks.py:111-150 | correcting a confirmed watering brings back the watering keyboard |
| Callbacks.CorrectAfterMoisture | bot/handlers/callbacks.py:46-155 | correcting a moisture answer brings back the moisture keyboard |
| Admin.DisplaysAgree | bot/handlers/admin.py:154-173 | the admin emoji and labels agree with the answer handlers' formatting, and a watering shows the watering mark |
| Admin.DisplaysAreInjective | bot/handlers/admin.py:154-173 | distinct statuses get distinct emoji and distinct labels |
| Admin.AdminChoice | bot/handlers/admin.py:99-105 | the admin map accepts exactly the four status tokens |
| Admin.AdminChoiceIsParse | bot/handlers/admin.py:99-105 | the admin map is the enum's parser, and extends the answer handler's map by "watered" alone |
| Admin.AdminSetStatus | bot/handlers/admin.py:86-151 | a short datum raises, an unknown plant and a bad value are refused before any write; otherwise only the plant's row changes, notifications are untouched, and a watering prompt follows exactly for DRY due today |
| Admin.AdminMarked | bot/handlers/admin.py:111-120 | a saved status leaves today's located cell holding the status emoji |
| Admin.AdminPlantView | bot/handlers/admin.py:53-83 | an unknown plant is refused with no write; otherwise its row is materialised and shown, with the overdue line exactly when the counter is positive |
| Admin.AdminSetSplits | bot/handlers/admin.py:89-91 | the status button's data splits back into its four fields |
| Admin.ViewShowsRow | bot/handlers/admin.py:63-74 | viewing a plant with a stored row shows that row and writes nothing |
| Admin.SetThenView | bot/handlers/admin.py:86-120 | after a status is set, the view shows that status, checked today, with no overdue line |
| Admin.Materialise | bot/handlers/admin.py:25-30 | the walk pairs each catalog plant with its row, fetched or created, keeping stored rows |
| Admin.MaterialiseIdempotent | bot/handlers/admin.py:25-30 | a second walk writes nothing and gives the same pairs |
| Admin.SortByNext | bot/handlers/admin.py:33 | the sort is ordered by next check date, a permutation, and stable: entries with one date keep their order |
| Admin.StableSortUnique | bot/handlers/admin.py:33 | any sorted list keeping every date's entries in their order is the stable sort |
| Admin.SortSorted | bot/handlers/admin.py:33 | sorting a sorted list changes nothing |
| Admin.MenuAdmin | bot/handlers/admin.py:22-50 | every catalog plant gets a row and is listed once with it, sorted by next check, plants with the same date in catalog order (a stable sort); the keyboard keeps catalog order |
| Routing.Route | bot/main.py:86-91 | a press reaching a handler carries that handler's prefix |
| Routing.RouteAdminMenu | bot/handlers/admin.py:22 | exactly `menu:admin` reaches the admin menu |
| Routing.RouteAdminPlant | bot/handlers/admin.py:53 | a press reaches the admin plant view exactly when it starts with `admin:plant:` |
| Routing.RouteAdminSet | bot/handlers/admin.py:86 | a press reaches the status setter exactly when it starts with `admin:set:` |
| Routing.RouteMoisture | bot/handlers/callbacks.py:21 | a press reaches the moisture handler exactly when it starts with `moisture:` |
| Routing.RouteWatered | bot/handlers/callbacks.py:100 | a press reaches the watering handler exactly when it starts with `watered:` |
| Routing.RouteCorrect | bot/handlers/callbacks.py:135 | a press reaches the correction handler exactly when it starts with `correct:` |
| Routing.Dispatch | bot/main.py:86-91 | a press is handled exactly when some filter accepts it and its handler is one of the modelled ones |
| Routing.MoistureButtonsRoute | bot/keyboards/inline.py:21-44 | the answer buttons reach the moisture handler and the last button shows the photo |
| Routing.WateringButtonRoutes | bot/keyboards/inline.py:47-60 | the watered button reaches the watering handler |
| Routing.AnsweredButtonsRoute | bot/keyboards/inline.py:63-76 | the correction button reaches the correction handler; the other button is inert |
| Routing.AdminPlantButtonsRoute | bot/keyboards/inline.py:169-197 | the status buttons reach the status setter and the last button reaches the admin menu |
| Routing.AdminListButtonsRoute | bot/keyboards/inline.py:151-166 | each plant button reaches the admin plant view and the last button reaches the main menu |
| Routing.AdminButtonSetsStatus | bot/handlers/admin.py:86-120 | pressing the i-th status button of a known plant stores the i-th status, checked today, with the counter at 0 |
| Routing.DispatchMoisture | bot/handlers/callbacks.py:21-22 | every `moisture:` press is handled by the moisture handler |
| Routing.DispatchAdminSet | bot/handlers/admin.py:86-87 | every `admin:set:` press is handled by the status setter |
| Routing.DispatchStoresAnswer | bot/handlers/callbacks.py:21-46 | a well-formed `moisture:` press for a known plant stores the answer as the plant's moisture |
| Routing.MoistureButtonStoresAnswer | bot/keyboards/inline.py:21-44 | pressing a soil answer of a check prompt stores that answer |
| Scheduler.ParseTime | bot/services/scheduler.py:27-33 | the hour is `int()` of the text before the first ':', the minute `int()` of the text between the first and a second ':' or 0 when there is no ':'; it fails exactly when one of those fails |
| Scheduler.ParseTimeOfHourMinute | bot/services/scheduler.py:27-33 | "H:M" reads as hour H, minute M |
| Scheduler.ParseTimeOfHour | bot/services/scheduler.py:27-33 | a bare hour reads as that hour and minute 0 |
| Scheduler.ParseTimeIgnoresExtraParts | bot/services/scheduler.py:27-33 | text after a second ':' is ignored |
| Scheduler.ParseTimeOfDigits | bot/services/scheduler.py:27-33 | two digit fields around a ':' read as their values, zero-padded or not |
| Scheduler.DefaultTimes | bot/config.py:52-53 | the configured job times read as 10:00 and 18:00 |
| Scheduler.WateringPrompt | bot/services/scheduler.py:153-164 | a watering prompt is urgent exactly when the counter is at least 2, and only an urgent prompt shows the day count |
| Scheduler.SendOne | bot/services/scheduler.py:110-141 | a plant with a same-kind row today is skipped without a send; a delivered prompt is recorded as a pending row and marked sent; a failed one changes only the attempt count |
| Scheduler.SendOneOnePerDay | bot/services/scheduler.py:111-116 | one iteration keeps the log at one notification per plant, kind and day |
| Scheduler.SendOneCovers | bot/services/scheduler.py:118-137 | a delivered iteration leaves the plant with a row of the kind for today |
| Scheduler.SendAll | bot/services/scheduler.py:110-141 | a send loop keeps old rows and changes nothing but the notification log |
| Scheduler.SendAllRecords | bot/services/scheduler.py:127-136 | every row a loop adds is pending, of the loop's kind and created today |
| Scheduler.SendAllPrompts | bot/services/scheduler.py:118-138 | a loop adds one row per delivered prompt, and delivers only prompts of its kind |
| Scheduler.SendAllOnePerDay | bot/services/scheduler.py:110-141 | the same-day guard keeps the log at one notification per plant, kind and day |
| Scheduler.SendAllCovers | bot/services/scheduler.py:110-141 | when every send succeeds, every listed plant ends with a row of the kind for today |
| Scheduler.SendAllSplit | bot/services/scheduler.py:110-141 | the loop over a list is the loop over a prefix continued over the rest |
| Scheduler.SendAllPrefixStep | bot/services/scheduler.py:110-141 | the loop over one more entry is one more iteration |
| Scheduler.SendOneFound | bot/services/scheduler.py:112-137 | after one iteration the plant has a row of the kind for today exactly when it had one or this iteration's send is delivered |
| Scheduler.SendAllIsolated | bot/services/scheduler.py:110-141 | a failed send never stops the loop: whatever other sends do, a listed plant has a row of the kind for today after its iteration exactly when it had one or its own send is delivered |
| Scheduler.SendAllKeepsFound | bot/services/scheduler.py:110-141 | a plant with a row of the kind for today after its iteration keeps it to the end of the loop |
| Scheduler.DailyNotifications | bot/services/scheduler.py:94-191 | without a bot nothing happens; otherwise the counts add up to the new rows, and statuses are those of today's split |
| Scheduler.DailyRecords | bot/services/scheduler.py:127-181 | the check rows come first and the watering rows after them, all pending and created today |
| Scheduler.DailyPrompts | bot/services/scheduler.py:110-183 | one prompt per row: the moisture prompts first, then the watering prompts |
| Scheduler.DailyOnePerDay | bot/services/scheduler.py:110-150 | a daily run keeps the log at one notification per plant, kind and day |
| Scheduler.ReminderCandidates | bot/services/scheduler.py:200-203 | the rows open today that are still strictly pending, in id order |
| Scheduler.RemindAll | bot/services/scheduler.py:209-230 | a reminded row turns REMINDED; each listed row is turned exactly when its plant is known and its own send (the attempt count reached by then) is delivered, whatever the other sends do |
| Scheduler.SendReminders | bot/services/scheduler.py:193-233 | the count is the number of rows turned; each candidate row is turned exactly when the bot is set, its plant is known and its own send is delivered; a second run never reminds a row twice |
| Scheduler.AttemptsSnoc | bot/services/scheduler.py:210-224 | the loop makes one more send attempt for a row exactly when its plant is known |
| Scheduler.OwnAttemptsStep | bot/services/scheduler.py:210-230 | one more row keeps the earlier rows' standing and is turned exactly when its own send is delivered |
| Scheduler.ProgressTurn | bot/services/scheduler.py:216-227 | a delivered reminder adds its row to the turned list and keeps the loop's standing |
| Scheduler.ProgressKeep | bot/services/scheduler.py:212-230 | an unknown plant or a failed send turns nothing and keeps the loop's standing |
| Scheduler.RescheduleJob | bot/services/scheduler.py:235-239 | after the evening job no row is open today and each such row is RESCHEDULED with its answer cleared; a plant with one is due tomorrow with its counter grown by exactly its number of open watering rows, its last moisture and last check kept; every other status and row is untouched |

## Left out

- Telegram I/O is not modelled: message texts, HTML formatting, button labels, `edit_text`, and the `callback.answer` toasts. A send is a parameter that either delivers a message id or fails.
- The SQL engine and `Database.init` (`bot/database/repository.py:24-62`) are not modelled. The tables are a `Store` value, and notification ids are positions in the log.
- `get_all_plant_statuses` is not modelled: no core file calls it.
- `get_plant_photo_path` is not modelled: it only builds a file path for a photo message.
- Parsing `plants.json` is not modelled. The file is given as an optional list of plants, and a missing key raising `KeyError` is not represented.
- The gspread client and OAuth credentials are not modelled. `Sheets.Init` takes the outcome of opening the worksheet as a `Connection` value.
- Cell colours are tags (`Yellow`, `Green`) rather than RGB dictionaries.
- The cron wiring in the scheduler's `start`/`stop` (`bot/services/scheduler.py:39-92`) is not modelled; the three jobs are modelled as functions.
- The time zone is not modelled: the clock is a parameter.
- Logging is not modelled.
- `Text.ParseInt`: does not accept the underscores and non-ASCII digits that Python's `int()` also takes.
- `Scheduler.ParseTime`: performs no range check on hour and minute, as in the source, so out-of-range values are left to the cron library, which is not modelled.
- The handlers that the routers reach but the core does not define are not modelled: the menus and plant lists of `menu.py` and `plants.py`, settings, the photo button and `noop`. `Routing.Route` names them, and `Routing.Dispatch` returns None for them.
- The pending-notification query has no ORDER BY, so the source fixes no order. The model takes the rows in id order.
- The lookup by message id (`bot/database/repository.py:249-251`) has no ORDER BY either, and `fetchone` returns whichever matching row the engine yields first. `Repository.NotificationByMessageId` returns the row with the lowest id.
- `Scheduler.RescheduleJob`: runs the corrected sweep, not the one in the source. As written, the counter of a plant with a pending watering row stays unchanged (see "## Findings").
- `Sheets.SyncScheduledDates`: does not state that each listed cell ends non-empty. It states only that cached rows and columns stay put and that each plant gets a row.
- `Callbacks.HandleMoisture`: its contract does not describe the mirror. The sheet effect is stated by `Callbacks.MoistureMarked`.
- `Callbacks.HandleWatered`: its contract does not describe the mirror. The sheet effect is stated by `Callbacks.WateredMarked`.
- `Admin.AdminSetStatus`: its contract does not describe the mirror. The sheet effect is stated by `Admin.AdminMarked`. The service's advice is dropped, as the source does.
- The text of the admin menu is not modelled: it is modelled only as the sorted list of entries it prints.

## Findings

| source | as written | input that shows it | evidently intended | confidence | as-written member | corrected member |
|---|---|---|---|---|---|---|
| bot/services/plant_service.py:210-219 | the sweep reads the status row before `increment_overdue_days`, then upserts that stale row, writing the old counter back over the increment | a plant last answered DRY with counter 0 and one WATER notification still pending today: after the evening sweep its counter is still 0 | the counter grows by one per ignored watering prompt (comment at line 212), which feeds the urgent prompt at scheduler.py:153-164 and the water list at plant_service.py:186-190 | not executed | PlantService.RescheduleUnanswered (shown by PlantService.SweepLosesIncrement and PlantService.SweepKeepsOverdue) | PlantService.RescheduleUnansweredIntended |

The comment at `bot/services/plant_service.py:212` names the increment as
the purpose of that step. The model keeps the sweep as written and the
corrected sweep side by side, and its evening job uses the corrected one.

Because the counter never grows as written, and every answer resets it to 0,
a store whose counters are all 0 never puts a plant on the water list
(`PlantService.NoWateringWithoutOverdue`). The morning watering prompts of
`bot/services/scheduler.py:143-186` are then never sent. The evening job of
the model, `Scheduler.RescheduleJob`, uses the corrected sweep.

=== FILE: admin.dfy ===
/**
 The admin handlers of bot/handlers/admin.py: the admin menu listing every
 plant by its next check date, the view of one plant, and the buttons that
 set a plant's status directly. Each handler returns the new store and
 mirror with the reply the message is edited to; the texts are reduced to
 the values they show.
 */
module Admin {
  import opened Wrappers
  import opened Text
  import opened Calendar
  import opened Models
  import opened Repository
  import opened PlantService
  import opened Grid
  import opened Sheets
  import opened Keyboards
  import opened Callbacks

  // ---------------------------------------------------------------------------
  // _moisture_emoji, _moisture_text
  // ---------------------------------------------------------------------------

  /** `_moisture_emoji`: the sheet emoji of each status. Its "❓" fallback is unreachable for an enum value. */
  function MoistureEmoji(m: SoilMoisture): string {
    match m
    case Watered => "\U{2705}"
    case VeryWet => "\U{1F4A7}\U{1F4A7}"
    case SlightlyWet => "\U{1F4A7}"
    case Dry => "\U{1F3DC}"
  }

  /** `_moisture_text`: the label of each status. */
  function MoistureText(m: SoilMoisture): string {
    match m
    case Watered => "\U{2705} \U{041F}\U{043E}\U{043B}\U{0438}\U{0442}\U{043E} \U{0441}\U{0435}\U{0433}\U{043E}\U{0434}\U{043D}\U{044F}"
    case VeryWet => "\U{1F4A7}\U{1F4A7} \U{041E}\U{0447}\U{0435}\U{043D}\U{044C} \U{0432}\U{043B}\U{0430}\U{0436}\U{043D}\U{0430}\U{044F}"
    case SlightlyWet => "\U{1F4A7} \U{0421}\U{043B}\U{0435}\U{0433}\U{043A}\U{0430} \U{0432}\U{043B}\U{0430}\U{0436}\U{043D}\U{0430}\U{044F}"
    case Dry => "\U{1F3DC} \U{0421}\U{0443}\U{0445}\U{0430}\U{044F}"
  }

  /**
   The admin mappings and the notification handler's formatters agree on the
   three soil answers, and the admin emoji of a watering is the sheet's mark:
   an answer looks the same in the sheet whichever path recorded it.
   */
  lemma DisplaysAgree(m: SoilMoisture)
    ensures m != Watered ==> MoistureEmoji(m) == FormatMoistureShort(MoistureValue(m))
    ensures m != Watered ==> MoistureText(m) == FormatMoisture(MoistureValue(m))
    ensures m == Watered ==> MoistureEmoji(m) == WateredMark
  {
  }

  /** Distinct statuses get distinct emoji and distinct labels. */
  lemma DisplaysAreInjective(a: SoilMoisture, b: SoilMoisture)
    requires a != b
    ensures MoistureEmoji(a) != MoistureEmoji(b)
    ensures MoistureText(a) != MoistureText(b)
  {
  }

  // ---------------------------------------------------------------------------
  // admin_set_status
  // ---------------------------------------------------------------------------

  /** The admin handler's map: the four status tokens, "watered" included. */
  function AdminChoice(token: string): (r: Option<SoilMoisture>)
    ensures r.Some? <==> token in AdminValues
    ensures r.Some? ==> MoistureValue(r.value) == token
  {
    if token == "watered" then Some(Watered)
    else if token == "very_wet" then Some(VeryWet)
    else if token == "slightly_wet" then Some(SlightlyWet)
    else if token == "dry" then Some(Dry)
    else None
  }

  /** The admin map is the enum's own parser, and it extends the notification handler's map by "watered". */
  lemma AdminChoiceIsParse(token: string)
    ensures AdminChoice(token) == ParseMoisture(token)
    ensures MoistureChoice(token).Some? ==> AdminChoice(token) == MoistureChoice(token)
    ensures AdminChoice(token).Some? && MoistureChoice(token).None? ==> token == "watered"
  {
  }

  /**
   `admin_set_status` for data `admin:set:{id}:{value}`: the id and the value
   are fields 2 and 3 of the split, both read before anything else (a short
   datum raises). An unknown plant gets the not-found alert, then a value
   outside the four statuses the invalid-value alert, both before any write.
   Otherwise "watered" goes through the watering service and the other values
   through the moisture service (its advice is dropped); the sheet cell is
   marked with the status emoji and the next check is scheduled. No
   notification row is touched. For DRY due today the confirmation omits the
   next date and a watering prompt follows.
   */
  function AdminSetStatus(w: World, catalog: Catalog, data: string, clock: Clock): (r: (World, Reply))
    ensures r.1.Crashed? <==> |Split(data, ':')| < 4
    ensures r.1.PlantMissing? <==> |Split(data, ':')| >= 4 && FindPlant(catalog, Split(data, ':')[2]).None?
    ensures r.1.InvalidValue? <==>
      |Split(data, ':')| >= 4 && FindPlant(catalog, Split(data, ':')[2]).Some? && Split(data, ':')[3] !in AdminValues
    ensures r.1.Crashed? || r.1.PlantMissing? || r.1.InvalidValue? || r.1.Saved?
    ensures !r.1.Saved? ==> r.0 == w
    ensures r.1.Saved? ==>
      var (plantId, token) := (Split(data, ':')[2], Split(data, ':')[3]);
      var plant := FindPlant(catalog, plantId).value;
      var m := ParseMoisture(token).value;
      var s := r.0.store;
      && plantId in s.statuses && AnsweredRow(s.statuses[plantId], plant, m, clock)
      && s.statuses.Keys == w.store.statuses.Keys + {plantId}
      && (forall k :: k in w.store.statuses && k != plantId ==> s.statuses[k] == w.store.statuses[k])
      && s.notifications == w.store.notifications && s.users == w.store.users
      && r.1.shown == MoistureText(m) && r.1.advice.None? && r.1.keyboard == AdminKeyboard
      && (r.1.wateringPrompt.Some? <==> m == Dry && s.statuses[plantId].nextCheckDate == clock.today)
      && (r.1.wateringPrompt.Some? ==> r.1.wateringPrompt.value == WateringKeyboard(plantId))
      && (r.1.nextShown.Some? <==> r.1.wateringPrompt.None?)
      && (r.1.nextShown.Some? ==> r.1.nextShown.value == s.statuses[plantId].nextCheckDate)
  {
    var parts := Split(data, ':');
    if |parts| < 4 then (w, Crashed)
    else
      var (plantId, token) := (parts[2], parts[3]);
      match FindPlant(catalog, plantId)
      case None => (w, PlantMissing)
      case Some(plant) =>
        match AdminChoice(token)
        case None => (w, InvalidValue)
        case Some(m) =>
          var done: Result<(Store, Date), ServiceError> :=
            if m == Watered then ProcessWateringDone(w.store, catalog, plantId, clock)
            else
              match ProcessMoistureAnswer(w.store, catalog, plantId, m, clock)
              case Err(e) => Err(e)
              case Ok((s1, next, _)) => Ok((s1, next));
          var mark := if m == Watered then WateredMark else MoistureEmoji(m);
          match done
          case Err(_) => (w, PlantMissing)
          case Ok((s1, next)) =>
            var m1 := MarkAnswered(w.mirror, plant.name, mark, None, clock.today);
            var m2 := MarkScheduled(m1, plant.name, Some(next), clock.today);
            if m == Dry && next == clock.today then
              (World(s1, m2), Saved(MoistureText(m), None, None, AdminKeyboard, Some(WateringKeyboard(plantId))))
            else
              (World(s1, m2), Saved(MoistureText(m), Some(next), None, AdminKeyboard, None))
  }

  /**
   The sheet records a status set by the admin: when the plant's cell for today
   could be located inside the grid, it ends holding the status emoji, which
   the scheduling mark written after it never overwrites.
   */
  lemma AdminMarked(w: World, catalog: Catalog, data: string, clock: Clock)
    requires w.mirror.enabled && w.mirror.sheet.Some?
    ensures var r := AdminSetStatus(w, catalog, data, clock);
      var parts := Split(data, ':');
      r.1.Saved? ==>
        var loc := Locate(w.mirror, FindPlant(catalog, parts[2]).value.name, None, clock.today);
        loc.1 > 0 && loc.2 > 0 && InGrid(loc.0.sheet.value, loc.1, loc.2) ==>
          Cell(r.0.mirror.sheet.value, loc.1, loc.2) == MoistureEmoji(ParseMoisture(parts[3]).value)
  {
    var r := AdminSetStatus(w, catalog, data, clock);
    var parts := Split(data, ':');
    if r.1.Saved? {
      var (plantId, token) := (parts[2], parts[3]);
      var plant := FindPlant(catalog, plantId).value;
      var m := AdminChoice(token).value;
      AdminChoiceIsParse(token);
      DisplaysAgree(m);
      var mark := if m == Watered then WateredMark else MoistureEmoji(m);
      assert mark == MoistureEmoji(m) && mark != "";
      var next := r.0.store.statuses[plantId].nextCheckDate;
      var m1 := MarkAnswered(w.mirror, plant.name, mark, None, clock.today);
      assert r.0.mirror == MarkScheduled(m1, plant.name, Some(next), clock.today);
      AnswerSurvivesSchedule(w.mirror, plant.name, mark, next, clock.today);
    }
  }

  // ---------------------------------------------------------------------------
  // admin_plant
  // ---------------------------------------------------------------------------

  /**
   `admin_plant` for data `admin:plant:{id}`: an unknown plant gets the
   not-found alert with no write; otherwise its row is materialised and shown
   with the overdue line exactly when the counter is positive, under the
   plant's status keyboard.
   */
  function AdminPlantView(w: World, catalog: Catalog, data: string, clock: Clock): (r: (World, Reply))
    ensures r.1.Crashed? <==> |Split(data, ':')| < 3
    ensures r.1.PlantMissing? <==> |Split(data, ':')| >= 3 && FindPlant(catalog, Split(data, ':')[2]).None?
    ensures r.1.Crashed? || r.1.PlantMissing? || r.1.StatusShown?
    ensures r.0.mirror == w.mirror
    ensures !r.1.StatusShown? ==> r.0 == w
    ensures r.1.StatusShown? ==>
      var plantId := Split(data, ':')[2];
      && (plantId in w.store.statuses ==> r.0.store == w.store && r.1.status == w.store.statuses[plantId])
      && (plantId !in w.store.statuses ==> r.1.status == InitialStatus(plantId, clock))
      && plantId in r.0.store.statuses && r.0.store.statuses[plantId] == r.1.status
      && (r.1.overdueShown <==> r.1.status.overdueDays > 0)
      && r.1.keyboard == AdminPlantKeyboard(plantId)
  {
    var parts := Split(data, ':');
    if |parts| < 3 then (w, Crashed)
    else
      var plantId := parts[2];
      if FindPlant(catalog, plantId).None? then (w, PlantMissing)
      else
        var (s1, st) := GetOrCreateStatus(w.store, plantId, clock);
        (w.(store := s1), StatusShown(st, st.overdueDays > 0, AdminPlantKeyboard(plantId)))
  }

  /** The admin status button's data splits back into its four fields. */
  lemma AdminSetSplits(plantId: string, token: string)
    requires ':' !in plantId && ':' !in token
    ensures Split("admin:set:" + plantId + ":" + token, ':') == ["admin", "set", plantId, token]
  {
    var rest := plantId + [':'] + token;
    assert "admin:set:" + plantId + ":" + token == "admin" + [':'] + ("set" + [':'] + rest);
    SplitCons("admin", "set" + [':'] + rest, ':');
    SplitCons("set", rest, ':');
    Split2(plantId, token, ':');
  }

  /** Viewing a known plant whose row exists shows that row, without writing. */
  lemma ViewShowsRow(w: World, catalog: Catalog, plantId: string, clock: Clock)
    requires ':' !in plantId && FindPlant(catalog, plantId).Some? && plantId in w.store.statuses
    ensures var st := w.store.statuses[plantId];
      AdminPlantView(w, catalog, "admin:plant:" + plantId, clock)
        == (w, StatusShown(st, st.overdueDays > 0, AdminPlantKeyboard(plantId)))
  {
    var view := "admin:plant:" + plantId;
    assert view == "admin" + [':'] + ("plant" + [':'] + plantId);
    SplitCons("admin", "plant" + [':'] + plantId, ':');
    Split2("plant", plantId, ':');
  }

  /**
   After a status is set from the admin keyboard, the plant's view shows that
   status, checked today, with no overdue line.
   */
  lemma SetThenView(w: World, catalog: Catalog, plantId: string, token: string, clock: Clock)
    requires ':' !in plantId && ':' !in token
    ensures var r := AdminSetStatus(w, catalog, "admin:set:" + plantId + ":" + token, clock);
      r.1.Saved? ==>
        var v := AdminPlantView(r.0, catalog, "admin:plant:" + plantId, clock).1;
        && v.StatusShown?
        && ParseMoisture(token) == Some(v.status.lastMoisture)
        && v.status.lastCheckDate == clock.today
        && !v.overdueShown
  {
    AdminSetSplits(plantId, token);
    var r := AdminSetStatus(w, catalog, "admin:set:" + plantId + ":" + token, clock);
    if r.1.Saved? {
      ViewShowsRow(r.0, catalog, plantId, clock);
    }
  }

  // ---------------------------------------------------------------------------
  // menu_admin
  // ---------------------------------------------------------------------------

  /** The row `get_or_create_status` leaves for a plant id: the stored one, else the initial one. */
  function Materialised(s: Store, plantId: string, clock: Clock): PlantStatus {
    if plantId in s.statuses then s.statuses[plantId] else InitialStatus(plantId, clock)
  }

  /** What the walk leaves after visiting `plants` from store `s`: the store and the entries. */
  predicate Walked(s: Store, plants: seq<Plant>, clock: Clock, r: (Store, seq<Entry>)) {
    && r.0.statuses.Keys == s.statuses.Keys + IdsOf(plants)
    && (forall k :: k in r.0.statuses ==> r.0.statuses[k] == Materialised(s, k, clock))
    && r.0.notifications == s.notifications && r.0.users == s.users
    && |r.1| == |plants|
    && (forall i :: 0 <= i < |plants| ==> r.1[i] == (plants[i], Materialised(s, plants[i].id, clock)))
  }

  /** One more plant visited: its row is fetched or created and its entry appended. */
  lemma WalkStep(s: Store, plants: seq<Plant>, clock: Clock, before: (Store, seq<Entry>))
    requires plants != [] && Walked(s, plants[..|plants| - 1], clock, before)
    ensures var p := plants[|plants| - 1];
      var got := GetOrCreateStatus(before.0, p.id, clock);
      Walked(s, plants, clock, (got.0, before.1 + [(p, got.1)]))
  {
    var front := plants[..|plants| - 1];
    var p := plants[|plants| - 1];
    assert plants == front + [p];
    var (s1, es) := before;
    var (s2, st) := GetOrCreateStatus(s1, p.id, clock);
    IdsOfSnoc(front, p);
    assert st == Materialised(s, p.id, clock) by {
      if p.id in s1.statuses {
        assert st == s1.statuses[p.id];
      } else {
        assert p.id !in s.statuses;
      }
    }
    forall k | k in s2.statuses ensures s2.statuses[k] == Materialised(s, k, clock) {
      if k != p.id {
        assert s2.statuses[k] == s1.statuses[k];
      }
    }
    var r := es + [(p, st)];
    forall i | 0 <= i < |plants| ensures r[i] == (plants[i], Materialised(s, plants[i].id, clock)) {
      if i < |front| {
        assert r[i] == es[i] && plants[i] == front[i];
      }
    }
  }

  /**
   The walk over the catalog in `menu_admin`: each plant's row is fetched or
   created with `get_or_create_status`, in catalog order, and paired with it.
   Stored rows stay as they are, and every row the walk leaves is the one the
   starting store already gave that id.
   */
  function Materialise(s: Store, plants: seq<Plant>, clock: Clock): (r: (Store, seq<Entry>))
    ensures r.0.statuses.Keys == s.statuses.Keys + IdsOf(plants)
    ensures forall k :: k in r.0.statuses ==> r.0.statuses[k] == Materialised(s, k, clock)
    ensures r.0.notifications == s.notifications && r.0.users == s.users
    ensures |r.1| == |plants|
    ensures forall i :: 0 <= i < |plants| ==> r.1[i] == (plants[i], Materialised(s, plants[i].id, clock))
    decreases |plants|
  {
    if plants == [] then (s, [])
    else
      var front := plants[..|plants| - 1];
      var p := plants[|plants| - 1];
      var before := Materialise(s, front, clock);
      var got := GetOrCreateStatus(before.0, p.id, clock);
      assert Walked(s, front, clock, before);
      WalkStep(s, plants, clock, before);
      (got.0, before.1 + [(p, got.1)])
  }

  /** A walk from the store a walk over the same plants left finds every row in place. */
  lemma WalkedAgain(s: Store, plants: seq<Plant>, clock: Clock, r1: (Store, seq<Entry>), r2: (Store, seq<Entry>))
    requires Walked(s, plants, clock, r1) && Walked(r1.0, plants, clock, r2)
    ensures r2 == r1
  {
    var (s1, es) := r1;
    var (s2, es2) := r2;
    assert IdsOf(plants) <= s1.statuses.Keys;
    assert s2.statuses == s1.statuses by {
      forall k | k in s2.statuses ensures s2.statuses[k] == s1.statuses[k] {
        assert Materialised(s1, k, clock) == s1.statuses[k];
      }
    }
    assert s2 == s1;
    forall i | 0 <= i < |plants| ensures es2[i] == es[i] {
      assert plants[i].id in s1.statuses;
    }
    assert es2 == es;
  }

  /** A second walk finds every row in place: it writes nothing and pairs each plant with the same row. */
  lemma MaterialiseIdempotent(s: Store, plants: seq<Plant>, clock: Clock)
    ensures var r1 := Materialise(s, plants, clock);
      Materialise(r1.0, plants, clock) == r1
  {
    var r1 := Materialise(s, plants, clock);
    var r2 := Materialise(r1.0, plants, clock);
    assert Walked(s, plants, clock, r1);
    assert Walked(r1.0, plants, clock, r2);
    WalkedAgain(s, plants, clock, r1, r2);
  }

  /** The sort key of `menu_admin`: the next check date. */
  function Key(e: Entry): Date {
    e.1.nextCheckDate
  }

  predicate SortedByNext(es: seq<Entry>) {
    forall i, j :: 0 <= i < j < |es| ==> Key(es[i]) <= Key(es[j])
  }

  /** The entries with a given key, in their order: what a stable sort must keep. */
  function WithKey(es: seq<Entry>, k: Date): seq<Entry>
    decreases |es|
  {
    if es == [] then []
    else (if Key(es[0]) == k then [es[0]] else []) + WithKey(es[1..], k)
  }

  /** One step of the stable insertion: `x` goes before the first entry whose key is not below its own. */
  function Insert(x: Entry, t: seq<Entry>): (r: seq<Entry>)
    ensures multiset(r) == multiset(t) + multiset{x}
    decreases |t|
  {
    if t == [] then [x]
    else if Key(x) <= Key(t[0]) then [x] + t
    else
      assert t == [t[0]] + t[1..];
      [t[0]] + Insert(x, t[1..])
  }

  /** The tail of a sorted sequence is sorted. */
  lemma SortedTail(t: seq<Entry>)
    requires t != [] && SortedByNext(t)
    ensures SortedByNext(t[1..])
  {
    forall i, j | 0 <= i < j < |t[1..]| ensures Key(t[1..][i]) <= Key(t[1..][j]) {
      assert t[1..][i] == t[i + 1] && t[1..][j] == t[j + 1];
    }
  }

  /** Inserting into a sorted sequence keeps it sorted. */
  lemma {:induction false} InsertSorted(x: Entry, t: seq<Entry>)
    requires SortedByNext(t)
    ensures SortedByNext(Insert(x, t))
    decreases |t|
  {
    if t != [] && Key(x) > Key(t[0]) {
      SortedTail(t);
      InsertSorted(x, t[1..]);
      var rest := Insert(x, t[1..]);
      forall j | 0 <= j < |rest| ensures Key(t[0]) <= Key(rest[j]) {
        assert rest[j] in multiset(rest);
        assert rest[j] == x || rest[j] in t[1..];
      }
      var r := [t[0]] + rest;
      assert Insert(x, t) == r;
      forall i, j | 0 <= i < j < |r| ensures Key(r[i]) <= Key(r[j]) {
        if i > 0 {
          assert r[i] == rest[i - 1] && r[j] == rest[j - 1];
        } else {
          assert r[j] == rest[j - 1];
        }
      }
    }
  }

  /** Insertion puts `x` ahead of every entry with its key: the entries with any one key keep their order. */
  lemma {:induction false} InsertWithKey(x: Entry, t: seq<Entry>, k: Date)
    ensures WithKey(Insert(x, t), k) == (if Key(x) == k then [x] else []) + WithKey(t, k)
    decreases |t|
  {
    if t == [] {
      assert WithKey([x], k) == (if Key(x) == k then [x] else []) + WithKey([], k);
    } else if Key(x) <= Key(t[0]) {
      assert ([x] + t)[1..] == t;
    } else {
      var rest := Insert(x, t[1..]);
      var (ht, hx) := (if Key(t[0]) == k then [t[0]] else [], if Key(x) == k then [x] else []);
      var w := WithKey(t[1..], k);
      assert ([t[0]] + rest)[1..] == rest;
      assert WithKey(Insert(x, t), k) == ht + WithKey(rest, k);
      InsertWithKey(x, t[1..], k);
      assert WithKey(t, k) == ht + w;
      if Key(t[0]) == k {
        assert hx == [] && hx + w == w && hx + (ht + w) == ht + w;
      } else {
        assert ht == [] && ht + (hx + w) == hx + w && ht + w == w;
      }
    }
  }

  /**
   `statuses.sort(key=next_check_date)`: Python's sort is stable, so entries
   with the same date keep their catalog order.
   */
  function SortByNext(es: seq<Entry>): (r: seq<Entry>)
    ensures SortedByNext(r)
    ensures multiset(r) == multiset(es)
    ensures forall k :: WithKey(r, k) == WithKey(es, k)
    decreases |es|
  {
    if es == [] then []
    else
      assert es == [es[0]] + es[1..];
      var tail := SortByNext(es[1..]);
      InsertSorted(es[0], tail);
      assert forall k :: WithKey(Insert(es[0], tail), k) == WithKey(es, k) by {
        forall k ensures WithKey(Insert(es[0], tail), k) == WithKey(es, k) {
          InsertWithKey(es[0], tail, k);
        }
      }
      Insert(es[0], tail)
  }

  /** In a sorted sequence the entries with the smallest key come first. */
  lemma {:induction false} HeadOfWithKey(es: seq<Entry>)
    requires es != [] && SortedByNext(es)
    ensures WithKey(es, Key(es[0])) != [] && WithKey(es, Key(es[0]))[0] == es[0]
  {
  }

  /** Every entry carrying a key is at least the head's key in a sorted sequence. */
  lemma {:induction false} WithKeyBound(es: seq<Entry>, k: Date)
    requires es != [] && SortedByNext(es) && WithKey(es, k) != []
    ensures Key(es[0]) <= k
    decreases |es|
  {
    if Key(es[0]) != k {
      assert WithKey(es, k) == WithKey(es[1..], k);
      assert es[1..] != [];
      SortedTail(es);
      WithKeyBound(es[1..], k);
      assert Key(es[0]) <= Key(es[1]);
    }
  }

  /**
   The stable sort is the only one: a sorted sequence that keeps, for every
   date, the entries with that date in their original order is exactly
   `SortByNext`.
   */
  lemma {:induction false} StableSortUnique(es: seq<Entry>, t: seq<Entry>)
    requires SortedByNext(t)
    requires forall k :: WithKey(t, k) == WithKey(es, k)
    ensures t == SortByNext(es)
  {
    SortedUnique(t, SortByNext(es));
  }

  /** Two sorted sequences with the same entries per key are equal. */
  lemma {:induction false} SortedUnique(a: seq<Entry>, b: seq<Entry>)
    requires SortedByNext(a) && SortedByNext(b)
    requires forall k :: WithKey(a, k) == WithKey(b, k)
    ensures a == b
    decreases |a|
  {
    if a == [] {
      if b != [] {
        HeadOfWithKey(b);
      }
    } else if b == [] {
      HeadOfWithKey(a);
    } else {
      var (ka, kb) := (Key(a[0]), Key(b[0]));
      HeadOfWithKey(a);
      HeadOfWithKey(b);
      WithKeyBound(b, ka);
      WithKeyBound(a, kb);
      assert ka == kb;
      assert a[0] == b[0];
      forall k ensures WithKey(a[1..], k) == WithKey(b[1..], k) {
        var head := if Key(a[0]) == k then [a[0]] else [];
        assert WithKey(a, k) == head + WithKey(a[1..], k);
        assert WithKey(b, k) == head + WithKey(b[1..], k);
        assert WithKey(a[1..], k) == WithKey(a, k)[|head|..];
        assert WithKey(b[1..], k) == WithKey(b, k)[|head|..];
      }
      SortedTail(a);
      SortedTail(b);
      SortedUnique(a[1..], b[1..]);
      assert a == [a[0]] + a[1..] && b == [b[0]] + b[1..];
    }
  }

  /** Sorting an already sorted list changes nothing. */
  lemma SortSorted(es: seq<Entry>)
    requires SortedByNext(es)
    ensures SortByNext(es) == es
  {
    StableSortUnique(es, es);
  }

  /** A reordering of the walk's entries still lists every plant once, each with its stored row. */
  lemma ListedEntries(s: Store, plants: seq<Plant>, es: seq<Entry>, sorted: seq<Entry>)
    requires |es| == |plants|
    requires forall i :: 0 <= i < |plants| ==> plants[i].id in s.statuses && es[i] == (plants[i], s.statuses[plants[i].id])
    requires multiset(sorted) == multiset(es)
    ensures |sorted| == |plants|
    ensures forall e :: e in sorted ==> e.0 in plants && e.0.id in s.statuses && s.statuses[e.0.id] == e.1
    ensures forall i :: 0 <= i < |plants| ==> (plants[i], s.statuses[plants[i].id]) in sorted
  {
    assert |sorted| == |es| by {
      assert |multiset(sorted)| == |multiset(es)|;
    }
    forall e | e in sorted ensures e.0 in plants && e.0.id in s.statuses && s.statuses[e.0.id] == e.1 {
      assert e in multiset(es);
    }
    forall i | 0 <= i < |plants| ensures (plants[i], s.statuses[plants[i].id]) in sorted {
      assert es[i] in multiset(sorted);
    }
  }

  /**
   `menu_admin`: every catalog plant's row is materialised, and the plants are
   listed by next check date, ties in catalog order. The keyboard lists the
   plants in catalog order, not in the order of the text.
   */
  function MenuAdmin(w: World, catalog: Catalog, clock: Clock): (r: (World, Reply))
    ensures r.0.mirror == w.mirror && r.1.Listed?
    ensures r.0.store.statuses.Keys == w.store.statuses.Keys + IdsOf(catalog)
    ensures forall k :: k in w.store.statuses ==> r.0.store.statuses[k] == w.store.statuses[k]
    ensures r.0.store.notifications == w.store.notifications && r.0.store.users == w.store.users
    ensures SortedByNext(r.1.entries)
    ensures forall d :: WithKey(r.1.entries, d) == WithKey(Materialise(w.store, catalog, clock).1, d)
    ensures |r.1.entries| == |catalog|
    ensures forall e :: e in r.1.entries ==> e.0 in catalog && r.0.store.statuses[e.0.id] == e.1
    ensures forall i :: 0 <= i < |catalog| ==> (catalog[i], r.0.store.statuses[catalog[i].id]) in r.1.entries
    ensures r.1.keyboard == AdminPlantsListKeyboard(catalog)
  {
    var (s1, es) := Materialise(w.store, catalog, clock);
    var sorted := SortByNext(es);
    ListedEntries(s1, catalog, es, sorted);
    (World(s1, w.mirror), Listed(sorted, AdminPlantsListKeyboard(catalog)))
  }
}

=== FILE: calendar.dfy ===
/**
 Proleptic Gregorian calendar on integer day numbers, standing in for Python's
 `datetime.date`. A `Date` counts days from 2000-01-01 (day 0), so
 `d + timedelta(days=k)` is `d + k` and date comparison is integer comparison.
 */
module Calendar {

  /** A calendar day, as a day number relative to 2000-01-01. */
  type Date = int

  /** A year/month/day triple, what `date.year`, `date.month` and `date.day` read. */
  datatype Civil = Civil(year: int, month: int, day: int)

  /** Days in one 400-year Gregorian cycle; the calendar repeats with this period. */
  const CycleDays: int := 146097

  predicate IsLeap(y: int) {
    (y % 4 == 0 && y % 100 != 0) || y % 400 == 0
  }

  function DaysInYear(y: int): int {
    if IsLeap(y) then 366 else 365
  }

  function DaysInMonth(y: int, m: int): int
    requires 1 <= m <= 12
  {
    if m == 2 then (if IsLeap(y) then 29 else 28)
    else if m == 4 || m == 6 || m == 9 || m == 11 then 30
    else 31
  }

  /** What `date(y, m, d)` accepts without raising `ValueError` (the year range aside). */
  predicate IsValidDate(y: int, m: int, d: int) {
    1 <= m <= 12 && 1 <= d <= DaysInMonth(y, m)
  }

  /** Days from the first day of month `m` to the end of year `y`. */
  function DaysToYearEnd(y: int, m: int): int
    requires 1 <= m <= 12
    decreases 12 - m
  {
    if m == 12 then 31 else DaysInMonth(y, m) + DaysToYearEnd(y, m + 1)
  }

  lemma YearIsItsMonths(y: int)
    ensures DaysToYearEnd(y, 1) == DaysInYear(y)
  {
    assert DaysToYearEnd(y, 12) == 31;
    assert DaysToYearEnd(y, 11) == 61;
    assert DaysToYearEnd(y, 10) == 92;
    assert DaysToYearEnd(y, 9) == 122;
    assert DaysToYearEnd(y, 8) == 153;
    assert DaysToYearEnd(y, 7) == 184;
    assert DaysToYearEnd(y, 6) == 214;
    assert DaysToYearEnd(y, 5) == 245;
    assert DaysToYearEnd(y, 4) == 275;
    assert DaysToYearEnd(y, 3) == 306;
  }

  /** Walks whole years forward from `y` until `r` falls inside a year: (year, day of year). */
  function YearWalk(y: int, r: nat): (yd: (int, nat))
    ensures yd.1 < DaysInYear(yd.0)
    decreases r
  {
    if r < DaysInYear(y) then (y, r) else YearWalk(y + 1, r - DaysInYear(y))
  }

  /** Walks whole months forward from month `m` of year `y`: (month, day of month). */
  function MonthWalk(y: int, m: int, r: nat): (md: (int, int))
    requires 1 <= m <= 12 && r < DaysToYearEnd(y, m)
    ensures IsValidDate(y, md.0, md.1)
    decreases 12 - m
  {
    if r < DaysInMonth(y, m) then (m, r + 1) else MonthWalk(y, m + 1, r - DaysInMonth(y, m))
  }

  /** The calendar date of a day number; always a valid date. */
  function ToCivil(d: Date): (c: Civil)
    ensures IsValidDate(c.year, c.month, c.day)
  {
    var yd := YearWalk(2000 + 400 * (d / CycleDays), d % CycleDays);
    YearIsItsMonths(yd.0);
    var md := MonthWalk(yd.0, 1, yd.1);
    Civil(yd.0, md.0, md.1)
  }
}

=== FILE: callbacks.dfy ===
/**
 The decision logic of the notification buttons (bot/handlers/callbacks.py):
 the moisture answer, the watering confirmation and the correction button.
 Each handler takes the button's callback data and the id of the message the
 button sits on, and returns the new store and mirror with a reply that
 stands for the edited message, the alert shown, or the exception that
 escapes. The catalog is taken as loaded and the clock is a parameter.
 */
module Callbacks {
  import opened Wrappers
  import opened Text
  import opened Calendar
  import opened Models
  import opened Repository
  import opened PlantService
  import opened Grid
  import opened Sheets
  import opened Keyboards

  /** What a button handler reads and writes: the store and the spreadsheet mirror. */
  datatype World = World(store: Store, mirror: Mirror)

  /** What a handler shows besides the state it leaves. */
  datatype Reply =
      /** The data lacks a field the handler indexes: the IndexError escapes before any write. */
    | Crashed
      /** The "plant not found" alert. */
    | PlantMissing
      /** The "invalid value" alert. */
    | InvalidValue
      /**
       The prompt is edited to show the answer, the next check date (if shown)
       and the service's advice (if any), under the given keyboard; a second
       message with the watering keyboard may follow.
       */
    | Saved(shown: string, nextShown: Option<Date>, advice: Option<Advice>, keyboard: Keyboard,
            wateringPrompt: Option<Keyboard>)
      /** The prompt is edited back to a question with the given keyboard. */
    | Reasked(keyboard: Keyboard)
      /** The admin menu: the plants in display order, with the list keyboard. */
    | Listed(entries: seq<Entry>, keyboard: Keyboard)
      /** The admin view of one plant: its status, whether the overdue line shows, and its keyboard. */
    | StatusShown(status: PlantStatus, overdueShown: bool, keyboard: Keyboard)

  // ---------------------------------------------------------------------------
  // Display mappings
  // ---------------------------------------------------------------------------

  /** The value the moisture handler's map gives a token: only the three soil answers, never "watered". */
  function MoistureChoice(token: string): (r: Option<SoilMoisture>)
    ensures r.Some? <==> token in CheckAnswers
    ensures r.Some? ==> MoistureValue(r.value) == token && r.value != Watered
  {
    if token == "very_wet" then Some(VeryWet)
    else if token == "slightly_wet" then Some(SlightlyWet)
    else if token == "dry" then Some(Dry)
    else None
  }

  /** The moisture handler's map agrees with the enum's own parser wherever it accepts a token. */
  lemma MoistureChoiceAgrees(token: string)
    ensures MoistureChoice(token).Some? ==> MoistureChoice(token) == ParseMoisture(token)
    ensures ParseMoisture(token).Some? && ParseMoisture(token).value != Watered ==> MoistureChoice(token) == ParseMoisture(token)
  {
  }

  /** `_format_moisture`: the label of a soil answer; any other input is returned as it is. */
  function FormatMoisture(token: string): (r: string)
    ensures token !in CheckAnswers ==> r == token
    ensures token in CheckAnswers ==> r != token && |r| > 0 && (r[0] == '\U{1F4A7}' || r[0] == '\U{1F3DC}')
  {
    if token == "very_wet" then "\U{1F4A7}\U{1F4A7} \U{041E}\U{0447}\U{0435}\U{043D}\U{044C} \U{0432}\U{043B}\U{0430}\U{0436}\U{043D}\U{0430}\U{044F}"
    else if token == "slightly_wet" then "\U{1F4A7} \U{0421}\U{043B}\U{0435}\U{0433}\U{043A}\U{0430} \U{0432}\U{043B}\U{0430}\U{0436}\U{043D}\U{0430}\U{044F}"
    else if token == "dry" then "\U{1F3DC} \U{0421}\U{0443}\U{0445}\U{0430}\U{044F}"
    else token
  }

  /** `_format_moisture_short`: the emoji of a soil answer for the sheet; any other input is returned as it is. */
  function FormatMoistureShort(token: string): (r: string)
    ensures token !in CheckAnswers ==> r == token
    ensures token in CheckAnswers ==> r != token && r != ""
  {
    if token == "very_wet" then "\U{1F4A7}\U{1F4A7}"
    else if token == "slightly_wet" then "\U{1F4A7}"
    else if token == "dry" then "\U{1F3DC}"
    else token
  }

  /** Distinct soil answers get distinct labels and distinct emoji, so the sheet and the chat tell them apart. */
  lemma FormatsAreInjective(a: string, b: string)
    requires a in CheckAnswers && b in CheckAnswers && a != b
    ensures FormatMoisture(a) != FormatMoisture(b)
    ensures FormatMoistureShort(a) != FormatMoistureShort(b)
  {
  }

  /** The "✅" the sheet shows for a watering. */
  const WateredMark: string := "\U{2705}"

  /** The answer a watering prompt's keyboard shows: "Полито". */
  const WateredShown: string := "\U{041F}\U{043E}\U{043B}\U{0438}\U{0442}\U{043E}"

  /** The answer the store records for a watering confirmation. */
  const WateredAnswer: string := "watered"

  // ---------------------------------------------------------------------------
  // Recording the answer on the prompt's notification
  // ---------------------------------------------------------------------------

  /**
   `get_notification_by_message_id` then `update_notification(id, ANSWERED,
   answer)` when a row was found: the first row carrying the message id
   becomes answered with that answer, stamped now; a message no row carries
   changes nothing.
   */
  function AnswerNotification(s: Store, messageId: int, answer: string, now: Stamp): (r: Store)
    requires answer != ""
    ensures r.statuses == s.statuses && r.users == s.users && |r.notifications| == |s.notifications|
    ensures NotificationByMessageId(s, messageId).None? ==> r == s
    ensures NotificationByMessageId(s, messageId).Some? ==>
      var id := NotificationByMessageId(s, messageId).value;
      && Row(r, id) == Row(s, id).(status := Answered, answer := Some(answer), answeredAt := Some(now))
      && forall j :: HasRow(s, j) && j != id ==> Row(r, j) == Row(s, j)
  {
    match NotificationByMessageId(s, messageId)
    case None => s
    case Some(id) => UpdateNotification(s, id, Answered, Some(answer), now)
  }

  /** Answering leaves every row's message id in place, so the same row is found by its message afterwards. */
  lemma AnswerKeepsLookup(s: Store, messageId: int, answer: string, now: Stamp)
    requires answer != ""
    ensures NotificationByMessageId(AnswerNotification(s, messageId, answer, now), messageId)
         == NotificationByMessageId(s, messageId)
  {
    var r := AnswerNotification(s, messageId, answer, now);
    assert forall j :: HasRow(s, j) ==> Row(r, j).messageId == Row(s, j).messageId;
  }

  // ---------------------------------------------------------------------------
  // handle_moisture_answer
  // ---------------------------------------------------------------------------

  /**
   `handle_moisture_answer` for data `moisture:{id}:{answer}`: the id and the
   answer are fields 1 and 2 of the data split on ':'. An unknown plant gets
   the not-found alert and an answer outside very_wet, slightly_wet and dry
   the invalid-value alert, both before any write. Otherwise the service
   stores the answer, the prompt's notification is answered with the raw
   token, the sheet is marked answered and scheduled, and for a DRY answer
   whose next check is today a watering prompt follows at once.
   */
  function HandleMoisture(w: World, catalog: Catalog, data: string, messageId: int, clock: Clock): (r: (World, Reply))
    ensures r.1.Crashed? <==> |Split(data, ':')| < 3
    ensures r.1.PlantMissing? <==> |Split(data, ':')| >= 3 && FindPlant(catalog, Split(data, ':')[1]).None?
    ensures r.1.InvalidValue? <==>
      |Split(data, ':')| >= 3 && FindPlant(catalog, Split(data, ':')[1]).Some? && Split(data, ':')[2] !in CheckAnswers
    ensures !r.1.Saved? ==> r.0 == w
    ensures r.1.Saved? ==>
      var (plantId, token) := (Split(data, ':')[1], Split(data, ':')[2]);
      var m := MoistureChoice(token).value;
      var (s1, next, advice) := ProcessMoistureAnswer(w.store, catalog, plantId, m, clock).value;
      && r.0.store == AnswerNotification(s1, messageId, token, clock.now)
      && r.1.shown == FormatMoisture(token)
      && r.1.keyboard == AnsweredKeyboard(plantId)
      && (r.1.wateringPrompt.Some? <==> m == Dry && next == clock.today)
      && (r.1.wateringPrompt.Some? ==> r.1.wateringPrompt.value == WateringKeyboard(plantId))
      && (r.1.nextShown.Some? <==> r.1.wateringPrompt.None?)
      && (r.1.nextShown.Some? ==> r.1.nextShown.value == next && r.1.advice == advice)
  {
    var parts := Split(data, ':');
    if |parts| < 3 then (w, Crashed)
    else
      var (plantId, token) := (parts[1], parts[2]);
      match FindPlant(catalog, plantId)
      case None => (w, PlantMissing)
      case Some(plant) =>
        match MoistureChoice(token)
        case None => (w, InvalidValue)
        case Some(m) =>
          match ProcessMoistureAnswer(w.store, catalog, plantId, m, clock)
          case Err(_) => (w, PlantMissing)
          case Ok((s1, next, advice)) =>
            var s2 := AnswerNotification(s1, messageId, token, clock.now);
            var m1 := MarkAnswered(w.mirror, plant.name, FormatMoistureShort(token), None, clock.today);
            var m2 := MarkScheduled(m1, plant.name, Some(next), clock.today);
            if m == Dry && next == clock.today then
              (World(s2, m2), Saved(FormatMoisture(token), None, None, AnsweredKeyboard(plantId),
                                    Some(WateringKeyboard(plantId))))
            else
              (World(s2, m2), Saved(FormatMoisture(token), Some(next), advice, AnsweredKeyboard(plantId), None))
  }

  /** A saved moisture answer is the plant's stored moisture; a well-formed answer for a known plant is always saved. */
  lemma MoistureStored(w: World, catalog: Catalog, data: string, messageId: int, clock: Clock)
    ensures var r := HandleMoisture(w, catalog, data, messageId, clock);
      var parts := Split(data, ':');
      && (|parts| >= 3 && FindPlant(catalog, parts[1]).Some? && parts[2] in CheckAnswers ==> r.1.Saved?)
      && (r.1.Saved? ==> parts[1] in r.0.store.statuses && MoistureValue(r.0.store.statuses[parts[1]].lastMoisture) == parts[2])
  {
    var r := HandleMoisture(w, catalog, data, messageId, clock);
    var parts := Split(data, ':');
    if r.1.Saved? {
      var m := MoistureChoice(parts[2]).value;
      var (s1, next, advice) := ProcessMoistureAnswer(w.store, catalog, parts[1], m, clock).value;
      assert r.0.store.statuses == s1.statuses;
    }
  }

  /**
   With positive intervals, a moisture answer is followed by a watering prompt
   exactly when it is "dry" and the plant prefers overwatering.
   */
  lemma MoisturePromptIff(w: World, catalog: Catalog, plantId: string, token: string, messageId: int, clock: Clock)
    requires ':' !in plantId && ':' !in token
    requires FindPlant(catalog, plantId).Some?
    requires var p := FindPlant(catalog, plantId).value;
      p.checkIntervalDays > 0 && p.wetIntervalDays > 0 && p.moistIntervalDays > 0
    ensures var r := HandleMoisture(w, catalog, "moisture" + [':'] + plantId + [':'] + token, messageId, clock);
      r.1.Saved? ==>
        (r.1.wateringPrompt.Some? <==> token == "dry" && FindPlant(catalog, plantId).value.preference == Overwater)
  {
    var data := "moisture" + [':'] + plantId + [':'] + token;
    Split3("moisture", plantId, token, ':');
    var plant := FindPlant(catalog, plantId).value;
    if token in CheckAnswers {
      NextCheckTodayIff(plant, MoistureChoice(token).value, clock.today);
    }
  }

  /**
   The sheet records a saved moisture answer: when the plant's cell for today
   could be located inside the grid, it ends holding the answer's emoji. The
   scheduling mark written after it never overwrites it, even when the next
   check falls on today.
   */
  lemma MoistureMarked(w: World, catalog: Catalog, data: string, messageId: int, clock: Clock)
    requires w.mirror.enabled && w.mirror.sheet.Some?
    ensures var r := HandleMoisture(w, catalog, data, messageId, clock);
      var parts := Split(data, ':');
      r.1.Saved? ==>
        var loc := Locate(w.mirror, FindPlant(catalog, parts[1]).value.name, None, clock.today);
        loc.1 > 0 && loc.2 > 0 && InGrid(loc.0.sheet.value, loc.1, loc.2) ==>
          Cell(r.0.mirror.sheet.value, loc.1, loc.2) == FormatMoistureShort(parts[2])
  {
    var r := HandleMoisture(w, catalog, data, messageId, clock);
    var parts := Split(data, ':');
    if r.1.Saved? {
      var (plantId, token) := (parts[1], parts[2]);
      var plant := FindPlant(catalog, plantId).value;
      var m := MoistureChoice(token).value;
      var (s1, next, advice) := ProcessMoistureAnswer(w.store, catalog, plantId, m, clock).value;
      var m1 := MarkAnswered(w.mirror, plant.name, FormatMoistureShort(token), None, clock.today);
      assert r.0.mirror == MarkScheduled(m1, plant.name, Some(next), clock.today);
      AnswerSurvivesSchedule(w.mirror, plant.name, FormatMoistureShort(token), next, clock.today);
    }
  }

  /**
   The same for a confirmed watering: the located cell for today ends holding
   the watering mark.
   */
  lemma WateredMarked(w: World, catalog: Catalog, data: string, messageId: int, clock: Clock)
    requires w.mirror.enabled && w.mirror.sheet.Some?
    ensures var r := HandleWatered(w, catalog, data, messageId, clock);
      r.1.Saved? ==>
        var loc := Locate(w.mirror, FindPlant(catalog, Split(data, ':')[1]).value.name, None, clock.today);
        loc.1 > 0 && loc.2 > 0 && InGrid(loc.0.sheet.value, loc.1, loc.2) ==>
          Cell(r.0.mirror.sheet.value, loc.1, loc.2) == WateredMark
  {
    var r := HandleWatered(w, catalog, data, messageId, clock);
    if r.1.Saved? {
      var plantId := Split(data, ':')[1];
      var plant := FindPlant(catalog, plantId).value;
      var (s1, next) := ProcessWateringDone(w.store, catalog, plantId, clock).value;
      var m1 := MarkAnswered(w.mirror, plant.name, WateredMark, None, clock.today);
      assert r.0.mirror == MarkScheduled(m1, plant.name, Some(next), clock.today);
      AnswerSurvivesSchedule(w.mirror, plant.name, WateredMark, next, clock.today);
    }
  }

  // ---------------------------------------------------------------------------
  // handle_watered
  // ---------------------------------------------------------------------------

  /**
   `handle_watered` for data `watered:{id}`: an unknown plant gets the
   not-found alert with no write. Otherwise the service records the
   watering, the prompt's notification is answered with "watered", and the
   sheet is marked answered and scheduled.
   */
  function HandleWatered(w: World, catalog: Catalog, data: string, messageId: int, clock: Clock): (r: (World, Reply))
    ensures r.1.Crashed? <==> |Split(data, ':')| < 2
    ensures r.1.PlantMissing? <==> |Split(data, ':')| >= 2 && FindPlant(catalog, Split(data, ':')[1]).None?
    ensures !r.1.Saved? ==> r.0 == w
    ensures r.1.Crashed? || r.1.PlantMissing? || r.1.Saved?
    ensures r.1.Saved? ==>
      var plantId := Split(data, ':')[1];
      var (s1, next) := ProcessWateringDone(w.store, catalog, plantId, clock).value;
      && r.0.store == AnswerNotification(s1, messageId, WateredAnswer, clock.now)
      && r.1 == Saved(WateredShown, Some(next), None, AnsweredKeyboard(plantId), None)
  {
    var parts := Split(data, ':');
    if |parts| < 2 then (w, Crashed)
    else
      var plantId := parts[1];
      match FindPlant(catalog, plantId)
      case None => (w, PlantMissing)
      case Some(plant) =>
        match ProcessWateringDone(w.store, catalog, plantId, clock)
        case Err(_) => (w, PlantMissing)
        case Ok((s1, next)) =>
          var s2 := AnswerNotification(s1, messageId, WateredAnswer, clock.now);
          var m1 := MarkAnswered(w.mirror, plant.name, WateredMark, None, clock.today);
          var m2 := MarkScheduled(m1, plant.name, Some(next), clock.today);
          (World(s2, m2), Saved(WateredShown, Some(next), None, AnsweredKeyboard(plantId), None))
  }

  // ---------------------------------------------------------------------------
  // handle_correct_answer
  // ---------------------------------------------------------------------------

  /**
   `handle_correct_answer` for data `correct:{id}`: writes nothing. For a
   known plant the prompt goes back to the watering keyboard when the
   message's notification was answered "watered", and to the moisture
   keyboard otherwise (no notification, or any other answer).
   */
  function HandleCorrect(w: World, catalog: Catalog, data: string, messageId: int): (r: (World, Reply))
    ensures r.0 == w
    ensures r.1.Crashed? <==> |Split(data, ':')| < 2
    ensures r.1.PlantMissing? <==> |Split(data, ':')| >= 2 && FindPlant(catalog, Split(data, ':')[1]).None?
    ensures r.1.Crashed? || r.1.PlantMissing? || r.1.Reasked?
    ensures r.1.Reasked? ==>
      var plantId := Split(data, ':')[1];
      var found := NotificationByMessageId(w.store, messageId);
      if found.Some? && Row(w.store, found.value).answer == Some(WateredAnswer)
      then r.1.keyboard == WateringKeyboard(plantId)
      else r.1.keyboard == MoistureKeyboard(plantId)
  {
    var parts := Split(data, ':');
    if |parts| < 2 then (w, Crashed)
    else
      var plantId := parts[1];
      if FindPlant(catalog, plantId).None? then (w, PlantMissing)
      else
        var found := NotificationByMessageId(w.store, messageId);
        if found.Some? && Row(w.store, found.value).answer == Some(WateredAnswer)
        then (w, Reasked(WateringKeyboard(plantId)))
        else (w, Reasked(MoistureKeyboard(plantId)))
  }

  /**
   Correcting a confirmed watering brings back the watering keyboard whenever
   the prompt's message has a notification row.
   */
  lemma CorrectAfterWatered(w: World, catalog: Catalog, plantId: string, messageId: int, clock: Clock)
    requires ':' !in plantId
    requires NotificationByMessageId(w.store, messageId).Some?
    ensures var r := HandleWatered(w, catalog, "watered" + [':'] + plantId, messageId, clock);
      r.1.Saved? ==>
        HandleCorrect(r.0, catalog, "correct" + [':'] + plantId, messageId).1 == Reasked(WateringKeyboard(plantId))
  {
    Split2("watered", plantId, ':');
    Split2("correct", plantId, ':');
    var r := HandleWatered(w, catalog, "watered" + [':'] + plantId, messageId, clock);
    if r.1.Saved? {
      var (s1, next) := ProcessWateringDone(w.store, catalog, plantId, clock).value;
      assert s1.notifications == w.store.notifications;
      AnswerKeepsLookup(s1, messageId, WateredAnswer, clock.now);
    }
  }

  /**
   Correcting a moisture answer brings back the moisture keyboard: the
   recorded answer is a soil token, never "watered".
   */
  lemma CorrectAfterMoisture(w: World, catalog: Catalog, plantId: string, token: string, messageId: int, clock: Clock)
    requires ':' !in plantId && ':' !in token
    requires NotificationByMessageId(w.store, messageId).Some?
    ensures var r := HandleMoisture(w, catalog, "moisture" + [':'] + plantId + [':'] + token, messageId, clock);
      r.1.Saved? ==>
        HandleCorrect(r.0, catalog, "correct" + [':'] + plantId, messageId).1 == Reasked(MoistureKeyboard(plantId))
  {
    Split2("correct", plantId, ':');
    Split3("moisture", plantId, token, ':');
    var r := HandleMoisture(w, catalog, "moisture" + [':'] + plantId + [':'] + token, messageId, clock);
    if r.1.Saved? {
      var m := MoistureChoice(token).value;
      var (s1, next, advice) := ProcessMoistureAnswer(w.store, catalog, plantId, m, clock).value;
      assert s1.notifications == w.store.notifications;
      AnswerKeepsLookup(s1, messageId, token, clock.now);
      assert token != WateredAnswer;
    }
  }
}

=== FILE: config.dfy ===
/**
 The settings the bot derives from its environment (bot/config.py): the
 comma-separated admin ids and names, the admin lookups built on them, and
 the fixed job times. Reading the environment file is left out; the raw
 strings are parameters.
 */
module Config {
  import opened Wrappers
  import opened Text

  /** The fixed time of the morning notifications. */
  const NotificationTime: string := "10:00"

  /** The fixed time of the evening reminders. */
  const ReminderTime: string := "18:00"

  // ---------------------------------------------------------------------------
  // admin_ids_list
  // ---------------------------------------------------------------------------

  /** The parts the comprehension keeps: each stripped, the empty ones dropped, in order. */
  function Kept(parts: seq<string>): (r: seq<string>)
    ensures forall i :: 0 <= i < |r| ==> r[i] != []
    decreases |parts|
  {
    if parts == [] then []
    else if Strip(parts[0]) == [] then Kept(parts[1..])
    else [Strip(parts[0])] + Kept(parts[1..])
  }

  /** A parser applied to every part, in order; one part it rejects makes the whole list fail. */
  function ParseAll<T>(parts: seq<string>, parse: string -> Option<T>): (r: Option<seq<T>>)
    ensures r.Some? <==> forall i :: 0 <= i < |parts| ==> parse(parts[i]).Some?
    ensures r.Some? ==> |r.value| == |parts|
    ensures r.Some? ==> forall i :: 0 <= i < |parts| ==> parse(parts[i]) == Some(r.value[i])
    decreases |parts|
  {
    if parts == [] then Some([])
    else
      var head := parse(parts[0]);
      var tail := ParseAll(parts[1..], parse);
      assert forall i :: 1 <= i < |parts| ==> parts[i] == parts[1..][i - 1];
      if head.None? || tail.None? then None else Some([head.value] + tail.value)
  }

  /**
   `admin_ids_list`: the raw string split on ',', each part stripped, empty
   parts dropped, the rest read by `int()` in order; a part `int()` rejects
   makes the property raise (None here).
   */
  function AdminIdsList(raw: string): (r: Option<seq<int>>)
    ensures r.Some? ==> forall i :: 0 <= i < |Kept(Split(raw, ','))| ==> ParseInt(Kept(Split(raw, ','))[i]).Some?
    ensures r.None? ==> exists i :: 0 <= i < |Kept(Split(raw, ','))| && ParseInt(Kept(Split(raw, ','))[i]).None?
    ensures r.Some? ==> |r.value| == |Kept(Split(raw, ','))|
    ensures r.Some? ==> forall i :: 0 <= i < |r.value| ==> ParseInt(Kept(Split(raw, ','))[i]) == Some(r.value[i])
  {
    var kept := Kept(Split(raw, ','));
    var parse: string -> Option<int> := ParseInt;
    var r := ParseAll(kept, parse);
    assert (forall i :: 0 <= i < |kept| ==> parse(kept[i]).Some?) <==>
           (forall i :: 0 <= i < |kept| ==> ParseInt(kept[i]).Some?);
    r
  }

  /** The decimal spellings of a list of ids. */
  function Spell(ids: seq<int>): (r: seq<string>)
    ensures |r| == |ids|
    ensures forall i :: 0 <= i < |ids| ==> r[i] == IntToString(ids[i])
  {
    if ids == [] then [] else [IntToString(ids[0])] + Spell(ids[1..])
  }

  /** The way an operator writes the list: the ids' spellings joined by ','. */
  function IdsText(ids: seq<int>): string {
    if ids == [] then "" else Join(Spell(ids), ',')
  }

  /** A string of digits, or a minus sign and digits, holds no comma. */
  lemma SpelledHasNoComma(n: int)
    ensures ',' !in IntToString(n)
  {
    var s := IntToString(n);
    if n >= 0 {
      assert forall i :: 0 <= i < |s| ==> IsDigit(s[i]);
    } else {
      assert forall i :: 1 <= i < |s| ==> s[i] == s[1..][i - 1] && IsDigit(s[i]);
    }
  }

  /** A spelled integer has no whitespace at either end. */
  lemma SpelledEnds(n: int)
    ensures var s := IntToString(n); !IsSpace(s[0]) && !IsSpace(s[|s| - 1])
  {
    var s := IntToString(n);
    if n >= 0 {
      DigitsNotSpace(s);
    } else {
      DigitsNotSpace(s[1..]);
      assert s[|s| - 1] == s[1..][|s[1..]| - 1];
    }
  }

  /** A spelled integer is its own strip and holds no comma. */
  lemma SpelledIsClean(n: int)
    ensures Strip(IntToString(n)) == IntToString(n) && ',' !in IntToString(n)
  {
    SpelledEnds(n);
    SpelledHasNoComma(n);
  }

  /** Parts that are non-empty and already stripped are all kept, unchanged. */
  lemma {:induction false} KeptClean(parts: seq<string>)
    requires forall i :: 0 <= i < |parts| ==> parts[i] != [] && Strip(parts[i]) == parts[i]
    ensures Kept(parts) == parts
    decreases |parts|
  {
    if parts != [] {
      assert forall i :: 1 <= i < |parts| ==> parts[1..][i - 1] == parts[i];
      KeptClean(parts[1..]);
      assert [parts[0]] + parts[1..] == parts;
    }
  }

  /** Keeping spelled ids keeps them all, unchanged. */
  lemma KeptSpelled(ids: seq<int>)
    ensures Kept(Spell(ids)) == Spell(ids)
  {
    forall i | 0 <= i < |ids| ensures Strip(Spell(ids)[i]) == Spell(ids)[i] {
      SpelledIsClean(ids[i]);
    }
    KeptClean(Spell(ids));
  }

  /** Writing ids out as the operator does and reading them back gives the same ids. */
  lemma AdminIdsRoundTrip(ids: seq<int>)
    ensures AdminIdsList(IdsText(ids)) == Some(ids)
  {
    if ids == [] {
      assert Split("", ',') == [""];
      assert Kept([""]) == [];
    } else {
      forall i | 0 <= i < |ids| ensures ',' !in Spell(ids)[i] {
        SpelledIsClean(ids[i]);
      }
      SplitJoin(Spell(ids), ',');
      KeptSpelled(ids);
      forall i | 0 <= i < |ids| ensures ParseInt(Spell(ids)[i]) == Some(ids[i]) {
        ParseIntOfString(ids[i]);
      }
      var r := AdminIdsList(IdsText(ids));
      assert r.Some?;
      assert r.value == ids;
    }
  }

  // ---------------------------------------------------------------------------
  // admin_names_map, get_admin_name, is_admin
  // ---------------------------------------------------------------------------

  /** No id after position `i` and before `n` repeats the id at `i`: the pair at `i` is the one `dict` keeps. */
  predicate LastBefore(ids: seq<int>, i: int, n: int)
    requires 0 <= i < n <= |ids|
  {
    forall j :: i < j < n ==> ids[j] != ids[i]
  }

  /** Adding the last pair to the map of the earlier pairs gives the map of all pairs. */
  lemma ZipStep(ids: seq<int>, names: seq<string>, prev: map<int, string>)
    requires |ids| == |names| > 0
    requires var n := |ids| - 1;
      forall i :: 0 <= i < n ==> ids[..n][i] in prev && (LastBefore(ids[..n], i, n) ==> prev[ids[..n][i]] == names[..n][i])
    ensures var n := |ids| - 1; var r := prev[ids[n] := names[n]];
      forall i :: 0 <= i < |ids| ==> ids[i] in r && (LastBefore(ids, i, |ids|) ==> r[ids[i]] == names[i])
  {
    var n := |ids| - 1;
    var r := prev[ids[n] := names[n]];
    forall i | 0 <= i < |ids|
      ensures ids[i] in r && (LastBefore(ids, i, |ids|) ==> r[ids[i]] == names[i])
    {
      if i < n {
        assert ids[..n][i] == ids[i] && names[..n][i] == names[i];
        if LastBefore(ids, i, |ids|) {
          assert LastBefore(ids[..n], i, n);
        }
      }
    }
  }

  /** `dict(zip(ids, names))` for lists of equal length: pairs by position, a later duplicate id winning. */
  function ZipEqual(ids: seq<int>, names: seq<string>): (r: map<int, string>)
    requires |ids| == |names|
    ensures forall k :: k in r <==> k in ids
    ensures forall i :: 0 <= i < |ids| ==> ids[i] in r && (LastBefore(ids, i, |ids|) ==> r[ids[i]] == names[i])
    decreases |ids|
  {
    if ids == [] then map[]
    else
      var n := |ids| - 1;
      var prev := ZipEqual(ids[..n], names[..n]);
      var r := prev[ids[n] := names[n]];
      assert forall k :: k in ids <==> k in ids[..n] || k == ids[n] by {
        assert ids == ids[..n] + [ids[n]];
      }
      ZipStep(ids, names, prev);
      r
  }

  /** The shorter of two lengths: `zip` stops at the end of the shorter list. */
  function Shorter(a: nat, b: nat): nat {
    if a < b then a else b
  }

  /**
   The pairing `admin_names_map` builds from an id list: the ids paired with
   the stripped comma-separated names by position, cut to the shorter list,
   a later duplicate id taking its later name.
   */
  function PairNames(ids: seq<int>, rawNames: string): (r: map<int, string>)
    ensures var names := Split(rawNames, ','); var n := Shorter(|ids|, |names|);
      && (forall k :: k in r <==> k in ids[..n])
      && (forall i :: 0 <= i < n ==> ids[i] in r && (LastBefore(ids, i, n) ==> r[ids[i]] == Strip(names[i])))
  {
    var names := Split(rawNames, ',');
    var n := Shorter(|ids|, |names|);
    var stripped := seq(n, i requires 0 <= i < n => Strip(names[i]));
    var m := ZipEqual(ids[..n], stripped);
    forall i | 0 <= i < n
      ensures ids[i] in m && (LastBefore(ids, i, n) ==> m[ids[i]] == Strip(names[i]))
    {
      assert ids[..n][i] == ids[i];
      if LastBefore(ids, i, n) {
        assert LastBefore(ids[..n], i, n);
      }
    }
    m
  }

  /** `admin_names_map`: the pairing over the admin id list; it raises exactly when the id list does. */
  function AdminNamesMap(rawIds: string, rawNames: string): (r: Option<map<int, string>>)
    ensures r.Some? <==> AdminIdsList(rawIds).Some?
    ensures r.Some? ==> r.value == PairNames(AdminIdsList(rawIds).value, rawNames)
  {
    match AdminIdsList(rawIds)
    case None => None
    case Some(ids) => Some(PairNames(ids, rawNames))
  }

  /** The fallback name of a user missing from the names map. */
  function FallbackName(userId: int): string {
    "User " + IntToString(userId)
  }

  /**
   `get_admin_name`: the mapped name, else "User " and the id. The fallback
   always spells the id back out.
   */
  function GetAdminName(names: map<int, string>, userId: int): (r: string)
    ensures userId in names ==> r == names[userId]
    ensures userId !in names ==> |r| > 5 && r[..5] == "User " && ParseInt(r[5..]) == Some(userId)
  {
    if userId in names then names[userId]
    else
      var r := FallbackName(userId);
      assert r[5..] == IntToString(userId);
      ParseIntOfString(userId);
      r
  }

  /** `is_admin`: membership in the id list; raises (None) exactly when the list does. */
  function IsAdmin(rawIds: string, userId: int): (r: Option<bool>)
    ensures r.Some? <==> AdminIdsList(rawIds).Some?
    ensures r == Some(true) <==> AdminIdsList(rawIds).Some? && exists i :: 0 <= i < |AdminIdsList(rawIds).value| && AdminIdsList(rawIds).value[i] == userId
  {
    match AdminIdsList(rawIds)
    case None => None
    case Some(ids) => Some(userId in ids)
  }

  /** Every id written into the settings is an admin, and no other id is. */
  lemma IsAdminOfWritten(ids: seq<int>, userId: int)
    ensures IsAdmin(IdsText(ids), userId) == Some(userId in ids)
  {
    AdminIdsRoundTrip(ids);
  }
}

=== FILE: grid.dfy ===
/**
 The worksheet the mirror writes to, as gspread presents it: a fixed-size grid
 of string cells (an absent cell reads as empty) with a background colour per
 cell, 1-based rows and columns, and the A1 addresses built from the
 bijective base-26 column letters of `_col_letter` (bot/services/sheets.py).
 */
module Grid {
  import opened Wrappers
  import opened Text

  /** The three background colours the mirror uses (sent, answered, none). */
  datatype Color = Yellow | Green | White

  datatype Sheet = Sheet(cells: map<(int, int), string>, colors: map<(int, int), Color>, rows: nat, cols: nat)

  /** A cell address inside the worksheet's current size. */
  predicate InGrid(sh: Sheet, r: int, c: int) {
    1 <= r <= sh.rows && 1 <= c <= sh.cols
  }

  /** Nothing is stored outside the grid, and an empty cell is simply not stored. */
  predicate Valid(sh: Sheet) {
    && (forall p :: p in sh.cells ==> InGrid(sh, p.0, p.1) && sh.cells[p] != "")
    && (forall p :: p in sh.colors ==> InGrid(sh, p.0, p.1))
  }

  /** A worksheet as the spreadsheet service keeps it. */
  type Grid = sh: Sheet | Valid(sh) witness Sheet(map[], map[], 0, 0)

  /** `worksheet.cell(r, c).value`, with an unset cell reading as empty. */
  function Cell(sh: Sheet, r: int, c: int): string {
    if (r, c) in sh.cells then sh.cells[(r, c)] else ""
  }

  /**
   `worksheet.update_cell(r, c, v)`: inside the grid exactly that cell takes
   the value (an empty value clears it); outside it the API refuses (None)
   and nothing changes.
   */
  function UpdateCell(sh: Grid, r: int, c: int, v: string): (res: Option<Grid>)
    ensures res.Some? <==> InGrid(sh, r, c)
    ensures res.Some? ==> Cell(res.value, r, c) == v
    ensures res.Some? ==> forall i, j :: (i, j) != (r, c) ==> Cell(res.value, i, j) == Cell(sh, i, j)
    ensures res.Some? ==> res.value.colors == sh.colors
    ensures res.Some? ==> res.value.rows == sh.rows && res.value.cols == sh.cols
  {
    if !InGrid(sh, r, c) then None
    else if v == "" then Some(sh.(cells := sh.cells - {(r, c)}))
    else Some(sh.(cells := sh.cells[(r, c) := v]))
  }

  // ---------------------------------------------------------------------------
  // col_values / row_values lengths: gspread drops trailing empty cells
  // ---------------------------------------------------------------------------

  /** The last row at or above `upTo` whose cell in column `c` is non-empty, 0 if none. */
  function LastFilledRow(sh: Sheet, c: int, upTo: int): (n: nat)
    ensures n <= upTo || n == 0
    ensures n > 0 ==> Cell(sh, n, c) != ""
    ensures forall r :: n < r <= upTo ==> Cell(sh, r, c) == ""
    decreases upTo
  {
    if upTo <= 0 then 0
    else if Cell(sh, upTo, c) != "" then upTo
    else LastFilledRow(sh, c, upTo - 1)
  }

  /** The last column at or before `upTo` whose cell in row `r` is non-empty, 0 if none. */
  function LastFilledCol(sh: Sheet, r: int, upTo: int): (n: nat)
    ensures n <= upTo || n == 0
    ensures n > 0 ==> Cell(sh, r, n) != ""
    ensures forall c :: n < c <= upTo ==> Cell(sh, r, c) == ""
    decreases upTo
  {
    if upTo <= 0 then 0
    else if Cell(sh, r, upTo) != "" then upTo
    else LastFilledCol(sh, r, upTo - 1)
  }

  /** `len(worksheet.col_values(c))`: every cell below it in that column is empty. */
  function ColLen(sh: Grid, c: int): (n: nat)
    ensures n <= sh.rows
    ensures n > 0 ==> Cell(sh, n, c) != ""
    ensures forall r :: r > n ==> Cell(sh, r, c) == ""
  {
    LastFilledRow(sh, c, sh.rows)
  }

  /** `len(worksheet.row_values(r))`: every cell right of it in that row is empty. */
  function RowLen(sh: Grid, r: int): (n: nat)
    ensures n <= sh.cols
    ensures n > 0 ==> Cell(sh, r, n) != ""
    ensures forall c :: c > n ==> Cell(sh, r, c) == ""
  {
    LastFilledCol(sh, r, sh.cols)
  }

  /** `worksheet.col_values(c)`: the column's values from row 1 down to its last non-empty cell. */
  function ColValues(sh: Grid, c: int): (vs: seq<string>)
    ensures |vs| == ColLen(sh, c)
    ensures forall i :: 0 <= i < |vs| ==> vs[i] == Cell(sh, i + 1, c)
  {
    seq(ColLen(sh, c), i requires 0 <= i => Cell(sh, i + 1, c))
  }

  /** `worksheet.row_values(r)`: the row's values from column 1 to its last non-empty cell. */
  function RowValues(sh: Grid, r: int): (vs: seq<string>)
    ensures |vs| == RowLen(sh, r)
    ensures forall j :: 0 <= j < |vs| ==> vs[j] == Cell(sh, r, j + 1)
  {
    seq(RowLen(sh, r), j requires 0 <= j => Cell(sh, r, j + 1))
  }

  /** The length counts ignore every other column: a write outside column `c` keeps `ColLen(c)`. */
  lemma {:induction false} LastFilledRowFrame(a: Sheet, b: Sheet, c: int, upTo: int)
    requires forall r :: Cell(a, r, c) == Cell(b, r, c)
    ensures LastFilledRow(a, c, upTo) == LastFilledRow(b, c, upTo)
    decreases upTo
  {
    if upTo > 0 {
      LastFilledRowFrame(a, b, c, upTo - 1);
    }
  }

  /** The same for rows: a write outside row `r` keeps `RowLen(r)`. */
  lemma {:induction false} LastFilledColFrame(a: Sheet, b: Sheet, r: int, upTo: int)
    requires forall c :: Cell(a, r, c) == Cell(b, r, c)
    ensures LastFilledCol(a, r, upTo) == LastFilledCol(b, r, upTo)
    decreases upTo
  {
    if upTo > 0 {
      LastFilledColFrame(a, b, r, upTo - 1);
    }
  }

  // ---------------------------------------------------------------------------
  // _col_letter and A1 addresses
  // ---------------------------------------------------------------------------

  predicate IsUpper(ch: char) { 'A' <= ch <= 'Z' }

  predicate AllUpper(s: string) { forall i :: 0 <= i < |s| ==> IsUpper(s[i]) }

  /**
   `_col_letter`: bijective base 26 over A..Z, most significant letter first
   (1 is "A", 26 is "Z", 27 is "AA"); nothing for 0 and below.
   */
  function ColLetter(n: int): (s: string)
    ensures AllUpper(s)
    ensures s == [] <==> n <= 0
    decreases n
  {
    if n <= 0 then "" else ColLetter((n - 1) / 26) + [(65 + (n - 1) % 26) as char]
  }

  /** The column number a string of letters names: the inverse of `ColLetter`. */
  function LettersValue(s: string): (v: nat)
    requires AllUpper(s)
    ensures s != [] ==> v >= 1
    decreases |s|
  {
    if s == [] then 0 else LettersValue(s[..|s| - 1]) * 26 + (s[|s| - 1] as int - 64)
  }

  /** Decoding the letters of a column number gives the number back. */
  lemma {:induction false} LettersOfColumn(n: nat)
    ensures LettersValue(ColLetter(n)) == n
    decreases n
  {
    if n > 0 {
      LettersOfColumn((n - 1) / 26);
      var s := ColLetter(n);
      assert s[..|s| - 1] == ColLetter((n - 1) / 26);
    }
  }

  /** Division by 26 takes a base-26 digit back off. */
  lemma DivModDigit(q: nat, d: int)
    requires 0 <= d < 26
    ensures (q * 26 + d) / 26 == q && (q * 26 + d) % 26 == d
  {
  }

  /** Every string of capital letters is the spelling of exactly the column it decodes to. */
  lemma {:induction false} ColumnOfLetters(s: string)
    requires AllUpper(s)
    ensures ColLetter(LettersValue(s)) == s
    decreases |s|
  {
    if s != [] {
      var front := s[..|s| - 1];
      ColumnOfLetters(front);
      var (v, q, d) := (LettersValue(s), LettersValue(front), s[|s| - 1] as int - 65);
      assert v - 1 == q * 26 + d;
      DivModDigit(q, d);
      assert s == front + [s[|s| - 1]];
    }
  }

  /** The column letters of `n`, computed by the source's loop (repeated `divmod(n - 1, 26)`). */
  method ColLetterLoop(n: int) returns (s: string)
    ensures s == ColLetter(n)
    ensures n >= 0 ==> LettersValue(s) == n
  {
    var k := n;
    s := "";
    while k > 0
      invariant ColLetter(k) + s == ColLetter(n)
      decreases k
    {
      var q, r := (k - 1) / 26, (k - 1) % 26;
      s := [(65 + r) as char] + s;
      k := q;
    }
    if n >= 0 {
      LettersOfColumn(n);
    }
  }

  /** The A1 address of a cell: column letters, then the row number. */
  function A1(r: int, c: int): string {
    ColLetter(c) + IntToString(r)
  }

  /** The number of capital letters a string starts with. */
  function LeadingLetters(s: string): (k: nat)
    ensures k <= |s| && AllUpper(s[..k])
    ensures k < |s| ==> !IsUpper(s[k])
    decreases |s|
  {
    if s == [] || !IsUpper(s[0]) then 0 else 1 + LeadingLetters(s[1..])
  }

  lemma {:induction false} LeadingLettersOf(a: string, b: string)
    requires AllUpper(a) && (b == [] || !IsUpper(b[0]))
    ensures LeadingLetters(a + b) == |a|
    decreases |a|
  {
    if a != [] {
      assert (a + b)[1..] == a[1..] + b;
      LeadingLettersOf(a[1..], b);
    }
  }

  /**
   Reading an A1 address back: one or more capital letters, then a row number
   without a leading zero; anything else is not a cell address.
   */
  function ParseA1(s: string): (res: Option<(int, int)>)
    ensures res.Some? ==> res.value.0 >= 1 && res.value.1 >= 1
  {
    var k := LeadingLetters(s);
    var digits := s[k..];
    if k == 0 || digits == [] || !AllDigits(digits) || digits[0] == '0' then None
    else
      var r := DigitsValue(digits);
      assert r >= 1 by { LeadingDigitNonZero(digits); }
      Some((r, LettersValue(s[..k])))
  }

  /** A digit string not starting with '0' has a positive value. */
  lemma {:induction false} LeadingDigitNonZero(d: string)
    requires d != [] && AllDigits(d) && d[0] != '0'
    ensures DigitsValue(d) >= 1
    decreases |d|
  {
    if |d| > 1 {
      LeadingDigitNonZero(d[..|d| - 1]);
    }
  }

  /** Every cell's A1 address reads back as that cell. */
  lemma A1RoundTrip(r: int, c: int)
    requires r >= 1 && c >= 1
    ensures ParseA1(A1(r, c)) == Some((r, c))
  {
    var letters, digits := ColLetter(c), IntToString(r);
    assert digits == NatToDigits(r);
    assert IsDigit(digits[0]);
    LeadingLettersOf(letters, digits);
    var s := A1(r, c);
    assert s[|letters|..] == digits && s[..|letters|] == letters;
    DigitsRoundTrip(r);
    LettersOfColumn(c);
  }

  /**
   `worksheet.format(address, backgroundColor)` as `_set_cell_color` calls it:
   the addressed cell takes the colour; an address that is not a cell of the
   grid is an API error, which the caller logs, leaving the sheet as it was.
   */
  function SetColor(sh: Grid, address: string, color: Color): (r: Grid)
    ensures r.cells == sh.cells && r.rows == sh.rows && r.cols == sh.cols
    ensures forall p :: p in sh.colors && Some(p) != ParseA1(address) ==> p in r.colors && r.colors[p] == sh.colors[p]
  {
    match ParseA1(address)
    case Some(p) => if InGrid(sh, p.0, p.1) then sh.(colors := sh.colors[p := color]) else sh
    case None => sh
  }

  /** Colouring cell (r, c) through its A1 address colours exactly that cell. */
  lemma SetColorAt(sh: Grid, r: int, c: int, color: Color)
    requires InGrid(sh, r, c)
    ensures SetColor(sh, A1(r, c), color).colors == sh.colors[(r, c) := color]
  {
    A1RoundTrip(r, c);
  }
}

=== FILE: keyboards.dfy ===
/**
 The inline keyboards of bot/keyboards/inline.py, reduced to what the
 handlers read back: the callback data of each button, top to bottom. Button
 labels are presentation and are left out. The data is a token of fields
 joined by ':', which the handlers split again; for a plant id without ':'
 that split recovers the fields the keyboard put in.
 */
module Keyboards {
  import opened Text
  import opened Models

  /** A keyboard as the callback data of its buttons, in order. */
  type Keyboard = seq<string>

  /** The soil answers a check prompt offers, in button order. */
  const CheckAnswers: seq<string> := ["very_wet", "slightly_wet", "dry"]

  /** The statuses the admin plant keyboard offers, in button order. */
  const AdminValues: seq<string> := ["watered", "very_wet", "slightly_wet", "dry"]

  /** `get_main_menu_keyboard`. */
  const MainMenuKeyboard: Keyboard := ["menu:admin", "menu:plants"]

  /** `get_back_to_menu_keyboard`. */
  const BackToMenuKeyboard: Keyboard := ["menu:main"]

  /** `get_close_keyboard`. */
  const CloseKeyboard: Keyboard := ["close_message"]

  /** `get_admin_keyboard`, shown after an admin change. */
  const AdminKeyboard: Keyboard := ["menu:admin", "menu:main"]

  /** A two-field token `a:b`. */
  function Token2(a: string, b: string): string {
    a + ":" + b
  }

  /** Splitting a two-field token whose fields hold no ':' gives the two fields back. */
  lemma Token2Split(a: string, b: string)
    requires ':' !in a && ':' !in b
    ensures Split(Token2(a, b), ':') == [a, b]
  {
    Split2(a, b, ':');
  }

  /**
   `get_moisture_keyboard`: one `moisture:{id}:{answer}` button per soil
   answer, in the order very wet, slightly wet, dry, then `show_photo:{id}`.
   */
  function MoistureKeyboard(plantId: string): (k: Keyboard)
    ensures |k| == 4
    ensures forall i :: 0 <= i < 3 ==> "moisture:" <= k[i]
    ensures "show_photo:" <= k[3]
  {
    seq(3, i requires 0 <= i < 3 => "moisture:" + plantId + ":" + CheckAnswers[i]) + [Token2("show_photo", plantId)]
  }

  /** Splitting the moisture keyboard's data recovers the id and, on the answer buttons, the answer. */
  lemma MoistureKeyboardSplits(plantId: string)
    requires ':' !in plantId
    ensures var k := MoistureKeyboard(plantId);
      && (forall i :: 0 <= i < 3 ==> Split(k[i], ':') == ["moisture", plantId, CheckAnswers[i]])
      && Split(k[3], ':') == ["show_photo", plantId]
  {
    var k := MoistureKeyboard(plantId);
    forall i | 0 <= i < 3 ensures Split(k[i], ':') == ["moisture", plantId, CheckAnswers[i]] {
      assert k[i] == "moisture" + [':'] + plantId + [':'] + CheckAnswers[i];
      Split3("moisture", plantId, CheckAnswers[i], ':');
    }
    Token2Split("show_photo", plantId);
  }

  /** `get_watering_keyboard`: `watered:{id}`, then `show_photo:{id}`. */
  function WateringKeyboard(plantId: string): (k: Keyboard)
    ensures |k| == 2 && "watered:" <= k[0] && "show_photo:" <= k[1]
  {
    [Token2("watered", plantId), Token2("show_photo", plantId)]
  }

  /** Splitting the watering keyboard's data recovers the id. */
  lemma WateringKeyboardSplits(plantId: string)
    requires ':' !in plantId
    ensures var k := WateringKeyboard(plantId);
      Split(k[0], ':') == ["watered", plantId] && Split(k[1], ':') == ["show_photo", plantId]
  {
    Token2Split("watered", plantId);
    Token2Split("show_photo", plantId);
  }

  /** `get_answered_keyboard`: an inert `noop` button, then `correct:{id}`. */
  function AnsweredKeyboard(plantId: string): (k: Keyboard)
    ensures |k| == 2 && k[0] == "noop" && "correct:" <= k[1]
  {
    ["noop", Token2("correct", plantId)]
  }

  /** Splitting the correction button's data recovers the id. */
  lemma AnsweredKeyboardSplits(plantId: string)
    requires ':' !in plantId
    ensures Split(AnsweredKeyboard(plantId)[1], ':') == ["correct", plantId]
  {
    Token2Split("correct", plantId);
  }

  /**
   `get_admin_plant_keyboard`: one `admin:set:{id}:{value}` button per value
   in the order watered, very wet, slightly wet, dry, then `menu:admin`.
   */
  function AdminPlantKeyboard(plantId: string): (k: Keyboard)
    ensures |k| == 5
    ensures forall i :: 0 <= i < 4 ==> "admin:set:" <= k[i]
    ensures k[4] == "menu:admin"
  {
    seq(4, i requires 0 <= i < 4 => "admin:set:" + plantId + ":" + AdminValues[i]) + ["menu:admin"]
  }

  /** Splitting an admin status button's data recovers the id and the value. */
  lemma AdminPlantKeyboardSplits(plantId: string)
    requires ':' !in plantId
    ensures var k := AdminPlantKeyboard(plantId);
      forall i :: 0 <= i < 4 ==> Split(k[i], ':') == ["admin", "set", plantId, AdminValues[i]]
  {
    var k := AdminPlantKeyboard(plantId);
    forall i | 0 <= i < 4 ensures Split(k[i], ':') == ["admin", "set", plantId, AdminValues[i]] {
      var rest := plantId + [':'] + AdminValues[i];
      assert k[i] == "admin" + [':'] + ("set" + [':'] + rest);
      SplitCons("admin", "set" + [':'] + rest, ':');
      SplitCons("set", rest, ':');
      Split2(plantId, AdminValues[i], ':');
    }
  }

  /**
   The shape shared by the list keyboards: one `{prefix}{id}` button per plant
   in the given order, then exactly one navigation button.
   */
  function ListKeyboard(prefix: string, plants: seq<Plant>, nav: string): (k: Keyboard)
    ensures |k| == |plants| + 1 && k[|plants|] == nav
    ensures forall i :: 0 <= i < |plants| ==> prefix <= k[i] && k[i][|prefix|..] == plants[i].id
  {
    var k := seq(|plants|, i requires 0 <= i < |plants| => prefix + plants[i].id) + [nav];
    assert forall i :: 0 <= i < |plants| ==> k[i] == prefix + plants[i].id;
    k
  }

  /** `get_plants_list_keyboard`: `plant_info:{id}` per plant, then `menu:main`. */
  function PlantsListKeyboard(plants: seq<Plant>): Keyboard {
    ListKeyboard("plant_info:", plants, "menu:main")
  }

  /** `get_photo_list_keyboard`: `show_photo:{id}` per plant, then `close_message`. */
  function PhotoListKeyboard(plants: seq<Plant>): Keyboard {
    ListKeyboard("show_photo:", plants, "close_message")
  }

  /** `get_admin_plants_list_keyboard`: `admin:plant:{id}` per plant, then `menu:main`. */
  function AdminPlantsListKeyboard(plants: seq<Plant>): Keyboard {
    ListKeyboard("admin:plant:", plants, "menu:main")
  }

  /** `get_plant_info_keyboard`: `show_photo:{id}`, then `menu:plants`. */
  function PlantInfoKeyboard(plantId: string): Keyboard {
    [Token2("show_photo", plantId), "menu:plants"]
  }

  /**
   In each list keyboard, every plant button carries the list's prefix and the
   trailing navigation button does not, so the two are never mistaken for
   each other.
   */
  lemma ListNavigationIsApart(plants: seq<Plant>)
    ensures var k := PlantsListKeyboard(plants);
      && |k| == |plants| + 1
      && (forall i :: 0 <= i < |plants| ==> "plant_info:" <= k[i])
      && !("plant_info:" <= k[|plants|])
    ensures var k := PhotoListKeyboard(plants);
      && |k| == |plants| + 1
      && (forall i :: 0 <= i < |plants| ==> "show_photo:" <= k[i])
      && !("show_photo:" <= k[|plants|])
    ensures var k := AdminPlantsListKeyboard(plants);
      && |k| == |plants| + 1
      && (forall i :: 0 <= i < |plants| ==> "admin:plant:" <= k[i])
      && !("admin:plant:" <= k[|plants|])
  {
    assert "plant_info:"[0] != "menu:main"[0];
    assert "show_photo:"[0] != "close_message"[0];
    assert "admin:plant:"[0] != "menu:main"[0];
  }

  /** An id containing ':' is not recovered: the split yields an extra field. */
  lemma ColonInIdIsNotRecovered()
    ensures Split(MoistureKeyboard("a:b")[0], ':') == ["moisture", "a", "b", "very_wet"]
  {
    var t := MoistureKeyboard("a:b")[0];
    assert t == "moisture" + [':'] + ("a" + [':'] + ("b" + [':'] + "very_wet"));
    SplitCons("moisture", "a" + [':'] + ("b" + [':'] + "very_wet"), ':');
    SplitCons("a", "b" + [':'] + "very_wet", ':');
    Split2("b", "very_wet", ':');
  }
}

=== FILE: models.dfy ===
/**
 The bot's data model: the four string-valued enums, the plant profile, and the
 three stored records (plant status, notification, user settings) with the
 defaults their Python dataclasses fill in.
 */
module Models {
  import opened Wrappers
  import opened Calendar

  /** A wall-clock timestamp (`datetime`); only its identity matters to the model. */
  type Stamp = int

  /** What `date.today()` and `datetime.now()` would return during one operation. */
  datatype Clock = Clock(today: Date, now: Stamp)

  // ---------------------------------------------------------------------------
  // Enums and their string values
  // ---------------------------------------------------------------------------

  datatype SoilMoisture = Watered | VeryWet | SlightlyWet | Dry

  datatype NotificationStatus = Pending | Reminded | Answered | Rescheduled

  datatype NotificationType = Check | Water

  datatype WateringPreference = Underwater | Overwater

  function MoistureValue(m: SoilMoisture): string {
    match m
    case Watered => "watered"
    case VeryWet => "very_wet"
    case SlightlyWet => "slightly_wet"
    case Dry => "dry"
  }

  /** `SoilMoisture(s)`: the variant whose value is `s`, if any (otherwise Python raises). */
  function ParseMoisture(s: string): (r: Option<SoilMoisture>)
    ensures forall m :: r == Some(m) <==> MoistureValue(m) == s
  {
    if s == "watered" then Some(Watered)
    else if s == "very_wet" then Some(VeryWet)
    else if s == "slightly_wet" then Some(SlightlyWet)
    else if s == "dry" then Some(Dry)
    else None
  }

  function StatusValue(s: NotificationStatus): string {
    match s
    case Pending => "pending"
    case Reminded => "reminded"
    case Answered => "answered"
    case Rescheduled => "rescheduled"
  }

  /** `NotificationStatus(s)`. */
  function ParseStatus(s: string): (r: Option<NotificationStatus>)
    ensures forall v :: r == Some(v) <==> StatusValue(v) == s
  {
    if s == "pending" then Some(Pending)
    else if s == "reminded" then Some(Reminded)
    else if s == "answered" then Some(Answered)
    else if s == "rescheduled" then Some(Rescheduled)
    else None
  }

  function TypeValue(t: NotificationType): string {
    match t
    case Check => "check"
    case Water => "water"
  }

  /** `NotificationType(s)`. */
  function ParseType(s: string): (r: Option<NotificationType>)
    ensures forall v :: r == Some(v) <==> TypeValue(v) == s
  {
    if s == "check" then Some(Check)
    else if s == "water" then Some(Water)
    else None
  }

  function PreferenceValue(p: WateringPreference): string {
    match p
    case Underwater => "underwater"
    case Overwater => "overwater"
  }

  /** `WateringPreference(s)`, as the catalog loader reads the `preference` field. */
  function ParsePreference(s: string): (r: Option<WateringPreference>)
    ensures forall v :: r == Some(v) <==> PreferenceValue(v) == s
  {
    if s == "underwater" then Some(Underwater)
    else if s == "overwater" then Some(Overwater)
    else None
  }

  /** The statuses of a notification still waiting for an answer. */
  predicate IsOpen(s: NotificationStatus) {
    s == Pending || s == Reminded
  }

  // ---------------------------------------------------------------------------
  // Records
  // ---------------------------------------------------------------------------

  /** A plant profile from the catalog; immutable at run time. */
  datatype Plant = Plant(
    id: string,
    name: string,
    photo: string,
    checkIntervalDays: int,
    wetIntervalDays: int,
    moistIntervalDays: int,
    preference: WateringPreference,
    notes: Option<string>)

  /** The stored care state of one plant (one row per plant id). */
  datatype PlantStatus = PlantStatus(
    plantId: string,
    lastMoisture: SoilMoisture,
    lastCheckDate: Date,
    nextCheckDate: Date,
    overdueDays: int,
    updatedAt: Stamp)

  /**
   A stored notification. Its row id is its position in the store; `createdOn`
   is the calendar day of `created_at`, the only part of it any query reads.
   */
  datatype Notification = Notification(
    plantId: string,
    kind: NotificationType,
    status: NotificationStatus,
    messageId: Option<int>,
    createdOn: Date,
    answeredAt: Option<Stamp>,
    answer: Option<string>)

  datatype UserSettings = UserSettings(
    userId: int,
    notificationTime: string,
    createdAt: Stamp,
    updatedAt: Stamp)

  // ---------------------------------------------------------------------------
  // Dataclass construction with defaults
  // ---------------------------------------------------------------------------

  /** `PlantStatus(...)`: `overdue_days` defaults to 0, a missing `updated_at` becomes now. */
  function NewPlantStatus(plantId: string, moisture: SoilMoisture, lastCheck: Date, nextCheck: Date,
                          overdue: Option<int>, updatedAt: Option<Stamp>, now: Stamp): (r: PlantStatus)
    ensures r.plantId == plantId && r.lastMoisture == moisture
    ensures r.lastCheckDate == lastCheck && r.nextCheckDate == nextCheck
    ensures overdue == None ==> r.overdueDays == 0
    ensures overdue != None ==> r.overdueDays == overdue.value
    ensures updatedAt == None ==> r.updatedAt == now
    ensures updatedAt != None ==> r.updatedAt == updatedAt.value
  {
    PlantStatus(plantId, moisture, lastCheck, nextCheck, overdue.GetOr(0), updatedAt.GetOr(now))
  }

  /** `Notification(...)` without the optional fields: no answer time and no answer. */
  function NewNotification(plantId: string, kind: NotificationType, status: NotificationStatus,
                           messageId: Option<int>, createdOn: Date): (r: Notification)
    ensures r.plantId == plantId && r.kind == kind && r.status == status
    ensures r.messageId == messageId && r.createdOn == createdOn
    ensures r.answeredAt == None && r.answer == None
  {
    Notification(plantId, kind, status, messageId, createdOn, None, None)
  }

  /**
   `UserSettings(...)`: the time defaults to "09:00", and both missing timestamps
   are filled with the same `now`.
   */
  function NewUserSettings(userId: int, time: Option<string>, createdAt: Option<Stamp>,
                           updatedAt: Option<Stamp>, now: Stamp): (r: UserSettings)
    ensures r.userId == userId
    ensures time == None ==> r.notificationTime == "09:00"
    ensures time != None ==> r.notificationTime == time.value
    ensures createdAt == None ==> r.createdAt == now
    ensures updatedAt == None ==> r.updatedAt == now
    ensures createdAt == None && updatedAt == None ==> r.createdAt == r.updatedAt
    ensures createdAt != None ==> r.createdAt == createdAt.value
    ensures updatedAt != None ==> r.updatedAt == updatedAt.value
  {
    UserSettings(userId, time.GetOr("09:00"), createdAt.GetOr(now), updatedAt.GetOr(now))
  }

  // ---------------------------------------------------------------------------
  // The catalog as the service holds it
  // ---------------------------------------------------------------------------

  /** No two plants share an id (the catalog is a dict keyed by id). */
  predicate DistinctIds(ps: seq<Plant>) {
    forall i, j :: 0 <= i < j < |ps| ==> ps[i].id != ps[j].id
  }

  /** The loaded catalog: the dict's values, in insertion order. */
  type Catalog = ps: seq<Plant> | DistinctIds(ps) witness []

  /** `get_plant`: the catalog entry with this id. */
  function FindPlant(catalog: Catalog, plantId: string): (r: Option<Plant>)
    ensures r.Some? <==> exists i :: 0 <= i < |catalog| && catalog[i].id == plantId
    ensures r.Some? ==> r.value in catalog && r.value.id == plantId
    decreases |catalog|
  {
    if catalog == [] then None
    else if catalog[0].id == plantId then Some(catalog[0])
    else
      var rest: Catalog := catalog[1..];
      var r := FindPlant(rest, plantId);
      assert forall i :: 1 <= i < |catalog| ==> catalog[i] == rest[i - 1];
      r
  }
}

=== FILE: plant_service.dfy ===
/**
 The plant care-state service (bot/services/plant_service.py): the catalog
 cache, the next-check table, the answer and watering transitions, lazy status
 creation, the daily split into "check" and "water" lists, and the end-of-day
 sweep of unanswered notifications. `date.today()` and `datetime.now()` are the
 `Clock` argument; the catalog file's contents are an argument too.
 */
module PlantService {
  import opened Wrappers
  import opened Calendar
  import opened Models
  import opened Repository

  // ---------------------------------------------------------------------------
  // The catalog cache (`_plants`, `_loaded`)
  // ---------------------------------------------------------------------------

  /** The service's cached dict of plants and whether it has been filled. */
  datatype Cache = Cache(plants: Catalog, loaded: bool)

  /** A new service: nothing cached yet. */
  const FreshCache: Cache := Cache([], false)

  /** An unloaded cache holds nothing (true initially and after every reload). */
  predicate CacheOk(c: Cache) {
    !c.loaded ==> c.plants == []
  }

  /** In a catalog, the entry found for an id is the one at the position holding it. */
  lemma FindPlantAt(c: Catalog, i: int)
    requires 0 <= i < |c|
    ensures FindPlant(c, c[i].id) == Some(c[i])
  {
    var r := FindPlant(c, c[i].id);
    var j :| 0 <= j < |c| && c[j] == r.value;
  }

  /** The position of the entry with this id, or `|c|` when there is none. */
  function IndexOf(c: Catalog, id: string): (k: nat)
    ensures k <= |c|
    ensures k < |c| ==> c[k].id == id
    ensures k == |c| ==> forall j :: 0 <= j < |c| ==> c[j].id != id
    decreases |c|
  {
    if c == [] then 0
    else if c[0].id == id then 0
    else
      var rest: Catalog := c[1..];
      1 + IndexOf(rest, id)
  }

  /**
   `self._plants[plant.id] = plant`: a known id keeps its position and takes
   the new entry, an unknown id is appended; lookups of every other id are
   unaffected.
   */
  function Put(c: Catalog, p: Plant): (r: Catalog)
    ensures FindPlant(r, p.id) == Some(p)
    ensures forall id :: id != p.id ==> FindPlant(r, id) == FindPlant(c, id)
    ensures |r| == if FindPlant(c, p.id).Some? then |c| else |c| + 1
  {
    var k := IndexOf(c, p.id);
    var r: Catalog := if k < |c| then c[k := p] else c + [p];
    var at := if k < |c| then k else |c|;
    FindPlantAt(r, at);
    forall id | id != p.id
      ensures FindPlant(r, id) == FindPlant(c, id)
    {
      var a := FindPlant(c, id);
      if a.Some? {
        var j :| 0 <= j < |c| && c[j] == a.value;
        FindPlantAt(c, j);
        assert r[j] == c[j];
        FindPlantAt(r, j);
      } else {
        assert forall j :: 0 <= j < |r| ==> r[j].id != id by {
          forall j | 0 <= j < |r|
            ensures r[j].id != id
          {
            if j != at { assert r[j] == c[j]; }
          }
        }
      }
    }
    r
  }

  /** The entries of the file's "plants" list inserted one after another. */
  function PutAll(c: Catalog, entries: seq<Plant>): Catalog
    decreases |entries|
  {
    if entries == [] then c
    else Put(PutAll(c, entries[..|entries| - 1]), entries[|entries| - 1])
  }

  /** The last entry of the list carrying this id: the one a dict built from the list keeps. */
  function LastWithId(entries: seq<Plant>, id: string): (r: Option<Plant>)
    ensures r.Some? ==> r.value in entries && r.value.id == id
    ensures r.None? <==> forall i :: 0 <= i < |entries| ==> entries[i].id != id
    decreases |entries|
  {
    if entries == [] then None
    else if entries[|entries| - 1].id == id then Some(entries[|entries| - 1])
    else
      var r := LastWithId(entries[..|entries| - 1], id);
      assert forall i :: 0 <= i < |entries| - 1 ==> entries[..|entries| - 1][i] == entries[i];
      r
  }

  /** After inserting a list, an id resolves to its last entry in the list, or to what it was before. */
  lemma {:induction false} PutAllFind(c: Catalog, entries: seq<Plant>, id: string)
    ensures FindPlant(PutAll(c, entries), id)
         == if LastWithId(entries, id).Some? then LastWithId(entries, id) else FindPlant(c, id)
    decreases |entries|
  {
    if entries != [] {
      PutAllFind(c, entries[..|entries| - 1], id);
    }
  }

  /**
   `_load_plants`: a loaded cache is returned as it is, whatever the file now
   holds; otherwise a missing file (None) gives an empty catalog and a present
   one has its entries inserted. Either way the cache is loaded afterwards.
   */
  function Load(c: Cache, file: Option<seq<Plant>>): (r: Cache)
    ensures r.loaded
    ensures c.loaded ==> r == c
    ensures !c.loaded && file.None? ==> r.plants == []
    ensures !c.loaded && file.Some? ==> r.plants == PutAll(c.plants, file.value)
  {
    if c.loaded then c
    else if file.None? then Cache([], true)
    else Cache(PutAll(c.plants, file.value), true)
  }

  /** `reload_plants`: empty the cache, mark it unloaded, and load again. */
  function Reload(c: Cache, file: Option<seq<Plant>>): (r: Cache)
    ensures r.loaded && CacheOk(r)
    ensures file.None? ==> r.plants == []
    ensures file.Some? ==> r.plants == PutAll([], file.value)
  {
    Load(Cache([], false), file)
  }

  /** `get_plant`: loads on first use, then looks the id up in the cache. */
  function GetPlant(c: Cache, file: Option<seq<Plant>>, id: string): (r: (Cache, Option<Plant>))
    ensures r.0 == Load(c, file)
    ensures r.1.Some? ==> r.1.value in r.0.plants && r.1.value.id == id
    ensures r.1.None? <==> forall i :: 0 <= i < |r.0.plants| ==> r.0.plants[i].id != id
  {
    var loaded := Load(c, file);
    (loaded, FindPlant(loaded.plants, id))
  }

  /** `get_all_plants`: loads on first use, then lists the cached plants in insertion order. */
  function GetAllPlants(c: Cache, file: Option<seq<Plant>>): (r: (Cache, Catalog))
    ensures r.0 == Load(c, file) && r.1 == r.0.plants
  {
    var loaded := Load(c, file);
    (loaded, loaded.plants)
  }

  /**
   Right after a reload, looking an id up yields the last entry of the file
   with that id, and nothing when the file is missing or lacks the id.
   */
  lemma ReloadThenGet(c: Cache, file: Option<seq<Plant>>, id: string)
    ensures GetPlant(Reload(c, file), file, id).1
         == if file.None? then None else LastWithId(file.value, id)
  {
    if file.Some? {
      PutAllFind([], file.value, id);
    }
  }

  /** Loading never changes a loaded cache: a file edited later is seen only after a reload. */
  lemma LoadedCacheIsStale(c: Cache, before: Option<seq<Plant>>, after: Option<seq<Plant>>, id: string)
    ensures GetPlant(Load(c, before), after, id).1 == GetPlant(Load(c, before), before, id).1
  {
  }

  // ---------------------------------------------------------------------------
  // calculate_next_check_date
  // ---------------------------------------------------------------------------

  /** The interval the table assigns to an answer other than DRY. */
  function IntervalFor(plant: Plant, m: SoilMoisture): int
    requires m != Dry
  {
    match m
    case Watered => plant.checkIntervalDays
    case VeryWet => plant.wetIntervalDays
    case SlightlyWet => plant.moistIntervalDays
  }

  /**
   `calculate_next_check_date`: a non-DRY answer moves the check forward by the
   plant's interval for that answer; a DRY answer sets it to tomorrow for a
   plant that prefers underwatering and to today for one that prefers
   overwatering.
   */
  function NextCheckDate(plant: Plant, m: SoilMoisture, today: Date): (r: Date)
    ensures m != Dry ==> r == today + IntervalFor(plant, m)
    ensures m == Dry ==> today <= r <= today + 1
    ensures m == Dry ==> (r == today <==> plant.preference == Overwater)
  {
    match m
    case Watered => today + plant.checkIntervalDays
    case VeryWet => today + plant.wetIntervalDays
    case SlightlyWet => today + plant.moistIntervalDays
    case Dry => if plant.preference.Underwater? then today + 1 else today
  }

  /**
   With positive intervals, the next check lands on today exactly for a DRY
   answer about a plant that prefers overwatering (the case that triggers an
   immediate watering prompt in the handlers).
   */
  lemma NextCheckTodayIff(plant: Plant, m: SoilMoisture, today: Date)
    requires plant.checkIntervalDays > 0 && plant.wetIntervalDays > 0 && plant.moistIntervalDays > 0
    ensures NextCheckDate(plant, m, today) == today <==> m == Dry && plant.preference == Overwater
    ensures NextCheckDate(plant, m, today) >= today
  {
  }

  // ---------------------------------------------------------------------------
  // Answer and watering transitions
  // ---------------------------------------------------------------------------

  /** The message `process_moisture_answer` returns after a DRY answer. */
  datatype Advice = WaterNow(plantName: string) | RemindTomorrow(plantName: string)

  /** The ValueError raised for an id missing from the catalog. */
  datatype ServiceError = PlantNotFound(plantId: string)

  /** The row a moisture answer stores: checked today, next check per the table, counter cleared. */
  predicate AnsweredRow(st: PlantStatus, plant: Plant, m: SoilMoisture, clock: Clock) {
    && st.plantId == plant.id && st.lastMoisture == m
    && st.lastCheckDate == clock.today
    && st.nextCheckDate == NextCheckDate(plant, m, clock.today)
    && st.overdueDays == 0 && st.updatedAt == clock.now
  }

  /**
   `process_moisture_answer`: an id missing from the catalog raises before any
   write. Otherwise the plant's row becomes the answered row (every other row,
   notification and setting unchanged), the next check date is returned, and
   the advice is present exactly for DRY, "water now" exactly when the plant
   prefers overwatering.
   */
  function ProcessMoistureAnswer(s: Store, catalog: Catalog, plantId: string, m: SoilMoisture,
                                 clock: Clock): (r: Result<(Store, Date, Option<Advice>), ServiceError>)
    ensures r.Err? <==> FindPlant(catalog, plantId).None?
    ensures r.Err? ==> r.error == PlantNotFound(plantId)
    ensures r.Ok? ==>
      var (s', next, advice) := r.value;
      var plant := FindPlant(catalog, plantId).value;
      && plantId in s'.statuses && AnsweredRow(s'.statuses[plantId], plant, m, clock)
      && next == s'.statuses[plantId].nextCheckDate
      && s'.statuses.Keys == s.statuses.Keys + {plantId}
      && (forall k :: k in s.statuses && k != plantId ==> s'.statuses[k] == s.statuses[k])
      && s'.notifications == s.notifications && s'.users == s.users
      && (advice.Some? <==> m == Dry)
      && (advice.Some? ==> advice.value.plantName == plant.name)
      && (advice.Some? ==> (advice.value.WaterNow? <==> plant.preference == Overwater))
  {
    match FindPlant(catalog, plantId)
    case None => Err(PlantNotFound(plantId))
    case Some(plant) =>
      var next := NextCheckDate(plant, m, clock.today);
      var st := NewPlantStatus(plantId, m, clock.today, next, Some(0), None, clock.now);
      var advice :=
        if m != Dry then None
        else if plant.preference == Overwater then Some(WaterNow(plant.name))
        else Some(RemindTomorrow(plant.name));
      Ok((UpsertPlantStatus(s, st), next, advice))
  }

  /**
   `process_watering_done`: an unknown id raises before any write; otherwise
   the upsert and the reset that follows it leave the row WATERED, checked
   today, due again after the check interval, with the counter at 0; nothing
   else changes.
   */
  function ProcessWateringDone(s: Store, catalog: Catalog, plantId: string, clock: Clock)
    : (r: Result<(Store, Date), ServiceError>)
    ensures r.Err? <==> FindPlant(catalog, plantId).None?
    ensures r.Err? ==> r.error == PlantNotFound(plantId)
    ensures r.Ok? ==>
      var (s', next) := r.value;
      var plant := FindPlant(catalog, plantId).value;
      && plantId in s'.statuses && AnsweredRow(s'.statuses[plantId], plant, Watered, clock)
      && next == clock.today + plant.checkIntervalDays
      && s'.statuses.Keys == s.statuses.Keys + {plantId}
      && (forall k :: k in s.statuses && k != plantId ==> s'.statuses[k] == s.statuses[k])
      && s'.notifications == s.notifications && s'.users == s.users
  {
    match FindPlant(catalog, plantId)
    case None => Err(PlantNotFound(plantId))
    case Some(plant) =>
      var next := clock.today + plant.checkIntervalDays;
      var st := NewPlantStatus(plantId, Watered, clock.today, next, Some(0), None, clock.now);
      Ok((ResetOverdueDays(UpsertPlantStatus(s, st), plantId, clock.now), next))
  }

  /** The reset after the upsert is redundant: the upsert alone already leaves the same store. */
  lemma WateringResetIsRedundant(s: Store, catalog: Catalog, plantId: string, clock: Clock)
    requires FindPlant(catalog, plantId).Some?
    ensures
      var plant := FindPlant(catalog, plantId).value;
      var st := NewPlantStatus(plantId, Watered, clock.today, clock.today + plant.checkIntervalDays,
                               Some(0), None, clock.now);
      ProcessWateringDone(s, catalog, plantId, clock).value.0 == UpsertPlantStatus(s, st)
  {
  }

  // ---------------------------------------------------------------------------
  // get_or_create_status
  // ---------------------------------------------------------------------------

  /** The row created for a plant never seen before: DRY, checked and due today, counter 0. */
  function InitialStatus(plantId: string, clock: Clock): (st: PlantStatus)
    ensures st.plantId == plantId && st.lastMoisture == Dry
    ensures st.lastCheckDate == clock.today && st.nextCheckDate == clock.today
    ensures st.overdueDays == 0 && st.updatedAt == clock.now
  {
    NewPlantStatus(plantId, Dry, clock.today, clock.today, Some(0), None, clock.now)
  }

  /**
   `get_or_create_status`: an existing row is returned and nothing is written;
   a missing one is created as the initial row, stored, and returned.
   */
  function GetOrCreateStatus(s: Store, plantId: string, clock: Clock): (r: (Store, PlantStatus))
    ensures plantId in s.statuses ==> r.0 == s && r.1 == s.statuses[plantId]
    ensures plantId !in s.statuses ==> r.1 == InitialStatus(plantId, clock)
    ensures plantId in r.0.statuses && r.0.statuses[plantId] == r.1
    ensures r.0.statuses.Keys == s.statuses.Keys + {plantId}
    ensures forall k :: k in s.statuses ==> r.0.statuses[k] == s.statuses[k]
    ensures r.0.notifications == s.notifications && r.0.users == s.users
  {
    match GetPlantStatus(s, plantId)
    case Some(st) => (s, st)
    case None =>
      var st := InitialStatus(plantId, clock);
      (UpsertPlantStatus(s, st), st)
  }

  // ---------------------------------------------------------------------------
  // get_plants_for_today
  // ---------------------------------------------------------------------------

  /** A plant with this row is due: its next check is today or earlier. */
  predicate Due(st: PlantStatus, today: Date) {
    st.nextCheckDate <= today
  }

  /** A due plant goes to the watering list when it was last DRY and has been ignored. */
  predicate NeedsWater(st: PlantStatus) {
    st.lastMoisture == Dry && st.overdueDays > 0
  }

  /** A plant paired with the status row it was classified by. */
  type Entry = (Plant, PlantStatus)

  /** The two lists of `get_plants_for_today` and the store they leave behind. */
  datatype DailyLists = DailyLists(store: Store, toCheck: seq<Entry>, toWater: seq<Entry>)

  /**
   The reference classification against a fixed table of rows: every catalog
   plant with a due row is listed, in catalog order, under "water" when it
   needs water and under "check" otherwise.
   */
  function Buckets(rows: map<string, PlantStatus>, catalog: seq<Plant>, today: Date)
    : (r: (seq<Entry>, seq<Entry>))
    decreases |catalog|
  {
    if catalog == [] then ([], [])
    else
      var (c, w) := Buckets(rows, catalog[..|catalog| - 1], today);
      var p := catalog[|catalog| - 1];
      if p.id in rows && Due(rows[p.id], today) then
        if NeedsWater(rows[p.id]) then (c, w + [(p, rows[p.id])]) else (c + [(p, rows[p.id])], w)
      else (c, w)
  }

  /** Membership in either list, both directions, against the table the lists were built from. */
  lemma {:induction false} BucketsMembers(rows: map<string, PlantStatus>, catalog: seq<Plant>, today: Date, e: Entry)
    ensures e in Buckets(rows, catalog, today).1 <==>
      e.0 in catalog && e.0.id in rows && e.1 == rows[e.0.id] && Due(e.1, today) && NeedsWater(e.1)
    ensures e in Buckets(rows, catalog, today).0 <==>
      e.0 in catalog && e.0.id in rows && e.1 == rows[e.0.id] && Due(e.1, today) && !NeedsWater(e.1)
    decreases |catalog|
  {
    if catalog != [] {
      var front := catalog[..|catalog| - 1];
      BucketsMembers(rows, front, today, e);
      assert catalog == front + [catalog[|catalog| - 1]];
    }
  }

  /** The table matters only at the catalog's ids. */
  lemma {:induction false} BucketsAgree(a: map<string, PlantStatus>, b: map<string, PlantStatus>,
                                         catalog: seq<Plant>, today: Date)
    requires forall p :: p in catalog ==> (p.id in a <==> p.id in b)
    requires forall p :: p in catalog && p.id in a ==> a[p.id] == b[p.id]
    ensures Buckets(a, catalog, today) == Buckets(b, catalog, today)
    decreases |catalog|
  {
    if catalog != [] {
      var front := catalog[..|catalog| - 1];
      assert forall p :: p in front ==> p in catalog;
      BucketsAgree(a, b, front, today);
    }
  }

  /** The ids of a list of plants. */
  function IdsOf(plants: seq<Plant>): set<string> {
    set p | p in plants :: p.id
  }

  lemma IdsOfSnoc(plants: seq<Plant>, p: Plant)
    ensures IdsOf(plants + [p]) == IdsOf(plants) + {p.id}
  {
    assert forall q :: q in plants + [p] <==> q in plants || q == p;
  }

  /**
   `get_plants_for_today`: walks the catalog in order, materialising each
   plant's row with `get_or_create_status` and classifying it by that row.
   Existing rows are untouched, each missing catalog plant gets its initial
   row, and the lists are the reference classification of the final rows.
   */
  function PlantsForToday(s: Store, catalog: Catalog, clock: Clock): (r: DailyLists)
    ensures r.store.statuses.Keys == s.statuses.Keys + IdsOf(catalog)
    ensures forall k :: k in s.statuses ==> r.store.statuses[k] == s.statuses[k]
    ensures forall p :: p in catalog && p.id !in s.statuses ==>
      r.store.statuses[p.id] == InitialStatus(p.id, clock)
    ensures r.store.notifications == s.notifications && r.store.users == s.users
    ensures (r.toCheck, r.toWater) == Buckets(r.store.statuses, catalog, clock.today)
    decreases |catalog|
  {
    if catalog == [] then DailyLists(s, [], [])
    else
      var front: Catalog := catalog[..|catalog| - 1];
      var p := catalog[|catalog| - 1];
      var before := PlantsForToday(s, front, clock);
      var (s', st) := GetOrCreateStatus(before.store, p.id, clock);
      var r := Classify(DailyLists(s', before.toCheck, before.toWater), p, st, clock.today);
      assert Classified(s, catalog, clock, r) by { ClassifiedStep(s, catalog, clock, before); }
      r
  }

  /** What the walk leaves after visiting `catalog` from store `s`: the rows it made and the lists. */
  predicate Classified(s: Store, catalog: Catalog, clock: Clock, r: DailyLists) {
    && r.store.statuses.Keys == s.statuses.Keys + IdsOf(catalog)
    && (forall k :: k in s.statuses ==> r.store.statuses[k] == s.statuses[k])
    && (forall k :: k in r.store.statuses && k !in s.statuses ==> r.store.statuses[k] == InitialStatus(k, clock))
    && r.store.notifications == s.notifications && r.store.users == s.users
    && (r.toCheck, r.toWater) == Buckets(r.store.statuses, catalog, clock.today)
  }

  /** The rows after one more plant is visited: the plant's row is fetched or created. */
  lemma MaterialisedStep(s: Store, catalog: Catalog, clock: Clock, before: Store)
    requires catalog != []
    requires before.statuses.Keys == s.statuses.Keys + IdsOf(catalog[..|catalog| - 1])
    requires forall k :: k in s.statuses ==> before.statuses[k] == s.statuses[k]
    requires forall k :: k in before.statuses && k !in s.statuses ==> before.statuses[k] == InitialStatus(k, clock)
    ensures var s' := GetOrCreateStatus(before, catalog[|catalog| - 1].id, clock).0;
      && s'.statuses.Keys == s.statuses.Keys + IdsOf(catalog)
      && (forall k :: k in s.statuses ==> s'.statuses[k] == s.statuses[k])
      && (forall k :: k in s'.statuses && k !in s.statuses ==> s'.statuses[k] == InitialStatus(k, clock))
  {
    var front := catalog[..|catalog| - 1];
    var p := catalog[|catalog| - 1];
    var s' := GetOrCreateStatus(before, p.id, clock).0;
    assert s'.statuses.Keys == s.statuses.Keys + IdsOf(catalog) by {
      assert catalog == front + [p];
      IdsOfSnoc(front, p);
    }
    forall k | k in s'.statuses && k !in s.statuses ensures s'.statuses[k] == InitialStatus(k, clock) {
      if k in before.statuses {
        assert s'.statuses[k] == before.statuses[k];
      }
    }
  }

  /** One more plant visited: its row is fetched or created, then classified. */
  lemma ClassifiedStep(s: Store, catalog: Catalog, clock: Clock, before: DailyLists)
    requires catalog != [] && Classified(s, catalog[..|catalog| - 1], clock, before)
    ensures var p := catalog[|catalog| - 1];
      var got := GetOrCreateStatus(before.store, p.id, clock);
      Classified(s, catalog, clock, Classify(DailyLists(got.0, before.toCheck, before.toWater), p, got.1, clock.today))
  {
    var p := catalog[|catalog| - 1];
    var got := GetOrCreateStatus(before.store, p.id, clock);
    var r := Classify(DailyLists(got.0, before.toCheck, before.toWater), p, got.1, clock.today);
    assert r.store == got.0;
    MaterialisedStep(s, catalog, clock, before.store);
    ClassifyStep(before, got.0, catalog, clock.today);
  }

  /** One step of the walk: append the plant to the list its row selects, if it is due. */
  function Classify(acc: DailyLists, p: Plant, st: PlantStatus, today: Date): DailyLists {
    if Due(st, today) then
      if NeedsWater(st) then acc.(toWater := acc.toWater + [(p, st)])
      else acc.(toCheck := acc.toCheck + [(p, st)])
    else acc
  }

  /** Classifying the last plant by its new row extends the reference classification by one plant. */
  lemma ClassifyStep(before: DailyLists, s': Store, catalog: Catalog, today: Date)
    requires |catalog| > 0
    requires var front := catalog[..|catalog| - 1];
      (before.toCheck, before.toWater) == Buckets(before.store.statuses, front, today)
    requires catalog[|catalog| - 1].id in s'.statuses
    requires forall k :: k in before.store.statuses ==> k in s'.statuses
    requires forall k :: k in s'.statuses && k != catalog[|catalog| - 1].id ==>
      k in before.store.statuses && s'.statuses[k] == before.store.statuses[k]
    ensures var p := catalog[|catalog| - 1];
      var r := Classify(DailyLists(s', before.toCheck, before.toWater), p, s'.statuses[p.id], today);
      (r.toCheck, r.toWater) == Buckets(s'.statuses, catalog, today)
  {
    var front := catalog[..|catalog| - 1];
    var p := catalog[|catalog| - 1];
    assert forall q :: q in front ==> q in catalog && q.id != p.id;
    BucketsAgree(before.store.statuses, s'.statuses, front, today);
  }

  /**
   The split is a partition of the due plants: no entry is in both lists, a
   plant whose next check lies in the future is in neither, and every catalog
   plant has a row afterwards.
   */
  lemma PlantsForTodayPartition(s: Store, catalog: Catalog, clock: Clock, e: Entry)
    ensures var r := PlantsForToday(s, catalog, clock);
      && !(e in r.toCheck && e in r.toWater)
      && (e in r.toCheck || e in r.toWater <==>
            e.0 in catalog && e.1 == r.store.statuses[e.0.id] && Due(e.1, clock.today))
      && (forall p :: p in catalog ==> p.id in r.store.statuses)
  {
    var r := PlantsForToday(s, catalog, clock);
    BucketsMembers(r.store.statuses, catalog, clock.today, e);
  }

  /**
   Running the split a second time the same day creates nothing and returns
   the same lists.
   */
  lemma PlantsForTodayIdempotent(s: Store, catalog: Catalog, clock: Clock)
    ensures var r := PlantsForToday(s, catalog, clock);
      PlantsForToday(r.store, catalog, clock) == r
  {
    var r := PlantsForToday(s, catalog, clock);
    var r2 := PlantsForToday(r.store, catalog, clock);
    assert r2.store.statuses == r.store.statuses;
  }

  /** With every counter at 0 nothing is ever due for watering: the "water" list is empty. */
  lemma NoWateringWithoutOverdue(s: Store, catalog: Catalog, clock: Clock)
    requires forall k :: k in s.statuses ==> s.statuses[k].overdueDays == 0
    ensures PlantsForToday(s, catalog, clock).toWater == []
  {
    var r := PlantsForToday(s, catalog, clock);
    if r.toWater != [] {
      BucketsMembers(r.store.statuses, catalog, clock.today, r.toWater[0]);
      assert false;
    }
  }

  // ---------------------------------------------------------------------------
  // reschedule_unanswered
  // ---------------------------------------------------------------------------

  /** A notification once the sweep has updated it: RESCHEDULED, with no answer and no answer time. */
  function Cleared(n: Notification): Notification {
    n.(status := Rescheduled, answer := None, answeredAt := None)
  }

  /** A status row as the sweep writes it back: due tomorrow and stamped now, all else kept. */
  function Bumped(st: PlantStatus, clock: Clock): PlantStatus {
    st.(nextCheckDate := clock.today + 1, updatedAt := clock.now)
  }

  /** Some notification of the list (its fields read from the snapshot) is about plant `k`. */
  predicate Touches(snap: seq<Notification>, ids: seq<int>, k: string) {
    exists id :: id in ids && 1 <= id <= |snap| && snap[id - 1].plantId == k
  }

  /** A list of ids touches a plant when its first id does or the rest of the list does. */
  lemma TouchesCons(snap: seq<Notification>, ids: seq<int>, k: string)
    requires IdsIn(snap, ids) && ids != []
    ensures Touches(snap, ids, k) <==> snap[ids[0] - 1].plantId == k || Touches(snap, ids[1..], k)
  {
    if Touches(snap, ids, k) {
      var id :| id in ids && 1 <= id <= |snap| && snap[id - 1].plantId == k;
      if id != ids[0] {
        assert id in ids[1..];
      }
    }
    if snap[ids[0] - 1].plantId == k {
      assert ids[0] in ids;
    }
    if Touches(snap, ids[1..], k) {
      var id :| id in ids[1..] && 1 <= id <= |snap| && snap[id - 1].plantId == k;
      assert id in ids;
    }
  }

  /** Every listed id names a row of the snapshot. */
  predicate IdsIn(snap: seq<Notification>, ids: seq<int>) {
    forall i :: 0 <= i < |ids| ==> 1 <= ids[i] <= |snap|
  }

  /**
   One iteration of the sweep as written: mark the notification RESCHEDULED,
   read the plant's row, increment the counter for a WATER notification, then
   upsert the row read before the increment, moved to tomorrow. The upsert
   writes back the old counter, so the increment is lost.
   */
  function SweepStep(s: Store, n: Notification, id: int, clock: Clock): (r: Store)
    requires WellKeyed(s)
    ensures WellKeyed(r)
    ensures |r.notifications| == |s.notifications|
    ensures HasRow(s, id) ==> Row(r, id) == Cleared(Row(s, id))
    ensures forall j :: HasRow(s, j) && j != id ==> Row(r, j) == Row(s, j)
    ensures r.statuses.Keys == s.statuses.Keys
    ensures n.plantId in s.statuses ==> r.statuses[n.plantId] == Bumped(s.statuses[n.plantId], clock)
    ensures forall k :: k in s.statuses && k != n.plantId ==> r.statuses[k] == s.statuses[k]
    ensures r.users == s.users
  {
    var s1 := UpdateNotification(s, id, Rescheduled, None, clock.now);
    assert s1.statuses == s.statuses;
    match GetPlantStatus(s1, n.plantId)
    case None => s1
    case Some(status) =>
      var s2 := if n.kind == Water then IncrementOverdueDays(s1, n.plantId, clock.now) else s1;
      assert s2.statuses.Keys == s.statuses.Keys && s2.notifications == s1.notifications;
      assert forall k :: k in s.statuses && k != n.plantId ==> s2.statuses[k] == s.statuses[k];
      UpsertPlantStatus(s2, Bumped(status, clock))
  }

  /**
   The loop of the sweep over the ids it fetched, each notification's fields
   read from the snapshot taken with the ids. Net effect: the listed rows are
   cleared, every plant that one of them is about is moved to tomorrow with its
   counter as it was, and nothing else changes.
   */
  function Sweep(s: Store, snap: seq<Notification>, ids: seq<int>, clock: Clock): (r: Store)
    requires IdsIn(snap, ids)
    requires WellKeyed(s)
    ensures WellKeyed(r)
    ensures |r.notifications| == |s.notifications|
    ensures forall j :: HasRow(s, j) ==> Row(r, j) == if j in ids then Cleared(Row(s, j)) else Row(s, j)
    ensures r.statuses.Keys == s.statuses.Keys
    ensures forall k :: k in s.statuses ==>
      r.statuses[k] == if Touches(snap, ids, k) then Bumped(s.statuses[k], clock) else s.statuses[k]
    ensures r.users == s.users
    decreases |ids|
  {
    if ids == [] then s
    else
      var s1 := SweepStep(s, snap[ids[0] - 1], ids[0], clock);
      var r := Sweep(s1, snap, ids[1..], clock);
      assert forall id :: id in ids <==> id == ids[0] || id in ids[1..];
      forall k { TouchesCons(snap, ids, k); }
      r
  }

  /** Plant `k` has a notification still open today. */
  predicate OpenToday(s: Store, k: string, today: Date) {
    exists j :: 1 <= j <= |s.notifications| && OpenOn(Row(s, j), today) && Row(s, j).plantId == k
  }

  /**
   `reschedule_unanswered` as written: every notification open today becomes
   RESCHEDULED with answer and answer time cleared; every plant with such a
   notification and a status row is due tomorrow, its counter unchanged; all
   other rows are untouched.
   */
  function RescheduleUnanswered(s: Store, clock: Clock): (r: Store)
    requires WellKeyed(s)
    ensures WellKeyed(r)
    ensures |r.notifications| == |s.notifications|
    ensures forall j :: HasRow(s, j) ==>
      Row(r, j) == if OpenOn(Row(s, j), clock.today) then Cleared(Row(s, j)) else Row(s, j)
    ensures r.statuses.Keys == s.statuses.Keys
    ensures forall k :: k in s.statuses ==>
      r.statuses[k] == if OpenToday(s, k, clock.today) then Bumped(s.statuses[k], clock) else s.statuses[k]
    ensures r.users == s.users
  {
    var ids := PendingNotifications(s, clock.today);
    forall k ensures Touches(s.notifications, ids, k) <==> OpenToday(s, k, clock.today) {
      PendingTouches(s, clock.today, k);
    }
    Sweep(s, s.notifications, ids, clock)
  }

  /** The notifications open today touch a plant exactly when it has one open today. */
  lemma PendingTouches(s: Store, today: Date, k: string)
    ensures Touches(s.notifications, PendingNotifications(s, today), k) <==> OpenToday(s, k, today)
  {
    var ids := PendingNotifications(s, today);
    if OpenToday(s, k, today) {
      var j :| HasRow(s, j) && OpenOn(Row(s, j), today) && Row(s, j).plantId == k;
      assert j in ids;
    }
  }

  /** The sweep as written never changes any overdue counter: the WATER increment is overwritten. */
  lemma SweepKeepsOverdue(s: Store, clock: Clock, k: string)
    requires WellKeyed(s) && k in s.statuses
    ensures k in RescheduleUnanswered(s, clock).statuses
    ensures RescheduleUnanswered(s, clock).statuses[k].overdueDays == s.statuses[k].overdueDays
  {
  }

  // ---------------------------------------------------------------------------
  // The sweep as its comment intends it
  // ---------------------------------------------------------------------------

  /** How many of the listed notifications are WATER notifications about plant `k`. */
  function WaterCount(snap: seq<Notification>, ids: seq<int>, k: string): (c: nat)
    requires IdsIn(snap, ids)
    ensures c > 0 <==> exists id :: id in ids && WaterAbout(snap, id, k)
    decreases |ids|
  {
    if ids == [] then 0
    else
      var c := (if WaterAbout(snap, ids[0], k) then 1 else 0) + WaterCount(snap, ids[1..], k);
      assert ids[0] in ids;
      assert forall id :: id in ids[1..] ==> id in ids;
      assert forall id :: id in ids && id != ids[0] ==> id in ids[1..];
      c
  }

  /** Row `id` of the snapshot is a WATER notification about plant `k`. */
  predicate WaterAbout(snap: seq<Notification>, id: int, k: string) {
    1 <= id <= |snap| && snap[id - 1].plantId == k && snap[id - 1].kind == Water
  }

  /** A row moved to tomorrow with `extra` more ignored days. */
  function Overdue(st: PlantStatus, clock: Clock, extra: nat): PlantStatus {
    Bumped(st, clock).(overdueDays := st.overdueDays + extra)
  }

  /**
   One iteration as intended: the row written back is read after the
   increment, so a WATER notification leaves the counter one higher.
   */
  function SweepStepIntended(s: Store, n: Notification, id: int, clock: Clock): (r: Store)
    requires WellKeyed(s)
    ensures WellKeyed(r)
    ensures |r.notifications| == |s.notifications|
    ensures HasRow(s, id) ==> Row(r, id) == Cleared(Row(s, id))
    ensures forall j :: HasRow(s, j) && j != id ==> Row(r, j) == Row(s, j)
    ensures r.statuses.Keys == s.statuses.Keys
    ensures n.plantId in s.statuses ==>
      r.statuses[n.plantId] == Overdue(s.statuses[n.plantId], clock, if n.kind == Water then 1 else 0)
    ensures forall k :: k in s.statuses && k != n.plantId ==> r.statuses[k] == s.statuses[k]
    ensures r.users == s.users
  {
    var s1 := UpdateNotification(s, id, Rescheduled, None, clock.now);
    assert s1.statuses == s.statuses;
    if n.plantId !in s1.statuses then s1
    else
      var s2 := if n.kind == Water then IncrementOverdueDays(s1, n.plantId, clock.now) else s1;
      assert s2.statuses.Keys == s.statuses.Keys && s2.notifications == s1.notifications;
      assert forall k :: k in s.statuses && k != n.plantId ==> s2.statuses[k] == s.statuses[k];
      assert s2.statuses[n.plantId]
          == s.statuses[n.plantId].(overdueDays := s.statuses[n.plantId].overdueDays
                                                   + (if n.kind == Water then 1 else 0),
                                    updatedAt := if n.kind == Water then clock.now
                                                 else s.statuses[n.plantId].updatedAt);
      UpsertPlantStatus(s2, Bumped(s2.statuses[n.plantId], clock))
  }

  /** The intended loop: like `Sweep`, but each plant's counter grows by its WATER notifications. */
  function SweepIntended(s: Store, snap: seq<Notification>, ids: seq<int>, clock: Clock): (r: Store)
    requires IdsIn(snap, ids)
    requires WellKeyed(s)
    ensures WellKeyed(r)
    ensures |r.notifications| == |s.notifications|
    ensures forall j :: HasRow(s, j) ==> Row(r, j) == if j in ids then Cleared(Row(s, j)) else Row(s, j)
    ensures r.statuses.Keys == s.statuses.Keys
    ensures forall k :: k in s.statuses ==>
      r.statuses[k] == if Touches(snap, ids, k) then Overdue(s.statuses[k], clock, WaterCount(snap, ids, k))
                       else s.statuses[k]
    ensures r.users == s.users
    decreases |ids|
  {
    if ids == [] then s
    else
      var s1 := SweepStepIntended(s, snap[ids[0] - 1], ids[0], clock);
      var r := SweepIntended(s1, snap, ids[1..], clock);
      assert forall id :: id in ids <==> id == ids[0] || id in ids[1..];
      forall k | k in s.statuses
        ensures r.statuses[k] == if Touches(snap, ids, k) then Overdue(s.statuses[k], clock, WaterCount(snap, ids, k))
                                 else s.statuses[k]
      {
        SweepIntendedRow(s.statuses[k], s1.statuses[k], r.statuses[k], snap, ids, clock, k);
      }
      r
  }

  /**
   One plant's row across one iteration of the intended loop: the first
   notification's effect on the row followed by the rest of the loop's effect
   is the whole loop's effect.
   */
  lemma SweepIntendedRow(st: PlantStatus, st1: PlantStatus, rk: PlantStatus,
                         snap: seq<Notification>, ids: seq<int>, clock: Clock, k: string)
    requires IdsIn(snap, ids) && ids != []
    requires st1 == if snap[ids[0] - 1].plantId == k
                    then Overdue(st, clock, if snap[ids[0] - 1].kind == Water then 1 else 0)
                    else st
    requires rk == if Touches(snap, ids[1..], k) then Overdue(st1, clock, WaterCount(snap, ids[1..], k)) else st1
    ensures rk == if Touches(snap, ids, k) then Overdue(st, clock, WaterCount(snap, ids, k)) else st
  {
    TouchesCons(snap, ids, k);
    if !Touches(snap, ids[1..], k) {
      assert WaterCount(snap, ids[1..], k) == 0;
    }
  }

  /** How many WATER notifications about plant `k` are still open on day `today`. */
  function OpenWaterCount(s: Store, k: string, today: Date): nat {
    var ids := PendingNotifications(s, today);
    assert forall i :: 0 <= i < |ids| ==> ids[i] in ids;
    WaterCount(s.notifications, ids, k)
  }

  /** Plant `k` has a WATER notification still open today. */
  predicate WaterOpenToday(s: Store, k: string, today: Date) {
    exists j :: 1 <= j <= |s.notifications| && OpenOn(Row(s, j), today) && Row(s, j).plantId == k
      && Row(s, j).kind == Water
  }

  /**
   `reschedule_unanswered` as intended: the same rescheduling, and a plant's
   counter grows exactly when it has a WATER notification open today.
   */
  function RescheduleUnansweredIntended(s: Store, clock: Clock): (r: Store)
    requires WellKeyed(s)
    ensures WellKeyed(r)
    ensures |r.notifications| == |s.notifications|
    ensures forall j :: HasRow(s, j) ==>
      Row(r, j) == if OpenOn(Row(s, j), clock.today) then Cleared(Row(s, j)) else Row(s, j)
    ensures r.statuses.Keys == s.statuses.Keys
    ensures forall k :: k in s.statuses ==>
      && r.statuses[k].nextCheckDate == (if OpenToday(s, k, clock.today) then clock.today + 1
                                         else s.statuses[k].nextCheckDate)
      && (r.statuses[k].overdueDays > s.statuses[k].overdueDays <==> WaterOpenToday(s, k, clock.today))
      && r.statuses[k].overdueDays >= s.statuses[k].overdueDays
    ensures forall k :: k in s.statuses && !OpenToday(s, k, clock.today) ==> r.statuses[k] == s.statuses[k]
    ensures forall k :: k in s.statuses ==>
      r.statuses[k] == if OpenToday(s, k, clock.today)
                       then Overdue(s.statuses[k], clock, OpenWaterCount(s, k, clock.today))
                       else s.statuses[k]
    ensures r.users == s.users
  {
    var ids := PendingNotifications(s, clock.today);
    var r := SweepIntended(s, s.notifications, ids, clock);
    forall k ensures Touches(s.notifications, ids, k) <==> OpenToday(s, k, clock.today) {
      PendingTouches(s, clock.today, k);
    }
    forall k | k in s.statuses
      ensures && r.statuses[k].nextCheckDate == (if OpenToday(s, k, clock.today) then clock.today + 1
                                                 else s.statuses[k].nextCheckDate)
              && (r.statuses[k].overdueDays > s.statuses[k].overdueDays <==> WaterOpenToday(s, k, clock.today))
              && r.statuses[k].overdueDays >= s.statuses[k].overdueDays
              && (!OpenToday(s, k, clock.today) ==> r.statuses[k] == s.statuses[k])
    {
      PendingTouches(s, clock.today, k);
      PendingWaterCount(s, clock.today, k);
      OverdueRow(s.statuses[k], r.statuses[k], clock, Touches(s.notifications, ids, k),
                 WaterCount(s.notifications, ids, k));
    }
    r
  }

  /**
   A row the intended loop either left alone or moved to tomorrow with
   `count` more ignored days: it is due tomorrow exactly when touched, and
   its counter grew exactly when `count` is positive.
   */
  lemma OverdueRow(st: PlantStatus, rk: PlantStatus, clock: Clock, touched: bool, count: nat)
    requires rk == if touched then Overdue(st, clock, count) else st
    requires count > 0 ==> touched
    ensures rk.nextCheckDate == if touched then clock.today + 1 else st.nextCheckDate
    ensures rk.overdueDays > st.overdueDays <==> count > 0
    ensures rk.overdueDays >= st.overdueDays
  {
  }

  /** The notifications open today count a WATER one for a plant exactly when it has one open today. */
  lemma PendingWaterCount(s: Store, today: Date, k: string)
    ensures WaterCount(s.notifications, PendingNotifications(s, today), k) > 0 <==> WaterOpenToday(s, k, today)
    ensures WaterOpenToday(s, k, today) ==> OpenToday(s, k, today)
  {
    var ids := PendingNotifications(s, today);
    if WaterOpenToday(s, k, today) {
      var j :| HasRow(s, j) && OpenOn(Row(s, j), today) && Row(s, j).plantId == k && Row(s, j).kind == Water;
      assert j in ids && WaterAbout(s.notifications, j, k);
    }
  }

  /** The store of the discrepancy: plant "p" is DRY with no ignored days and one WATER row is open on day 0. */
  lemma OneWaterRowOpen(s: Store)
    requires s == Store(map["p" := PlantStatus("p", Dry, 0, 0, 0, 0)],
                        [Notification("p", Water, Pending, Some(7), 0, None, None)], map[])
    ensures WellKeyed(s) && OpenToday(s, "p", 0) && OpenWaterCount(s, "p", 0) == 1
  {
    assert HasRow(s, 1);
    assert s.notifications[..0] == [];
    assert PendingNotifications(s, 0) == [1];
    assert WaterCount(s.notifications, [1], "p") == 1 by {
      assert [1][1..] == [];
    }
  }

  /**
   The discrepancy on one input: a plant last answered DRY with no ignored
   days and one WATER notification still pending today. As written the sweep
   leaves its counter at 0; as intended it becomes 1.
   */
  lemma SweepLosesIncrement()
    ensures var st := PlantStatus("p", Dry, 0, 0, 0, 0);
      var n := Notification("p", Water, Pending, Some(7), 0, None, None);
      var s := Store(map["p" := st], [n], map[]);
      var clock := Clock(0, 1);
      && WellKeyed(s)
      && RescheduleUnanswered(s, clock).statuses["p"].overdueDays == 0
      && RescheduleUnansweredIntended(s, clock).statuses["p"].overdueDays == 1
  {
    var st := PlantStatus("p", Dry, 0, 0, 0, 0);
    var n := Notification("p", Water, Pending, Some(7), 0, None, None);
    var s := Store(map["p" := st], [n], map[]);
    var clock := Clock(0, 1);
    OneWaterRowOpen(s);
    SweepKeepsOverdue(s, clock, "p");
  }

}

=== FILE: repository.dfy ===
/**
 The care store (bot/database/repository.py) as three maps threaded through pure
 functions: plant statuses keyed by plant id, the append-only notification log
 (row id = position + 1, as AUTOINCREMENT hands them out when nothing is ever
 deleted), and user settings keyed by user id. The SQL engine is not modelled,
 only what each statement does to the rows.
 */
module Repository {
  import opened Wrappers
  import opened Calendar
  import opened Models

  datatype Store = Store(
    statuses: map<string, PlantStatus>,
    notifications: seq<Notification>,
    users: map<int, UserSettings>)

  /** A freshly initialised database: three empty tables. */
  const EmptyStore: Store := Store(map[], [], map[])

  /** Every row sits under its own primary key. */
  predicate WellKeyed(s: Store) {
    && (forall k :: k in s.statuses ==> s.statuses[k].plantId == k)
    && (forall u :: u in s.users ==> s.users[u].userId == u)
  }

  // ---------------------------------------------------------------------------
  // plant_status
  // ---------------------------------------------------------------------------

  /** `get_plant_status`. */
  function GetPlantStatus(s: Store, plantId: string): Option<PlantStatus> {
    if plantId in s.statuses then Some(s.statuses[plantId]) else None
  }

  /**
   `upsert_plant_status`: INSERT ... ON CONFLICT(plant_id) DO UPDATE of every
   non-key column. Afterwards the row under the key is exactly `st`, the key set
   grows by at most that key, and no other row changes.
   */
  function UpsertPlantStatus(s: Store, st: PlantStatus): (r: Store)
    ensures st.plantId in r.statuses && r.statuses[st.plantId] == st
    ensures r.statuses.Keys == s.statuses.Keys + {st.plantId}
    ensures forall k :: k in s.statuses && k != st.plantId ==> r.statuses[k] == s.statuses[k]
    ensures r.notifications == s.notifications && r.users == s.users
    ensures WellKeyed(s) ==> WellKeyed(r)
  {
    s.(statuses := s.statuses[st.plantId := st])
  }

  /** Reading back after an upsert: the key written gives the row written, every other key what it gave before. */
  lemma UpsertThenGetStatus(s: Store, st: PlantStatus, plantId: string)
    ensures GetPlantStatus(UpsertPlantStatus(s, st), plantId)
         == if plantId == st.plantId then Some(st) else GetPlantStatus(s, plantId)
  {
  }

  /**
   `increment_overdue_days`: an UPDATE ... WHERE plant_id = ?, so a missing row
   means nothing happens; otherwise the counter grows by exactly one and only
   `updated_at` changes with it.
   */
  function IncrementOverdueDays(s: Store, plantId: string, now: Stamp): (r: Store)
    ensures plantId !in s.statuses ==> r == s
    ensures r.statuses.Keys == s.statuses.Keys
    ensures plantId in s.statuses ==>
      var (a, b) := (s.statuses[plantId], r.statuses[plantId]);
      && b.overdueDays == a.overdueDays + 1 && b.updatedAt == now
      && b.plantId == a.plantId && b.lastMoisture == a.lastMoisture
      && b.lastCheckDate == a.lastCheckDate && b.nextCheckDate == a.nextCheckDate
    ensures forall k :: k in s.statuses && k != plantId ==> r.statuses[k] == s.statuses[k]
    ensures r.notifications == s.notifications && r.users == s.users
  {
    if plantId !in s.statuses then s
    else
      var a := s.statuses[plantId];
      s.(statuses := s.statuses[plantId := a.(overdueDays := a.overdueDays + 1, updatedAt := now)])
  }

  /**
   `reset_overdue_days`: the counter becomes 0, `updated_at` becomes now, and no
   other field or row changes; a missing row means nothing happens.
   */
  function ResetOverdueDays(s: Store, plantId: string, now: Stamp): (r: Store)
    ensures plantId !in s.statuses ==> r == s
    ensures r.statuses.Keys == s.statuses.Keys
    ensures plantId in s.statuses ==>
      var (a, b) := (s.statuses[plantId], r.statuses[plantId]);
      && b.overdueDays == 0 && b.updatedAt == now
      && b.plantId == a.plantId && b.lastMoisture == a.lastMoisture
      && b.lastCheckDate == a.lastCheckDate && b.nextCheckDate == a.nextCheckDate
    ensures forall k :: k in s.statuses && k != plantId ==> r.statuses[k] == s.statuses[k]
    ensures r.notifications == s.notifications && r.users == s.users
  {
    if plantId !in s.statuses then s
    else
      var a := s.statuses[plantId];
      s.(statuses := s.statuses[plantId := a.(overdueDays := 0, updatedAt := now)])
  }

  // ---------------------------------------------------------------------------
  // notifications
  // ---------------------------------------------------------------------------

  /** A notification row with this id exists. */
  predicate HasRow(s: Store, id: int) {
    1 <= id <= |s.notifications|
  }

  /** The notification row with this id. */
  function Row(s: Store, id: int): Notification
    requires HasRow(s, id)
  {
    s.notifications[id - 1]
  }

  /**
   `create_notification`: inserts only plant, type, status, message id and
   creation time, so the new row has no answer time and no answer whatever the
   record carried; the id returned is one no existing row has, and every existing
   row is left as it was.
   */
  function CreateNotification(s: Store, n: Notification): (r: (Store, int))
    ensures !HasRow(s, r.1) && HasRow(r.0, r.1)
    ensures |r.0.notifications| == |s.notifications| + 1
    ensures forall id :: HasRow(s, id) ==> HasRow(r.0, id) && Row(r.0, id) == Row(s, id)
    ensures Row(r.0, r.1) == NewNotification(n.plantId, n.kind, n.status, n.messageId, n.createdOn)
    ensures r.0.statuses == s.statuses && r.0.users == s.users
  {
    var row := NewNotification(n.plantId, n.kind, n.status, n.messageId, n.createdOn);
    (s.(notifications := s.notifications + [row]), |s.notifications| + 1)
  }

  /** Python truthiness of an optional answer string: present and non-empty. */
  predicate Truthy(answer: Option<string>) {
    answer.Some? && answer.value != ""
  }

  /**
   `update_notification`: sets the status and overwrites the answer (with None
   too); `answered_at` is set to now exactly when the answer is truthy and
   cleared otherwise. An unknown id updates nothing.
   */
  function UpdateNotification(s: Store, id: int, status: NotificationStatus,
                              answer: Option<string>, now: Stamp): (r: Store)
    ensures !HasRow(s, id) ==> r == s
    ensures |r.notifications| == |s.notifications|
    ensures HasRow(s, id) ==>
      var (a, b) := (Row(s, id), Row(r, id));
      && b.status == status && b.answer == answer
      && (b.answeredAt.Some? <==> Truthy(answer))
      && (b.answeredAt.Some? ==> b.answeredAt.value == now)
      && b.plantId == a.plantId && b.kind == a.kind
      && b.messageId == a.messageId && b.createdOn == a.createdOn
    ensures forall j :: HasRow(s, j) && j != id ==> Row(r, j) == Row(s, j)
    ensures r.statuses == s.statuses && r.users == s.users
  {
    if !HasRow(s, id) then s
    else
      var a := Row(s, id);
      var b := a.(status := status, answer := answer,
                  answeredAt := if Truthy(answer) then Some(now) else None);
      s.(notifications := s.notifications[id - 1 := b])
  }

  /** `update_notification_message_id`: only the message id of the row changes; an unknown id updates nothing. */
  function UpdateNotificationMessageId(s: Store, id: int, messageId: int): (r: Store)
    ensures !HasRow(s, id) ==> r == s
    ensures |r.notifications| == |s.notifications|
    ensures HasRow(s, id) ==> Row(r, id) == Row(s, id).(messageId := Some(messageId))
    ensures forall j :: HasRow(s, j) && j != id ==> Row(r, j) == Row(s, j)
    ensures r.statuses == s.statuses && r.users == s.users
  {
    if !HasRow(s, id) then s
    else s.(notifications := s.notifications[id - 1 := Row(s, id).(messageId := Some(messageId))])
  }

  /** The ids of rows satisfying `p`, in ascending id order (a SELECT ... WHERE scan). */
  function IdsWhere(ns: seq<Notification>, p: Notification -> bool): (ids: seq<int>)
    ensures forall i, j :: 0 <= i < j < |ids| ==> ids[i] < ids[j]
    ensures forall i :: 0 <= i < |ids| ==> 1 <= ids[i] <= |ns| && p(ns[ids[i] - 1])
    ensures forall k :: 0 <= k < |ns| && p(ns[k]) ==> k + 1 in ids
    decreases |ns|
  {
    if ns == [] then []
    else
      var front := ns[..|ns| - 1];
      var ids := IdsWhere(front, p);
      assert forall k :: 0 <= k < |front| ==> front[k] == ns[k];
      ids + (if p(ns[|ns| - 1]) then [|ns|] else [])
  }

  /** The lowest id whose row satisfies `p` (what `fetchone()` returns from an id-ordered scan). */
  function FirstWhere(ns: seq<Notification>, p: Notification -> bool): (r: Option<int>)
    ensures r.Some? ==> 1 <= r.value <= |ns| && p(ns[r.value - 1])
    ensures r.Some? ==> forall k :: 0 <= k < r.value - 1 ==> !p(ns[k])
    ensures r.None? ==> forall k :: 0 <= k < |ns| ==> !p(ns[k])
    decreases |ns|
  {
    if ns == [] then None
    else if p(ns[0]) then Some(1)
    else
      var r := FirstWhere(ns[1..], p);
      assert forall k :: 1 <= k < |ns| ==> ns[k] == ns[1..][k - 1];
      if r.Some? then Some(r.value + 1) else None
  }

  /** The filter of `get_pending_notifications`: still open, and created on day `d`. */
  predicate OpenOn(n: Notification, d: Date) {
    IsOpen(n.status) && n.createdOn == d
  }

  /**
   `get_pending_notifications(d)`: exactly the rows whose status is pending or
   reminded and whose creation day is `d`, in id order.
   */
  function PendingNotifications(s: Store, d: Date): (ids: seq<int>)
    ensures forall i, j :: 0 <= i < j < |ids| ==> ids[i] < ids[j]
    ensures forall id :: id in ids <==> HasRow(s, id) && OpenOn(Row(s, id), d)
  {
    IdsWhere(s.notifications, (n: Notification) => OpenOn(n, d))
  }

  /** `get_notification_by_message_id`: the first row carrying this message id. */
  function NotificationByMessageId(s: Store, messageId: int): (r: Option<int>)
    ensures r.Some? ==> HasRow(s, r.value) && Row(s, r.value).messageId == Some(messageId)
    ensures r.Some? ==> forall j :: 1 <= j < r.value ==> Row(s, j).messageId != Some(messageId)
    ensures r.None? <==> forall j :: HasRow(s, j) ==> Row(s, j).messageId != Some(messageId)
  {
    FirstWhere(s.notifications, (n: Notification) => n.messageId == Some(messageId))
  }

  /**
   After a row is given a message id, looking that message up finds a row:
   the updated one, or an earlier row already carrying the same id.
   */
  lemma MessageIdThenLookup(s: Store, id: int, messageId: int)
    requires HasRow(s, id)
    ensures var f := NotificationByMessageId(UpdateNotificationMessageId(s, id, messageId), messageId);
      f.Some? && f.value <= id
      && (f.value < id ==> Row(s, f.value).messageId == Some(messageId))
  {
    var r := UpdateNotificationMessageId(s, id, messageId);
    assert Row(r, id).messageId == Some(messageId);
  }

  /** The filter of `get_today_notification_for_plant`: plant, day and (if given) type; never status. */
  predicate SameDayFor(n: Notification, plantId: string, kind: Option<NotificationType>, today: Date) {
    n.plantId == plantId && n.createdOn == today && (kind.None? || n.kind == kind.value)
  }

  /**
   `get_today_notification_for_plant`: some row exists for this plant, created
   today and of the given type (any type when None), whatever its status.
   */
  function TodayNotificationForPlant(s: Store, plantId: string, kind: Option<NotificationType>,
                                     today: Date): (r: Option<int>)
    ensures r.Some? ==> HasRow(s, r.value) && SameDayFor(Row(s, r.value), plantId, kind, today)
    ensures r.None? <==> forall j :: HasRow(s, j) ==> !SameDayFor(Row(s, j), plantId, kind, today)
  {
    FirstWhere(s.notifications, (n: Notification) => SameDayFor(n, plantId, kind, today))
  }

  /**
   The same-day lookup ignores status: a status update (answered, reminded,
   rescheduled) on any row never changes what it finds.
   */
  lemma SameDayLookupIgnoresStatus(s: Store, id: int, status: NotificationStatus, answer: Option<string>,
                                   now: Stamp, plantId: string, kind: Option<NotificationType>, today: Date)
    ensures TodayNotificationForPlant(UpdateNotification(s, id, status, answer, now), plantId, kind, today)
         == TodayNotificationForPlant(s, plantId, kind, today)
  {
    var s' := UpdateNotification(s, id, status, answer, now);
    assert forall j :: HasRow(s, j) ==>
      (SameDayFor(Row(s', j), plantId, kind, today) <==> SameDayFor(Row(s, j), plantId, kind, today));
    FirstWhereExtensional(s.notifications, s'.notifications, (n: Notification) => SameDayFor(n, plantId, kind, today));
  }

  /** Two logs whose rows agree on `p` give the same first match. */
  lemma {:induction false} FirstWhereExtensional(a: seq<Notification>, b: seq<Notification>, p: Notification -> bool)
    requires |a| == |b|
    requires forall j :: 0 <= j < |a| ==> (p(a[j]) == p(b[j]))
    ensures FirstWhere(a, p) == FirstWhere(b, p)
    decreases |a|
  {
    if a != [] && !p(a[0]) {
      FirstWhereExtensional(a[1..], b[1..], p);
    }
  }

  // ---------------------------------------------------------------------------
  // user_settings
  // ---------------------------------------------------------------------------

  /** `get_user_settings`. */
  function GetUserSettings(s: Store, userId: int): Option<UserSettings> {
    if userId in s.users then Some(s.users[userId]) else None
  }

  /**
   `upsert_user_settings`: a new user is inserted as given; on conflict the
   stored `created_at` is kept while `notification_time` and `updated_at` take
   the new values.
   */
  function UpsertUserSettings(s: Store, u: UserSettings): (r: Store)
    ensures r.users.Keys == s.users.Keys + {u.userId}
    ensures u.userId !in s.users ==> r.users[u.userId] == u
    ensures u.userId in s.users ==>
      && r.users[u.userId].userId == s.users[u.userId].userId
      && r.users[u.userId].createdAt == s.users[u.userId].createdAt
      && r.users[u.userId].notificationTime == u.notificationTime
      && r.users[u.userId].updatedAt == u.updatedAt
    ensures forall k :: k in s.users && k != u.userId ==> r.users[k] == s.users[k]
    ensures r.statuses == s.statuses && r.notifications == s.notifications
    ensures WellKeyed(s) ==> WellKeyed(r)
  {
    if u.userId in s.users then
      var old_ := s.users[u.userId];
      s.(users := s.users[u.userId := old_.(notificationTime := u.notificationTime, updatedAt := u.updatedAt)])
    else s.(users := s.users[u.userId := u])
  }

  /**
   Reading settings back after an upsert: the user's time and update stamp are
   the new ones, a stored creation stamp survives, and other users are as before.
   */
  lemma UpsertThenGetSettings(s: Store, u: UserSettings, userId: int)
    ensures var g := GetUserSettings(UpsertUserSettings(s, u), userId);
      && (userId != u.userId ==> g == GetUserSettings(s, userId))
      && (userId == u.userId ==>
            && g.Some? && g.value.notificationTime == u.notificationTime && g.value.updatedAt == u.updatedAt
            && g.value.createdAt == (if u.userId in s.users then s.users[u.userId].createdAt else u.createdAt))
  {
  }
}

=== FILE: routing.dfy ===
/**
 How a button press reaches its handler (bot/main.py registers the routers;
 each handler declares a filter on the callback data). The dispatcher tries
 the routers in registration order and the handlers of each in declaration
 order, and the first whose filter accepts the data runs. Only the handlers
 of callbacks.py and admin.py are modelled past the routing decision.
 */
module Routing {
  import opened Wrappers
  import opened Text
  import opened Models
  import opened Repository
  import opened PlantService
  import opened Keyboards
  import opened Callbacks
  import opened Admin

  /** Every callback handler of the bot. */
  datatype Handler =
    | MainMenu | PlantsMenu | SettingsMenu | Noop
    | AdminMenu | AdminPlant | AdminSet
    | PlantInfo | ShowPhoto
    | NotificationTimeMenu | SetTime
    | MoistureAnswer | WateredDone | CorrectAnswer

  /**
   The handler a press with this data reaches: the routers in the order
   main.py includes them (menu, admin, plants, settings, callbacks; the
   commands router has no callback handlers), each router's handlers in
   declaration order, the first whose filter accepts the data. None when no
   filter does.
   */
  function Route(data: string): (r: Option<Handler>)
    ensures r == Some(AdminMenu) ==> data == "menu:admin"
    ensures r == Some(AdminPlant) ==> "admin:plant:" <= data
    ensures r == Some(AdminSet) ==> "admin:set:" <= data
    ensures r == Some(MoistureAnswer) ==> "moisture:" <= data
    ensures r == Some(WateredDone) ==> "watered:" <= data
    ensures r == Some(CorrectAnswer) ==> "correct:" <= data
  {
    if data == "menu:main" then Some(MainMenu)
    else if data == "menu:plants" then Some(PlantsMenu)
    else if data == "menu:settings" then Some(SettingsMenu)
    else if data == "noop" then Some(Noop)
    else if data == "menu:admin" then Some(AdminMenu)
    else if "admin:plant:" <= data then Some(AdminPlant)
    else if "admin:set:" <= data then Some(AdminSet)
    else if "plant_info:" <= data then Some(PlantInfo)
    else if "show_photo:" <= data then Some(ShowPhoto)
    else if data == "settings:notification_time" then Some(NotificationTimeMenu)
    else if "set_time:" <= data then Some(SetTime)
    else if "moisture:" <= data then Some(MoistureAnswer)
    else if "watered:" <= data then Some(WateredDone)
    else if "correct:" <= data then Some(CorrectAnswer)
    else None
  }

  /** A datum carrying prefix `p` neither equals nor carries a `q` that differs from `p` at position `i`. */
  lemma Clash(p: string, q: string, data: string, i: nat)
    requires i < |p| && i < |q| && p[i] != q[i] && p <= data
    ensures !(q <= data) && data != q
  {
    assert data[i] == p[i];
  }

  /** `menu:admin` reaches the admin menu and nothing else does. */
  lemma RouteAdminMenu(data: string)
    ensures Route(data) == Some(AdminMenu) <==> data == "menu:admin"
  {
  }

  /** A datum reaches the admin plant view exactly when it starts with `admin:plant:`. */
  lemma RouteAdminPlant(data: string)
    ensures Route(data) == Some(AdminPlant) <==> "admin:plant:" <= data
  {
    if "admin:plant:" <= data {
      Clash("admin:plant:", "menu:main", data, 0);
      Clash("admin:plant:", "menu:plants", data, 0);
      Clash("admin:plant:", "menu:settings", data, 0);
      Clash("admin:plant:", "noop", data, 0);
      Clash("admin:plant:", "menu:admin", data, 0);
    }
  }

  /** A datum reaches the status setter exactly when it starts with `admin:set:`. */
  lemma RouteAdminSet(data: string)
    ensures Route(data) == Some(AdminSet) <==> "admin:set:" <= data
  {
    if "admin:set:" <= data {
      Clash("admin:set:", "menu:main", data, 0);
      Clash("admin:set:", "menu:plants", data, 0);
      Clash("admin:set:", "menu:settings", data, 0);
      Clash("admin:set:", "noop", data, 0);
      Clash("admin:set:", "menu:admin", data, 0);
      Clash("admin:set:", "admin:plant:", data, 6);
    }
  }

  /** A datum reaches the moisture handler exactly when it starts with `moisture:`. */
  lemma RouteMoisture(data: string)
    ensures Route(data) == Some(MoistureAnswer) <==> "moisture:" <= data
  {
    if "moisture:" <= data {
      Clash("moisture:", "menu:main", data, 1);
      Clash("moisture:", "menu:plants", data, 1);
      Clash("moisture:", "menu:settings", data, 1);
      Clash("moisture:", "noop", data, 0);
      Clash("moisture:", "menu:admin", data, 1);
      Clash("moisture:", "admin:plant:", data, 0);
      Clash("moisture:", "admin:set:", data, 0);
      Clash("moisture:", "plant_info:", data, 0);
      Clash("moisture:", "show_photo:", data, 0);
      Clash("moisture:", "settings:notification_time", data, 0);
      Clash("moisture:", "set_time:", data, 0);
    }
  }

  /** A datum reaches the watering handler exactly when it starts with `watered:`. */
  lemma RouteWatered(data: string)
    ensures Route(data) == Some(WateredDone) <==> "watered:" <= data
  {
    if "watered:" <= data {
      Clash("watered:", "menu:main", data, 0);
      Clash("watered:", "menu:plants", data, 0);
      Clash("watered:", "menu:settings", data, 0);
      Clash("watered:", "noop", data, 0);
      Clash("watered:", "menu:admin", data, 0);
      Clash("watered:", "admin:plant:", data, 0);
      Clash("watered:", "admin:set:", data, 0);
      Clash("watered:", "plant_info:", data, 0);
      Clash("watered:", "show_photo:", data, 0);
      Clash("watered:", "settings:notification_time", data, 0);
      Clash("watered:", "set_time:", data, 0);
      Clash("watered:", "moisture:", data, 0);
    }
  }

  /** A datum reaches the correction handler exactly when it starts with `correct:`. */
  lemma RouteCorrect(data: string)
    ensures Route(data) == Some(CorrectAnswer) <==> "correct:" <= data
  {
    if "correct:" <= data {
      Clash("correct:", "menu:main", data, 0);
      Clash("correct:", "menu:plants", data, 0);
      Clash("correct:", "menu:settings", data, 0);
      Clash("correct:", "noop", data, 0);
      Clash("correct:", "menu:admin", data, 0);
      Clash("correct:", "admin:plant:", data, 0);
      Clash("correct:", "admin:set:", data, 0);
      Clash("correct:", "plant_info:", data, 0);
      Clash("correct:", "show_photo:", data, 0);
      Clash("correct:", "settings:notification_time", data, 0);
      Clash("correct:", "set_time:", data, 0);
      Clash("correct:", "moisture:", data, 0);
      Clash("correct:", "watered:", data, 0);
    }
  }

  /** The handlers this model follows past routing: those of callbacks.py and admin.py. */
  predicate Modelled(h: Handler) {
    h.MoistureAnswer? || h.WateredDone? || h.CorrectAnswer? || h.AdminMenu? || h.AdminPlant? || h.AdminSet?
  }

  /** Running a modelled handler on a press; None for a handler outside the model. */
  function Handle(h: Handler, w: World, catalog: Catalog, data: string, messageId: int, clock: Clock)
    : (r: Option<(World, Reply)>)
    ensures r.Some? <==> Modelled(h)
  {
    match h
    case MoistureAnswer => Some(HandleMoisture(w, catalog, data, messageId, clock))
    case WateredDone => Some(HandleWatered(w, catalog, data, messageId, clock))
    case CorrectAnswer => Some(HandleCorrect(w, catalog, data, messageId))
    case AdminMenu => Some(MenuAdmin(w, catalog, clock))
    case AdminPlant => Some(AdminPlantView(w, catalog, data, clock))
    case AdminSet => Some(AdminSetStatus(w, catalog, data, clock))
    case _ => None
  }

  /**
   A press routed and handled. `messageId` is the id of the message the
   button sits on. None when no filter accepts the data or the handler is
   outside the model.
   */
  function Dispatch(w: World, catalog: Catalog, data: string, messageId: int, clock: Clock): (r: Option<(World, Reply)>)
    ensures r.Some? <==> Route(data).Some? && Modelled(Route(data).value)
  {
    match Route(data)
    case None => None
    case Some(h) => Handle(h, w, catalog, data, messageId, clock)
  }

  // ---------------------------------------------------------------------------
  // Every button reaches the handler meant for it
  // ---------------------------------------------------------------------------

  /** The answer buttons of a check prompt reach the moisture handler; the last one shows the photo. */
  lemma MoistureButtonsRoute(plantId: string)
    ensures var k := MoistureKeyboard(plantId);
      (forall i :: 0 <= i < 3 ==> Route(k[i]) == Some(MoistureAnswer)) && Route(k[3]) == Some(ShowPhoto)
  {
    var k := MoistureKeyboard(plantId);
    forall i | 0 <= i < 3 ensures Route(k[i]) == Some(MoistureAnswer) {
      RouteMoisture(k[i]);
    }
    Clash("show_photo:", "menu:main", k[3], 0);
    Clash("show_photo:", "menu:plants", k[3], 0);
    Clash("show_photo:", "menu:settings", k[3], 0);
    Clash("show_photo:", "noop", k[3], 0);
    Clash("show_photo:", "menu:admin", k[3], 0);
    Clash("show_photo:", "admin:plant:", k[3], 0);
    Clash("show_photo:", "admin:set:", k[3], 0);
    Clash("show_photo:", "plant_info:", k[3], 0);
  }

  /** The watering prompt's first button reaches the watering handler. */
  lemma WateringButtonRoutes(plantId: string)
    ensures Route(WateringKeyboard(plantId)[0]) == Some(WateredDone)
  {
    RouteWatered(WateringKeyboard(plantId)[0]);
  }

  /** The correction button of an answered prompt reaches the correction handler; the other one is inert. */
  lemma AnsweredButtonsRoute(plantId: string)
    ensures Route(AnsweredKeyboard(plantId)[0]) == Some(Noop)
    ensures Route(AnsweredKeyboard(plantId)[1]) == Some(CorrectAnswer)
  {
    RouteCorrect(AnsweredKeyboard(plantId)[1]);
  }

  /** The admin plant keyboard's status buttons reach the status setter and its last button the admin menu. */
  lemma AdminPlantButtonsRoute(plantId: string)
    ensures var k := AdminPlantKeyboard(plantId);
      (forall i :: 0 <= i < 4 ==> Route(k[i]) == Some(AdminSet)) && Route(k[4]) == Some(AdminMenu)
  {
    var k := AdminPlantKeyboard(plantId);
    forall i | 0 <= i < 4 ensures Route(k[i]) == Some(AdminSet) {
      RouteAdminSet(k[i]);
    }
  }

  /** Each plant button of the admin list reaches the admin plant view; the last returns to the main menu. */
  lemma AdminListButtonsRoute(plants: seq<Plant>)
    ensures var k := AdminPlantsListKeyboard(plants);
      (forall i :: 0 <= i < |plants| ==> Route(k[i]) == Some(AdminPlant)) && Route(k[|plants|]) == Some(MainMenu)
  {
    var k := AdminPlantsListKeyboard(plants);
    forall i | 0 <= i < |plants| ensures Route(k[i]) == Some(AdminPlant) {
      RouteAdminPlant(k[i]);
    }
  }

  /**
   Pressing the i-th status button of a known plant's admin keyboard stores
   the i-th status for that plant, checked today with the counter cleared,
   and leaves the notifications alone.
   */
  lemma AdminButtonSetsStatus(w: World, catalog: Catalog, plantId: string, i: int, clock: Clock)
    requires ':' !in plantId && 0 <= i < 4
    requires FindPlant(catalog, plantId).Some?
    ensures var r := Dispatch(w, catalog, AdminPlantKeyboard(plantId)[i], 0, clock);
      && r.Some? && r.value.1.Saved?
      && plantId in r.value.0.store.statuses
      && var st := r.value.0.store.statuses[plantId];
      && MoistureValue(st.lastMoisture) == AdminValues[i]
      && st.lastCheckDate == clock.today && st.overdueDays == 0
      && r.value.0.store.notifications == w.store.notifications
  {
    var data := AdminPlantKeyboard(plantId)[i];
    DispatchAdminSet(w, catalog, data, 0, clock);
    assert Split(data, ':') == ["admin", "set", plantId, AdminValues[i]] by {
      AdminPlantKeyboardSplits(plantId);
    }
  }

  /** Every `moisture:` datum is handled by the moisture handler. */
  lemma DispatchMoisture(w: World, catalog: Catalog, data: string, messageId: int, clock: Clock)
    requires "moisture:" <= data
    ensures Dispatch(w, catalog, data, messageId, clock) == Some(HandleMoisture(w, catalog, data, messageId, clock))
  {
    RouteMoisture(data);
  }

  /** Every `admin:set:` datum is handled by the status setter. */
  lemma DispatchAdminSet(w: World, catalog: Catalog, data: string, messageId: int, clock: Clock)
    requires "admin:set:" <= data
    ensures Dispatch(w, catalog, data, messageId, clock) == Some(AdminSetStatus(w, catalog, data, clock))
  {
    RouteAdminSet(data);
  }

  /** A `moisture:{id}:{answer}` datum for a known plant and a soil answer is saved as the plant's moisture. */
  lemma DispatchStoresAnswer(w: World, catalog: Catalog, data: string, messageId: int, clock: Clock)
    requires "moisture:" <= data
    requires |Split(data, ':')| >= 3 && FindPlant(catalog, Split(data, ':')[1]).Some? && Split(data, ':')[2] in CheckAnswers
    ensures var r := Dispatch(w, catalog, data, messageId, clock);
      && r.Some? && r.value.1.Saved?
      && Split(data, ':')[1] in r.value.0.store.statuses
      && MoistureValue(r.value.0.store.statuses[Split(data, ':')[1]].lastMoisture) == Split(data, ':')[2]
  {
    DispatchMoisture(w, catalog, data, messageId, clock);
    MoistureStored(w, catalog, data, messageId, clock);
  }

  /** Pressing a soil answer of a check prompt for a known plant stores that answer. */
  lemma MoistureButtonStoresAnswer(w: World, catalog: Catalog, plantId: string, i: int, messageId: int, clock: Clock)
    requires ':' !in plantId && 0 <= i < 3
    requires FindPlant(catalog, plantId).Some?
    ensures var r := Dispatch(w, catalog, MoistureKeyboard(plantId)[i], messageId, clock);
      && r.Some? && r.value.1.Saved?
      && plantId in r.value.0.store.statuses
      && MoistureValue(r.value.0.store.statuses[plantId].lastMoisture) == CheckAnswers[i]
  {
    var data := MoistureKeyboard(plantId)[i];
    assert "moisture:" <= data && Split(data, ':') == ["moisture", plantId, CheckAnswers[i]] by {
      MoistureKeyboardSplits(plantId);
    }
    DispatchStoresAnswer(w, catalog, data, messageId, clock);
  }
}

=== FILE: scheduler.dfy ===
/**
 The three daily jobs of the notification scheduler (bot/services/scheduler.py)
 as plain operations over the store and the spreadsheet mirror. The cron
 wiring is left out; each job takes the clock, the loaded catalog, whether
 the bot has been set, and the messenger as a delivery oracle: the k-th send
 attempt of a run yields the sent message's id, or None when sending raised.
 */
module Scheduler {
  import opened Wrappers
  import opened Text
  import opened Calendar
  import opened Models
  import opened Repository
  import opened PlantService
  import opened Sheets
  import Config

  // ---------------------------------------------------------------------------
  // _parse_time
  // ---------------------------------------------------------------------------

  /**
   `_parse_time`: the string split on ':'; with two or more parts the first
   two are the hour and the minute (any further parts are ignored), with one
   part it is the hour and the minute is 0. A part `int()` rejects raises
   (None here). No range check is made.
   */
  function ParseTime(s: string): (r: Option<(int, int)>)
    ensures var parts := Split(s, ':');
      var minute := if |parts| >= 2 then ParseInt(parts[1]) else Some(0);
      && (r.Some? <==> ParseInt(parts[0]).Some? && minute.Some?)
      && (r.Some? ==> r.value == (ParseInt(parts[0]).value, minute.value))
  {
    var parts := Split(s, ':');
    if |parts| >= 2 then
      match (ParseInt(parts[0]), ParseInt(parts[1]))
      case (Some(h), Some(m)) => Some((h, m))
      case _ => None
    else
      match ParseInt(parts[0])
      case Some(h) => Some((h, 0))
      case None => None
  }

  /** "H:M" followed by any further ':'-separated text reads as (H, M). */
  lemma ParseTimeIgnoresExtraParts(h: nat, m: nat, rest: string)
    ensures ParseTime(IntToString(h) + ":" + IntToString(m) + ":" + rest) == Some((h, m))
  {
    var hs, ms := IntToString(h), IntToString(m);
    assert ':' !in hs && ':' !in ms by {
      assert !IsDigit(':');
    }
    assert hs + ":" + ms + ":" + rest == hs + [':'] + (ms + [':'] + rest);
    SplitCons(hs, ms + [':'] + rest, ':');
    SplitCons(ms, rest, ':');
    ParseIntOfString(h);
    ParseIntOfString(m);
  }

  /** "H:M" reads as (H, M). */
  lemma ParseTimeOfHourMinute(h: nat, m: nat)
    ensures ParseTime(IntToString(h) + ":" + IntToString(m)) == Some((h, m))
  {
    var hs, ms := IntToString(h), IntToString(m);
    assert ':' !in hs && ':' !in ms by {
      assert !IsDigit(':');
    }
    Split2(hs, ms, ':');
    ParseIntOfString(h);
    ParseIntOfString(m);
  }

  /** A bare hour with no ':' reads as that hour and minute 0. */
  lemma ParseTimeOfHour(h: nat)
    ensures ParseTime(IntToString(h)) == Some((h, 0))
  {
    var hs := IntToString(h);
    assert ':' !in hs by {
      assert !IsDigit(':');
    }
    SplitNone(hs, ':');
    ParseIntOfString(h);
  }

  /** `int()` of a string of ASCII digits is its decimal value (leading zeros allowed). */
  lemma ParseDigits(d: string)
    requires |d| >= 1 && AllDigits(d)
    ensures ParseInt(d) == Some(DigitsValue(d) as int)
  {
    DigitsNotSpace(d);
    assert Strip(d) == d;
    assert !(d[0] == '-' || d[0] == '+');
  }

  /** Two digit fields around a ':' read as their values, zero-padded or not. */
  lemma ParseTimeOfDigits(hs: string, ms: string)
    requires |hs| >= 1 && AllDigits(hs) && |ms| >= 1 && AllDigits(ms)
    ensures ParseTime(hs + ":" + ms) == Some((DigitsValue(hs) as int, DigitsValue(ms) as int))
  {
    assert ':' !in hs && ':' !in ms by {
      assert !IsDigit(':');
    }
    Split2(hs, ms, ':');
    ParseDigits(hs);
    ParseDigits(ms);
  }

  /** The configured job times read as 10:00 for the notifications and 18:00 for the reminders. */
  lemma DefaultTimes()
    ensures ParseTime(Config.NotificationTime) == Some((10, 0))
    ensures ParseTime(Config.ReminderTime) == Some((18, 0))
  {
    assert DigitsValue("00") == 0 by {
      assert "00"[..1] == "0";
      assert "0"[..0] == "";
    }
    assert DigitsValue("10") == 10 by {
      assert "10"[..1] == "1";
      assert "1"[..0] == "";
    }
    assert DigitsValue("18") == 18 by {
      assert "18"[..1] == "1";
      assert "1"[..0] == "";
    }
    assert "10:00" == "10" + ":" + "00";
    assert "18:00" == "18" + ":" + "00";
    ParseTimeOfDigits("10", "00");
    ParseTimeOfDigits("18", "00");
  }

  // ---------------------------------------------------------------------------
  // _send_daily_notifications
  // ---------------------------------------------------------------------------

  /** The message a daily run sends: its plant, its kind, and for a watering prompt the urgency. */
  datatype Prompt =
    | AskMoisture(plantId: string, plantName: string)
    | AskWatering(plantId: string, plantName: string, urgent: bool, daysShown: Option<int>)

  /**
   The watering prompt for a due plant: urgent once the plant has been
   ignored two days or more, and only an urgent prompt states the day count.
   */
  function WateringPrompt(plant: Plant, st: PlantStatus): (p: Prompt)
    ensures p.AskWatering? && p.plantId == plant.id && p.plantName == plant.name
    ensures p.urgent <==> st.overdueDays >= 2
    ensures p.daysShown.Some? <==> p.urgent
    ensures p.daysShown.Some? ==> p.daysShown.value == st.overdueDays
  {
    var urgent := st.overdueDays >= 2;
    AskWatering(plant.id, plant.name, urgent, if urgent then Some(st.overdueDays) else None)
  }

  /** The prompt for a plant on a list of the given kind. */
  function PromptFor(kind: NotificationType, plant: Plant, st: PlantStatus): (p: Prompt)
    ensures p.plantId == plant.id
    ensures kind == Check <==> p.AskMoisture?
  {
    if kind == Check then AskMoisture(plant.id, plant.name) else WateringPrompt(plant, st)
  }

  /** A daily run in progress: the store, the mirror, the send attempts made, and the prompts delivered. */
  datatype Run = Run(store: Store, mirror: Mirror, attempts: nat, sent: seq<Prompt>)

  /**
   A row as the daily run records it: pending, of the list's kind, for the
   plant, carrying the delivered message's id and created today.
   */
  predicate Recorded(n: Notification, kind: NotificationType, today: Date) {
    n.status == Pending && n.kind == kind && n.messageId.Some? && n.createdOn == today
      && n.answeredAt == None && n.answer == None
  }

  /** At most one notification per plant, kind and day. */
  predicate OnePerDay(s: Store) {
    forall i, j :: 1 <= i < j <= |s.notifications| ==>
      !SameDayFor(Row(s, j), Row(s, i).plantId, Some(Row(s, i).kind), Row(s, i).createdOn)
  }

  /**
   One iteration of either send loop: a plant that already has a notification
   of this kind today is skipped without an attempt; otherwise the prompt is
   sent and, when delivered, recorded as a pending row and marked sent in the
   mirror. A failed send is logged and the loop goes on.
   */
  function SendOne(run: Run, e: Entry, kind: NotificationType, clock: Clock, deliver: nat -> Option<int>): (r: Run)
    ensures r.store.statuses == run.store.statuses && r.store.users == run.store.users
    ensures forall id :: HasRow(run.store, id) ==> HasRow(r.store, id) && Row(r.store, id) == Row(run.store, id)
    ensures TodayNotificationForPlant(run.store, e.0.id, Some(kind), clock.today).Some? ==> r == run
    ensures TodayNotificationForPlant(run.store, e.0.id, Some(kind), clock.today).None? ==>
      && r.attempts == run.attempts + 1
      && (deliver(run.attempts).None? ==> r == run.(attempts := run.attempts + 1))
      && (deliver(run.attempts).Some? ==>
            && |r.store.notifications| == |run.store.notifications| + 1
            && Row(r.store, |r.store.notifications|) == NewNotification(e.0.id, kind, Pending, deliver(run.attempts), clock.today)
            && r.sent == run.sent + [PromptFor(kind, e.0, e.1)]
            && r.mirror == MarkSent(run.mirror, e.0.name, None, clock.today))
  {
    var (plant, st) := e;
    if TodayNotificationForPlant(run.store, plant.id, Some(kind), clock.today).Some? then run
    else
      match deliver(run.attempts)
      case None => run.(attempts := run.attempts + 1)
      case Some(mid) =>
        var row := NewNotification(plant.id, kind, Pending, Some(mid), clock.today);
        var (s', id) := CreateNotification(run.store, row);
        Run(s', MarkSent(run.mirror, plant.name, None, clock.today), run.attempts + 1,
            run.sent + [PromptFor(kind, plant, st)])
  }

  /** One iteration keeps the log at one notification per plant, kind and day: it adds a row only when the lookup found none. */
  lemma SendOneOnePerDay(run: Run, e: Entry, kind: NotificationType, clock: Clock, deliver: nat -> Option<int>)
    requires OnePerDay(run.store)
    ensures OnePerDay(SendOne(run, e, kind, clock, deliver).store)
  {
    var r := SendOne(run, e, kind, clock, deliver);
    if |r.store.notifications| != |run.store.notifications| {
      var n := |r.store.notifications|;
      assert forall j :: HasRow(run.store, j) ==> !SameDayFor(Row(r.store, j), e.0.id, Some(kind), clock.today);
      assert SameDayFor(Row(r.store, n), e.0.id, Some(kind), clock.today);
      forall i, j | 1 <= i < j <= n
        ensures !SameDayFor(Row(r.store, j), Row(r.store, i).plantId, Some(Row(r.store, i).kind), Row(r.store, i).createdOn)
      {
        if j < n {
          assert Row(r.store, j) == Row(run.store, j) && Row(r.store, i) == Row(run.store, i);
        }
      }
    }
  }

  /** Every prompt of the list is of the kind's shape. */
  predicate OfKind(ps: seq<Prompt>, kind: NotificationType) {
    forall i :: 0 <= i < |ps| ==> (ps[i].AskMoisture? <==> kind == Check)
  }

  /** Extending an extension: the middle part and the last part together form the whole addition. */
  lemma PrefixChain(a: seq<Prompt>, b: seq<Prompt>, c: seq<Prompt>)
    requires |a| <= |b| <= |c| && b[..|a|] == a && c[..|b|] == b
    ensures c[..|a|] == a && c[|a|..] == b[|a|..] + c[|b|..]
  {
    assert c[..|a|] == c[..|b|][..|a|];
  }

  /** The rows a run added after the first `from`, all recorded by it. */
  predicate AddedRecorded(s: Store, from: nat, kind: NotificationType, today: Date) {
    forall id :: from < id <= |s.notifications| ==> Recorded(Row(s, id), kind, today)
  }

  /**
   A whole send loop over one list, in order: old rows are kept and nothing
   but the notification log changes.
   */
  function SendAll(run: Run, entries: seq<Entry>, kind: NotificationType, clock: Clock,
                   deliver: nat -> Option<int>): (r: Run)
    ensures r.store.statuses == run.store.statuses && r.store.users == run.store.users
    ensures |r.store.notifications| >= |run.store.notifications|
    ensures forall id :: HasRow(run.store, id) ==> Row(r.store, id) == Row(run.store, id)
    decreases |entries|
  {
    if entries == [] then run
    else SendAll(SendOne(run, entries[0], kind, clock, deliver), entries[1..], kind, clock, deliver)
  }

  /** Every row a send loop adds is a recorded one of the list's kind, created today. */
  lemma {:induction false} SendAllRecords(run: Run, entries: seq<Entry>, kind: NotificationType, clock: Clock,
                                          deliver: nat -> Option<int>)
    ensures AddedRecorded(SendAll(run, entries, kind, clock, deliver).store, |run.store.notifications|, kind, clock.today)
    decreases |entries|
  {
    if entries != [] {
      var next := SendOne(run, entries[0], kind, clock, deliver);
      SendAllRecords(next, entries[1..], kind, clock, deliver);
      assert AddedRecorded(next.store, |run.store.notifications|, kind, clock.today);
    }
  }

  /**
   A send loop adds exactly one row per delivered prompt, keeps the prompts
   delivered before it, and delivers only prompts of the list's kind.
   */
  lemma {:induction false} SendAllPrompts(run: Run, entries: seq<Entry>, kind: NotificationType, clock: Clock,
                                          deliver: nat -> Option<int>)
    ensures var r := SendAll(run, entries, kind, clock, deliver);
      && |r.sent| - |run.sent| == |r.store.notifications| - |run.store.notifications|
      && |run.sent| <= |r.sent| && r.sent[..|run.sent|] == run.sent && OfKind(r.sent[|run.sent|..], kind)
    decreases |entries|
  {
    if entries != [] {
      var next := SendOne(run, entries[0], kind, clock, deliver);
      SendAllPrompts(next, entries[1..], kind, clock, deliver);
      var r := SendAll(next, entries[1..], kind, clock, deliver);
      SendOnePrompts(run, entries[0], kind, clock, deliver);
      ChainOfKind(run.sent, next.sent, r.sent, kind);
    }
  }

  /** One iteration adds a row exactly when it delivers a prompt, and that prompt is of the list's kind. */
  lemma SendOnePrompts(run: Run, e: Entry, kind: NotificationType, clock: Clock, deliver: nat -> Option<int>)
    ensures var r := SendOne(run, e, kind, clock, deliver);
      && |r.sent| - |run.sent| == |r.store.notifications| - |run.store.notifications|
      && |run.sent| <= |r.sent| && r.sent[..|run.sent|] == run.sent && OfKind(r.sent[|run.sent|..], kind)
  {
    var r := SendOne(run, e, kind, clock, deliver);
    if r.sent != run.sent {
      assert r.sent[|run.sent|..] == [PromptFor(kind, e.0, e.1)];
    }
  }

  /** Two extensions by prompts of one kind make one extension by prompts of that kind. */
  lemma ChainOfKind(a: seq<Prompt>, b: seq<Prompt>, c: seq<Prompt>, kind: NotificationType)
    requires |a| <= |b| <= |c| && b[..|a|] == a && c[..|b|] == b
    requires OfKind(b[|a|..], kind) && OfKind(c[|b|..], kind)
    ensures c[..|a|] == a && OfKind(c[|a|..], kind)
  {
    PrefixChain(a, b, c);
    assert forall i :: |a| <= i < |b| ==> c[i] == b[i] == b[|a|..][i - |a|];
    assert forall i :: |b| <= i < |c| ==> c[i] == c[|b|..][i - |b|];
  }

  /** The same-day guard keeps the log at one notification per plant, kind and day. */
  lemma {:induction false} SendAllOnePerDay(run: Run, entries: seq<Entry>, kind: NotificationType, clock: Clock,
                                            deliver: nat -> Option<int>)
    requires OnePerDay(run.store)
    ensures OnePerDay(SendAll(run, entries, kind, clock, deliver).store)
    decreases |entries|
  {
    if entries != [] {
      SendOneOnePerDay(run, entries[0], kind, clock, deliver);
      SendAllOnePerDay(SendOne(run, entries[0], kind, clock, deliver), entries[1..], kind, clock, deliver);
    }
  }

  /** A send loop over a list is the loop over a prefix followed by the loop over the rest. */
  lemma {:induction false} SendAllSplit(run: Run, entries: seq<Entry>, kind: NotificationType, clock: Clock,
                                        deliver: nat -> Option<int>, i: nat)
    requires i <= |entries|
    ensures SendAll(run, entries, kind, clock, deliver)
         == SendAll(SendAll(run, entries[..i], kind, clock, deliver), entries[i..], kind, clock, deliver)
    decreases i
  {
    if i == 0 {
      assert entries[..0] == [] && entries[0..] == entries;
    } else {
      var next := SendOne(run, entries[0], kind, clock, deliver);
      SendAllSplit(next, entries[1..], kind, clock, deliver, i - 1);
      assert entries[..i][0] == entries[0] && entries[..i][1..] == entries[1..][..i - 1];
      assert entries[1..][i - 1..] == entries[i..];
    }
  }

  /**
   A failed send never stops the loop: whatever the other attempts do, the
   i-th listed plant has a notification of the list's kind for today right
   after its own iteration exactly when it already had one or its own
   attempt (the attempt count the loop has reached) is delivered.
   */
  lemma SendAllIsolated(run: Run, entries: seq<Entry>, kind: NotificationType, clock: Clock,
                        deliver: nat -> Option<int>, i: nat)
    requires i < |entries|
    ensures var before := SendAll(run, entries[..i], kind, clock, deliver);
      TodayNotificationForPlant(SendAll(run, entries[..i + 1], kind, clock, deliver).store, entries[i].0.id,
                                Some(kind), clock.today).Some?
      <==> TodayNotificationForPlant(before.store, entries[i].0.id, Some(kind), clock.today).Some?
           || deliver(before.attempts).Some?
  {
    SendAllPrefixStep(run, entries, kind, clock, deliver, i);
    SendOneFound(SendAll(run, entries[..i], kind, clock, deliver), entries[i], kind, clock, deliver);
  }

  /** A plant that has a notification of the list's kind for today after its own iteration keeps it to the end of the loop. */
  lemma SendAllKeepsFound(run: Run, entries: seq<Entry>, kind: NotificationType, clock: Clock,
                          deliver: nat -> Option<int>, i: nat)
    requires i < |entries|
    requires TodayNotificationForPlant(SendAll(run, entries[..i + 1], kind, clock, deliver).store, entries[i].0.id,
                                       Some(kind), clock.today).Some?
    ensures TodayNotificationForPlant(SendAll(run, entries, kind, clock, deliver).store, entries[i].0.id,
                                      Some(kind), clock.today).Some?
  {
    var after := SendAll(run, entries[..i + 1], kind, clock, deliver);
    SendAllSplit(run, entries, kind, clock, deliver, i + 1);
    FoundStaysFound(after.store, SendAll(after, entries[i + 1..], kind, clock, deliver).store, entries[i].0.id,
                    Some(kind), clock.today);
  }

  /** The loop over a prefix one entry longer is the loop over the prefix and then that entry. */
  lemma SendAllPrefixStep(run: Run, entries: seq<Entry>, kind: NotificationType, clock: Clock,
                          deliver: nat -> Option<int>, i: nat)
    requires i < |entries|
    ensures SendAll(run, entries[..i + 1], kind, clock, deliver)
         == SendOne(SendAll(run, entries[..i], kind, clock, deliver), entries[i], kind, clock, deliver)
  {
    var before := SendAll(run, entries[..i], kind, clock, deliver);
    SendAllSplit(run, entries[..i + 1], kind, clock, deliver, i);
    assert entries[..i + 1][..i] == entries[..i] && entries[..i + 1][i..] == [entries[i]];
    assert [entries[i]][1..] == [];
  }

  /**
   One iteration leaves the plant with a notification of the list's kind for
   today exactly when it already had one or this iteration's attempt is
   delivered.
   */
  lemma SendOneFound(run: Run, e: Entry, kind: NotificationType, clock: Clock, deliver: nat -> Option<int>)
    ensures TodayNotificationForPlant(SendOne(run, e, kind, clock, deliver).store, e.0.id, Some(kind), clock.today).Some?
        <==> TodayNotificationForPlant(run.store, e.0.id, Some(kind), clock.today).Some? || deliver(run.attempts).Some?
  {
    if deliver(run.attempts).Some? {
      SendOneCovers(run, e, kind, clock, deliver);
    }
  }

  /** When every send succeeds each listed plant ends with a notification of the list's kind for today. */
  lemma {:induction false} SendAllCovers(run: Run, entries: seq<Entry>, kind: NotificationType, clock: Clock,
                                         deliver: nat -> Option<int>)
    requires forall k :: deliver(k).Some?
    ensures forall i :: 0 <= i < |entries| ==>
      TodayNotificationForPlant(SendAll(run, entries, kind, clock, deliver).store, entries[i].0.id, Some(kind), clock.today).Some?
    decreases |entries|
  {
    if entries != [] {
      var next := SendOne(run, entries[0], kind, clock, deliver);
      SendAllCovers(next, entries[1..], kind, clock, deliver);
      var r := SendAll(next, entries[1..], kind, clock, deliver);
      SendOneCovers(run, entries[0], kind, clock, deliver);
      FoundStaysFound(next.store, r.store, entries[0].0.id, Some(kind), clock.today);
      CoveredCons(r.store, entries, kind, clock.today);
    }
  }

  /** A log covers a list when it covers its first plant and the rest of it. */
  lemma CoveredCons(s: Store, entries: seq<Entry>, kind: NotificationType, today: Date)
    requires entries != []
    requires TodayNotificationForPlant(s, entries[0].0.id, Some(kind), today).Some?
    requires forall i :: 0 <= i < |entries[1..]| ==>
      TodayNotificationForPlant(s, entries[1..][i].0.id, Some(kind), today).Some?
    ensures forall i :: 0 <= i < |entries| ==> TodayNotificationForPlant(s, entries[i].0.id, Some(kind), today).Some?
  {
    assert forall i :: 1 <= i < |entries| ==> entries[i] == entries[1..][i - 1];
  }

  /** A same-day row found in a log is still found once the log is extended with its old rows kept. */
  lemma FoundStaysFound(a: Store, b: Store, plantId: string, kind: Option<NotificationType>, today: Date)
    requires TodayNotificationForPlant(a, plantId, kind, today).Some?
    requires |a.notifications| <= |b.notifications|
    requires forall id :: HasRow(a, id) ==> Row(b, id) == Row(a, id)
    ensures TodayNotificationForPlant(b, plantId, kind, today).Some?
  {
    var id := TodayNotificationForPlant(a, plantId, kind, today).value;
    assert HasRow(b, id) && SameDayFor(Row(b, id), plantId, kind, today);
  }

  /** When the send succeeds, one iteration leaves the plant with a row of the list's kind for today. */
  lemma SendOneCovers(run: Run, e: Entry, kind: NotificationType, clock: Clock, deliver: nat -> Option<int>)
    requires deliver(run.attempts).Some?
    ensures TodayNotificationForPlant(SendOne(run, e, kind, clock, deliver).store, e.0.id, Some(kind), clock.today).Some?
  {
    var r := SendOne(run, e, kind, clock, deliver);
    if TodayNotificationForPlant(run.store, e.0.id, Some(kind), clock.today).Some? {
      FoundStaysFound(run.store, r.store, e.0.id, Some(kind), clock.today);
    } else {
      var id := |r.store.notifications|;
      assert HasRow(r.store, id) && SameDayFor(Row(r.store, id), e.0.id, Some(kind), clock.today);
    }
  }

  /** What a daily run returns: the state it leaves and the two counts. */
  datatype Daily = Daily(store: Store, mirror: Mirror, sentCheck: nat, sentWater: nat, sent: seq<Prompt>)

  /**
   `_send_daily_notifications`: without a bot it reports (0, 0) and changes
   nothing. Otherwise it splits today's plants (materialising missing status
   rows), sends the check prompts, then the watering prompts, each guarded by
   the same-kind same-day lookup. The counts are the rows recorded by each
   loop, and the prompts are delivered in that order.
   */
  function DailyNotifications(s: Store, m: Mirror, catalog: Catalog, clock: Clock, botSet: bool,
                              deliver: nat -> Option<int>): (r: Daily)
    ensures !botSet ==> r == Daily(s, m, 0, 0, [])
    ensures botSet ==>
      && r.store.statuses == PlantsForToday(s, catalog, clock).store.statuses && r.store.users == s.users
      && |r.store.notifications| == |s.notifications| + r.sentCheck + r.sentWater
      && (forall id :: HasRow(s, id) ==> Row(r.store, id) == Row(s, id))
  {
    if !botSet then Daily(s, m, 0, 0, [])
    else
      var lists := PlantsForToday(s, catalog, clock);
      var afterCheck := SendAll(Run(lists.store, m, 0, []), lists.toCheck, Check, clock, deliver);
      var afterWater := SendAll(afterCheck, lists.toWater, Water, clock, deliver);
      Daily(afterWater.store, afterWater.mirror,
            |afterCheck.store.notifications| - |s.notifications|,
            |afterWater.store.notifications| - |afterCheck.store.notifications|,
            afterWater.sent)
  }

  /**
   The rows a daily run adds: first the check rows, one per moisture prompt,
   then the watering rows, one per watering prompt, all pending and created
   today.
   */
  lemma DailyRecords(s: Store, m: Mirror, catalog: Catalog, clock: Clock, deliver: nat -> Option<int>)
    ensures var r := DailyNotifications(s, m, catalog, clock, true, deliver);
      var n0 := |s.notifications|;
      && (forall id :: n0 < id <= n0 + r.sentCheck ==> Recorded(Row(r.store, id), Check, clock.today))
      && (forall id :: n0 + r.sentCheck < id <= |r.store.notifications| ==> Recorded(Row(r.store, id), Water, clock.today))
  {
    var lists := PlantsForToday(s, catalog, clock);
    var afterCheck := SendAll(Run(lists.store, m, 0, []), lists.toCheck, Check, clock, deliver);
    SendAllRecords(Run(lists.store, m, 0, []), lists.toCheck, Check, clock, deliver);
    SendAllRecords(afterCheck, lists.toWater, Water, clock, deliver);
  }

  /**
   The prompts a daily run delivers: one per recorded row, the moisture
   prompts first and the watering prompts after them.
   */
  lemma DailyPrompts(s: Store, m: Mirror, catalog: Catalog, clock: Clock, deliver: nat -> Option<int>)
    ensures var r := DailyNotifications(s, m, catalog, clock, true, deliver);
      && |r.sent| == r.sentCheck + r.sentWater
      && (forall i :: 0 <= i < r.sentCheck ==> r.sent[i].AskMoisture?)
      && (forall i :: r.sentCheck <= i < |r.sent| ==> r.sent[i].AskWatering?)
  {
    var lists := PlantsForToday(s, catalog, clock);
    var start := Run(lists.store, m, 0, []);
    var afterCheck := SendAll(start, lists.toCheck, Check, clock, deliver);
    var afterWater := SendAll(afterCheck, lists.toWater, Water, clock, deliver);
    SendAllPrompts(start, lists.toCheck, Check, clock, deliver);
    SendAllPrompts(afterCheck, lists.toWater, Water, clock, deliver);
    assert afterCheck.sent == afterCheck.sent[|start.sent|..];
    TwoKinds(afterCheck.sent, afterWater.sent);
  }

  /** Moisture prompts followed by watering prompts: each index is of the part it falls in. */
  lemma TwoKinds(checks: seq<Prompt>, all: seq<Prompt>)
    requires |checks| <= |all| && all[..|checks|] == checks
    requires OfKind(checks, Check) && OfKind(all[|checks|..], Water)
    ensures forall i :: 0 <= i < |checks| ==> all[i].AskMoisture?
    ensures forall i :: |checks| <= i < |all| ==> all[i].AskWatering?
  {
    assert forall i :: 0 <= i < |checks| ==> all[i] == checks[i];
    assert forall i :: |checks| <= i < |all| ==> all[i] == all[|checks|..][i - |checks|];
  }

  /** The one-per-day property is a property of the log alone. */
  lemma OnePerDayOfLog(a: Store, b: Store)
    requires a.notifications == b.notifications && OnePerDay(a)
    ensures OnePerDay(b)
  {
    forall i, j | 1 <= i < j <= |b.notifications|
      ensures !SameDayFor(Row(b, j), Row(b, i).plantId, Some(Row(b, i).kind), Row(b, i).createdOn)
    {
      assert Row(b, i) == Row(a, i) && Row(b, j) == Row(a, j);
    }
  }

  /** A daily run keeps the log at one notification per plant, kind and day. */
  lemma DailyOnePerDay(s: Store, m: Mirror, catalog: Catalog, clock: Clock, botSet: bool,
                       deliver: nat -> Option<int>)
    requires OnePerDay(s)
    ensures OnePerDay(DailyNotifications(s, m, catalog, clock, botSet, deliver).store)
  {
    if botSet {
      var lists := PlantsForToday(s, catalog, clock);
      var start := Run(lists.store, m, 0, []);
      OnePerDayOfLog(s, start.store);
      SendAllOnePerDay(start, lists.toCheck, Check, clock, deliver);
      SendAllOnePerDay(SendAll(start, lists.toCheck, Check, clock, deliver), lists.toWater, Water, clock, deliver);
    }
  }

  // ---------------------------------------------------------------------------
  // _send_reminders
  // ---------------------------------------------------------------------------

  /** A row after its reminder went out: reminded, with its answer and answer time cleared. */
  function RemindedRow(n: Notification): Notification {
    n.(status := Reminded, answer := None, answeredAt := None)
  }

  /**
   The rows a reminder run works through: today's open rows that are still
   strictly pending, that is, not reminded yet, in id order.
   */
  function ReminderCandidates(s: Store, today: Date): (ids: seq<int>)
    ensures forall i, j :: 0 <= i < j < |ids| ==> ids[i] < ids[j]
    ensures forall id :: id in ids <==> id in PendingNotifications(s, today) && Row(s, id).status == Pending
  {
    IdsWhere(s.notifications, (n: Notification) => n.status == Pending && n.createdOn == today)
  }

  /** Appending an id above every id of an ascending list keeps it ascending. */
  lemma AscendingSnoc(xs: seq<int>, y: int)
    requires forall a, b :: 0 <= a < b < |xs| ==> xs[a] < xs[b]
    requires forall x :: x in xs ==> x < y
    ensures forall a, b :: 0 <= a < b < |xs + [y]| ==> (xs + [y])[a] < (xs + [y])[b]
  {
    forall a, b | 0 <= a < b < |xs + [y]| ensures (xs + [y])[a] < (xs + [y])[b] {
      if b == |xs| {
        assert (xs + [y])[a] == xs[a] && xs[a] in xs;
      } else {
        assert (xs + [y])[a] == xs[a] && (xs + [y])[b] == xs[b];
      }
    }
  }

  /** Ids taken from before position `i` of an ascending list lie below the id at `i`. */
  lemma EarlierBelow(ids: seq<int>, i: int, xs: seq<int>)
    requires forall a, b :: 0 <= a < b < |ids| ==> ids[a] < ids[b]
    requires 0 <= i < |ids| && forall x :: x in xs ==> x in ids[..i]
    ensures forall x :: x in xs ==> x < ids[i]
  {
    forall x | x in xs ensures x < ids[i] {
      var a :| 0 <= a < i && ids[..i][a] == x;
      assert ids[a] == x;
    }
  }

  /** One delivered reminder: the row turns and the list of turned rows grows by its id. */
  lemma RemindStep(s: Store, r: Store, reminded: seq<int>, id: int, now: Stamp)
    requires |r.notifications| == |s.notifications| && HasRow(s, id) && id !in reminded
    requires Row(s, id).status == Pending
    requires forall a, b :: 0 <= a < b < |reminded| ==> reminded[a] < reminded[b]
    requires forall x :: x in reminded ==> x < id
    requires forall j :: HasRow(s, j) ==> Row(r, j) == if j in reminded then RemindedRow(Row(s, j)) else Row(s, j)
    ensures var r' := UpdateNotification(r, id, Reminded, None, now);
      && (forall a, b :: 0 <= a < b < |reminded + [id]| ==> (reminded + [id])[a] < (reminded + [id])[b])
      && (forall j :: HasRow(s, j) ==> Row(r', j) == if j in reminded + [id] then RemindedRow(Row(s, j)) else Row(s, j))
  {
    AscendingSnoc(reminded, id);
    var r' := UpdateNotification(r, id, Reminded, None, now);
    forall j | HasRow(s, j)
      ensures Row(r', j) == if j in reminded + [id] then RemindedRow(Row(s, j)) else Row(s, j)
    {
      assert j in reminded + [id] <==> j in reminded || j == id;
    }
  }

  /**
   The number of send attempts the reminder loop makes over a list: one for
   every row whose plant the catalog knows. Over the rows before a candidate
   it is the index of that candidate's own attempt.
   */
  function Attempts(s: Store, catalog: Catalog, ids: seq<int>): (n: nat)
    ensures n <= |ids|
    decreases |ids|
  {
    if ids == [] then 0
    else
      var last := ids[|ids| - 1];
      Attempts(s, catalog, ids[..|ids| - 1])
        + (if HasRow(s, last) && FindPlant(catalog, Row(s, last).plantId).Some? then 1 else 0)
  }

  /**
   `_send_reminders`: without a bot nothing happens. Otherwise each candidate
   row whose plant the catalog knows gets a reminder; a delivered reminder
   turns the row Reminded, while an unknown plant or a failed send leaves it
   pending and the loop goes on. The returned count is the number of rows
   turned, and `delivered(k)` says whether the k-th send attempt succeeds.
   The candidates left afterwards are exactly those not turned, so a second
   run the same day never reminds a row twice.
   */
  method SendReminders(s: Store, catalog: Catalog, clock: Clock, botSet: bool, delivered: nat -> bool)
    returns (r: Store, count: nat, reminded: seq<int>)
    ensures !botSet ==> r == s && count == 0
    ensures r.statuses == s.statuses && r.users == s.users && |r.notifications| == |s.notifications|
    ensures count == |reminded|
    ensures forall i, j :: 0 <= i < j < |reminded| ==> reminded[i] < reminded[j]
    ensures forall id :: id in reminded ==>
      id in ReminderCandidates(s, clock.today) && FindPlant(catalog, Row(s, id).plantId).Some?
    ensures forall j :: HasRow(s, j) ==> Row(r, j) == if j in reminded then RemindedRow(Row(s, j)) else Row(s, j)
    ensures botSet && (forall k :: delivered(k)) ==>
      forall id :: id in ReminderCandidates(s, clock.today) && FindPlant(catalog, Row(s, id).plantId).Some? ==>
        id in reminded
    ensures forall id :: id in ReminderCandidates(r, clock.today) <==>
      id in ReminderCandidates(s, clock.today) && id !in reminded
    ensures var cs := ReminderCandidates(s, clock.today);
      forall i :: 0 <= i < |cs| ==>
        (cs[i] in reminded <==>
           botSet && FindPlant(catalog, Row(s, cs[i]).plantId).Some? && delivered(Attempts(s, catalog, cs[..i])))
  {
    r, count, reminded := s, 0, [];
    if !botSet {
      return;
    }
    var ids := ReminderCandidates(s, clock.today);
    var allSent;
    r, reminded, allSent := RemindAll(s, catalog, clock.now, ids, delivered);
    count := |reminded|;
  }

  /**
   The reminder loop over a list of pending rows, in order. `allSent` says
   whether every attempt was delivered.
   */
  method RemindAll(s: Store, catalog: Catalog, now: Stamp, ids: seq<int>, delivered: nat -> bool)
    returns (r: Store, reminded: seq<int>, allSent: bool)
    requires forall a, b :: 0 <= a < b < |ids| ==> ids[a] < ids[b]
    requires forall id :: id in ids ==> HasRow(s, id) && Row(s, id).status == Pending
    ensures r.statuses == s.statuses && r.users == s.users && |r.notifications| == |s.notifications|
    ensures forall a, b :: 0 <= a < b < |reminded| ==> reminded[a] < reminded[b]
    ensures forall id :: id in reminded ==> id in ids && FindPlant(catalog, Row(s, id).plantId).Some?
    ensures forall j :: HasRow(s, j) ==> Row(r, j) == if j in reminded then RemindedRow(Row(s, j)) else Row(s, j)
    ensures (forall k :: delivered(k)) ==> allSent
    ensures allSent ==> forall id :: id in ids && FindPlant(catalog, Row(s, id).plantId).Some? ==> id in reminded
    ensures forall i :: 0 <= i < |ids| ==>
      (ids[i] in reminded <==>
         FindPlant(catalog, Row(s, ids[i]).plantId).Some? && delivered(Attempts(s, catalog, ids[..i])))
  {
    r, reminded, allSent := s, [], true;
    var attempts := 0;
    var i := 0;
    while i < |ids|
      invariant 0 <= i <= |ids|
      invariant attempts == Attempts(s, catalog, ids[..i])
      invariant Progress(s, catalog, ids, i, reminded, allSent, delivered)
      invariant r.statuses == s.statuses && r.users == s.users && |r.notifications| == |s.notifications|
      invariant forall j :: HasRow(s, j) ==> Row(r, j) == if j in reminded then RemindedRow(Row(s, j)) else Row(s, j)
    {
      var id := ids[i];
      var known := FindPlant(catalog, Row(s, id).plantId).Some?;
      var sent := known && delivered(attempts);
      AttemptsSnoc(s, catalog, ids, i);
      if sent {
        ProgressTurn(s, catalog, ids, i, reminded, allSent, delivered);
        EarlierBelow(ids, i, reminded);
        RemindStep(s, r, reminded, id, now);
        r := UpdateNotification(r, id, Reminded, None, now);
        reminded := reminded + [id];
      } else {
        ProgressKeep(s, catalog, ids, i, reminded, allSent, delivered);
      }
      allSent := allSent && (known ==> delivered(attempts));
      attempts := attempts + if known then 1 else 0;
      i := i + 1;
    }
    ProgressDone(s, catalog, ids, reminded, allSent, delivered);
  }

  /** What the reminder loop keeps after the first `n` rows of its list. */
  ghost predicate Progress(s: Store, catalog: Catalog, ids: seq<int>, n: nat, reminded: seq<int>,
                           allSent: bool, delivered: nat -> bool)
    requires n <= |ids| && forall id :: id in ids ==> HasRow(s, id)
  {
    && (forall a, b :: 0 <= a < b < |reminded| ==> reminded[a] < reminded[b])
    && (forall id :: id in reminded ==> id in ids[..n] && FindPlant(catalog, Row(s, id).plantId).Some?)
    && ((forall k :: delivered(k)) ==> allSent)
    && (allSent ==> forall id :: id in ids[..n] && FindPlant(catalog, Row(s, id).plantId).Some? ==> id in reminded)
    && OwnAttempts(s, catalog, ids, n, reminded, delivered)
  }

  /** A prefix one longer is the prefix and the next element. */
  lemma SliceSnoc(xs: seq<int>, i: nat)
    requires i < |xs|
    ensures xs[..i + 1] == xs[..i] + [xs[i]]
  {
  }

  /** The loop's standing over the whole list is what the loop promises. */
  lemma ProgressDone(s: Store, catalog: Catalog, ids: seq<int>, reminded: seq<int>,
                     allSent: bool, delivered: nat -> bool)
    requires forall id :: id in ids ==> HasRow(s, id)
    requires Progress(s, catalog, ids, |ids|, reminded, allSent, delivered)
    ensures forall a, b :: 0 <= a < b < |reminded| ==> reminded[a] < reminded[b]
    ensures forall id :: id in reminded ==> id in ids && FindPlant(catalog, Row(s, id).plantId).Some?
    ensures (forall k :: delivered(k)) ==> allSent
    ensures allSent ==> forall id :: id in ids && FindPlant(catalog, Row(s, id).plantId).Some? ==> id in reminded
    ensures forall i :: 0 <= i < |ids| ==>
      (ids[i] in reminded <==>
         FindPlant(catalog, Row(s, ids[i]).plantId).Some? && delivered(Attempts(s, catalog, ids[..i])))
  {
    assert ids[..|ids|] == ids;
  }

  /** An iteration whose attempt is delivered: the row turns and joins the turned list. */
  lemma ProgressTurn(s: Store, catalog: Catalog, ids: seq<int>, i: nat, reminded: seq<int>,
                     allSent: bool, delivered: nat -> bool)
    requires forall a, b :: 0 <= a < b < |ids| ==> ids[a] < ids[b]
    requires forall id :: id in ids ==> HasRow(s, id)
    requires i < |ids| && Progress(s, catalog, ids, i, reminded, allSent, delivered)
    requires FindPlant(catalog, Row(s, ids[i]).plantId).Some? && delivered(Attempts(s, catalog, ids[..i]))
    ensures Progress(s, catalog, ids, i + 1, reminded + [ids[i]], allSent, delivered)
  {
    EarlierBelow(ids, i, reminded);
    OwnAttemptsStep(s, catalog, ids, i, reminded, delivered, true);
    AscendingSnoc(reminded, ids[i]);
    TurnedStep(s, catalog, ids, i, reminded, true);
    CoveredStep(s, catalog, ids, i, reminded, allSent, true, true);
  }

  /**
   An iteration that turns nothing: the row's plant is unknown (no attempt)
   or its attempt failed, and then not every attempt has been delivered.
   */
  lemma ProgressKeep(s: Store, catalog: Catalog, ids: seq<int>, i: nat, reminded: seq<int>,
                     allSent: bool, delivered: nat -> bool)
    requires forall a, b :: 0 <= a < b < |ids| ==> ids[a] < ids[b]
    requires forall id :: id in ids ==> HasRow(s, id)
    requires i < |ids| && Progress(s, catalog, ids, i, reminded, allSent, delivered)
    requires !(FindPlant(catalog, Row(s, ids[i]).plantId).Some? && delivered(Attempts(s, catalog, ids[..i])))
    ensures Progress(s, catalog, ids, i + 1, reminded,
                     allSent && (FindPlant(catalog, Row(s, ids[i]).plantId).Some? ==>
                                   delivered(Attempts(s, catalog, ids[..i]))), delivered)
  {
    EarlierBelow(ids, i, reminded);
    OwnAttemptsStep(s, catalog, ids, i, reminded, delivered, false);
    TurnedStep(s, catalog, ids, i, reminded, false);
    CoveredStep(s, catalog, ids, i, reminded, allSent, delivered(Attempts(s, catalog, ids[..i])), false);
  }

  /** The rows turned after one more iteration all come from the list so far and have a known plant. */
  lemma TurnedStep(s: Store, catalog: Catalog, ids: seq<int>, i: nat, reminded: seq<int>, sent: bool)
    requires i < |ids| && forall id :: id in ids ==> HasRow(s, id)
    requires forall x :: x in reminded ==> x in ids[..i] && FindPlant(catalog, Row(s, x).plantId).Some?
    requires sent ==> FindPlant(catalog, Row(s, ids[i]).plantId).Some?
    ensures forall x :: x in (if sent then reminded + [ids[i]] else reminded) ==>
      x in ids[..i + 1] && FindPlant(catalog, Row(s, x).plantId).Some?
  {
    SliceSnoc(ids, i);
  }

  /**
   While no attempt has failed, every row so far with a known plant is
   turned, one more iteration included.
   */
  lemma CoveredStep(s: Store, catalog: Catalog, ids: seq<int>, i: nat, reminded: seq<int>, allSent: bool,
                    ok: bool, sent: bool)
    requires i < |ids| && forall id :: id in ids ==> HasRow(s, id)
    requires allSent ==> forall x :: x in ids[..i] && FindPlant(catalog, Row(s, x).plantId).Some? ==> x in reminded
    requires sent <==> FindPlant(catalog, Row(s, ids[i]).plantId).Some? && ok
    ensures allSent && (FindPlant(catalog, Row(s, ids[i]).plantId).Some? ==> ok) ==>
      forall x :: x in ids[..i + 1] && FindPlant(catalog, Row(s, x).plantId).Some? ==>
        x in (if sent then reminded + [ids[i]] else reminded)
  {
    SliceSnoc(ids, i);
  }

  /** Each of the first `n` rows of the list was turned exactly when its own attempt was delivered. */
  predicate OwnAttempts(s: Store, catalog: Catalog, ids: seq<int>, n: nat, reminded: seq<int>, delivered: nat -> bool)
    requires n <= |ids| && forall id :: id in ids ==> HasRow(s, id)
  {
    forall a :: 0 <= a < n ==>
      (ids[a] in reminded <==>
         FindPlant(catalog, Row(s, ids[a]).plantId).Some? && delivered(Attempts(s, catalog, ids[..a])))
  }

  /** The attempts over one more row: one more exactly when its plant is known. */
  lemma AttemptsSnoc(s: Store, catalog: Catalog, ids: seq<int>, i: nat)
    requires i < |ids| && HasRow(s, ids[i])
    ensures Attempts(s, catalog, ids[..i + 1])
         == Attempts(s, catalog, ids[..i]) + (if FindPlant(catalog, Row(s, ids[i]).plantId).Some? then 1 else 0)
  {
    assert ids[..i + 1][..i] == ids[..i];
  }

  /**
   One more row of the loop: the rows before it keep their standing, since
   the row turned (if any) is a later one, and the row itself is turned
   exactly when its own attempt is delivered.
   */
  lemma OwnAttemptsStep(s: Store, catalog: Catalog, ids: seq<int>, i: nat, reminded: seq<int>,
                        delivered: nat -> bool, sent: bool)
    requires forall a, b :: 0 <= a < b < |ids| ==> ids[a] < ids[b]
    requires forall id :: id in ids ==> HasRow(s, id)
    requires i < |ids| && OwnAttempts(s, catalog, ids, i, reminded, delivered)
    requires forall x :: x in reminded ==> x < ids[i]
    requires sent <==> FindPlant(catalog, Row(s, ids[i]).plantId).Some? && delivered(Attempts(s, catalog, ids[..i]))
    ensures OwnAttempts(s, catalog, ids, i + 1, if sent then reminded + [ids[i]] else reminded, delivered)
  {
    var after := if sent then reminded + [ids[i]] else reminded;
    forall a | 0 <= a < i + 1
      ensures ids[a] in after <==>
        FindPlant(catalog, Row(s, ids[a]).plantId).Some? && delivered(Attempts(s, catalog, ids[..a]))
    {
      if a < i {
        assert ids[a] in after <==> ids[a] in reminded;
      } else {
        assert ids[i] !in reminded;
      }
    }
  }

  // ---------------------------------------------------------------------------
  // _reschedule_unanswered
  // ---------------------------------------------------------------------------

  /**
   `_reschedule_unanswered`: the evening job, delegating to the service's
   sweep. It uses the corrected sweep (see `RescheduleUnansweredIntended`),
   so today's open rows are closed, each plant with one moves to tomorrow,
   and a plant's counter grows exactly when one of them is a watering row.
   */
  function RescheduleJob(s: Store, clock: Clock): (r: Store)
    requires WellKeyed(s)
    ensures WellKeyed(r) && r.users == s.users && |r.notifications| == |s.notifications|
    ensures forall id :: id !in PendingNotifications(r, clock.today)
    ensures forall j :: HasRow(s, j) && !OpenOn(Row(s, j), clock.today) ==> Row(r, j) == Row(s, j)
    ensures forall j :: HasRow(s, j) && OpenOn(Row(s, j), clock.today) ==> Row(r, j) == Cleared(Row(s, j))
    ensures r.statuses.Keys == s.statuses.Keys
    ensures forall k :: k in s.statuses && OpenToday(s, k, clock.today) ==>
      r.statuses[k].nextCheckDate == clock.today + 1
    ensures forall k :: k in s.statuses ==>
      (r.statuses[k].overdueDays > s.statuses[k].overdueDays <==> WaterOpenToday(s, k, clock.today))
    ensures forall k :: k in s.statuses && !OpenToday(s, k, clock.today) ==> r.statuses[k] == s.statuses[k]
    ensures forall k :: k in s.statuses && OpenToday(s, k, clock.today) ==>
      && r.statuses[k].overdueDays
           == s.statuses[k].overdueDays + OpenWaterCount(s, k, clock.today)
      && r.statuses[k] == Overdue(s.statuses[k], clock, OpenWaterCount(s, k, clock.today))
  {
    RescheduleUnansweredIntended(s, clock)
  }
}

=== FILE: sheets.dfy ===
/**
 The spreadsheet mirror of the care calendar (bot/services/sheets.py): one row
 per plant name, one column per `DD.MM` day key, and the in-memory name→row and
 key→column indexes the service keeps beside the worksheet. gspread calls are
 the `Grid` operations; an API error is caught where the source catches it.
 */
module Sheets {
  import opened Wrappers
  import opened Text
  import opened Calendar
  import opened Grid

  // ---------------------------------------------------------------------------
  // _get_date_str: the DD.MM key
  // ---------------------------------------------------------------------------

  /** `strftime("%d")` / `("%m")`: two digits, zero-padded. */
  function Pad2(n: int): (s: string)
    requires 0 <= n <= 99
    ensures |s| == 2 && AllDigits(s)
  {
    if n < 10 then "0" + NatToDigits(n)
    else
      assert NatToDigits(n) == NatToDigits(n / 10) + ['0' + (n % 10) as char];
      NatToDigits(n)
  }

  /** `_get_date_str`: the day and month of the date, zero-padded, joined by a dot. */
  function DateKey(d: Date): (key: string)
    ensures |key| == 5 && key[2] == '.'
  {
    var c := ToCivil(d);
    Pad2(c.day) + "." + Pad2(c.month)
  }

  /**
   How `_ensure_date_column` reads a cached key back: `map(int, key.split("."))`
   unpacked into day and month; a key without exactly two integer fields raises
   (None here).
   */
  function ParseKey(key: string): (r: Option<(int, int)>)
  {
    var parts := Split(key, '.');
    if |parts| != 2 then None
    else match (ParseInt(parts[0]), ParseInt(parts[1]))
      case (Some(day), Some(month)) => Some((day, month))
      case _ => None
  }

  /** A zero-padded number reads back as the number. */
  lemma ParsePad2(n: int)
    requires 0 <= n <= 99
    ensures ParseInt(Pad2(n)) == Some(n)
    ensures '.' !in Pad2(n)
  {
    var s := Pad2(n);
    assert !IsDigit('.');
    if n < 10 {
      DigitsNotSpace(s);
      assert Strip(s) == s;
      assert s[..1] == "0" && s[1] == '0' + n as char;
      assert DigitsValue("0") == 0 by { assert "0"[..0] == ""; }
      assert DigitsValue(s) == n;
    } else {
      ParseIntOfString(n);
    }
  }

  /** A date's key reads back as its day and month. */
  lemma DateKeyRoundTrip(d: Date)
    ensures ParseKey(DateKey(d)) == Some((ToCivil(d).day, ToCivil(d).month))
  {
    var c := ToCivil(d);
    ParsePad2(c.day);
    ParsePad2(c.month);
    Split2(Pad2(c.day), Pad2(c.month), '.');
  }

  /** Two dates share a key exactly when they share day and month, whatever their years. */
  lemma DateKeyIff(d1: Date, d2: Date)
    ensures DateKey(d1) == DateKey(d2) <==>
      ToCivil(d1).day == ToCivil(d2).day && ToCivil(d1).month == ToCivil(d2).month
  {
    DateKeyRoundTrip(d1);
    DateKeyRoundTrip(d2);
  }

  /** 2000-01-01 and 2001-01-01 (day 0 and day 366) share the key "01.01". */
  lemma KeysCollideAcrossYears()
    ensures DateKey(0) == DateKey(366) == "01.01"
  {
    assert ToCivil(0) == Civil(2000, 1, 1);
    assert ToCivil(366) == Civil(2001, 1, 1);
  }

  // ---------------------------------------------------------------------------
  // The mirror's state
  // ---------------------------------------------------------------------------

  /** The "📋" placeholder for a scheduled check. */
  const Placeholder: string := "\U{1F4CB}"

  /** The "📨" mark of a sent notification. */
  const SentMark: string := "\U{1F4E8}"

  /**
   The service: whether the integration is enabled in the settings, the
   worksheet (None when it was never opened), and the plant name→row and
   day key→column indexes.
   */
  datatype Mirror = Mirror(enabled: bool, sheet: Option<Grid>, plantRows: map<string, int>, dateCols: map<string, int>)

  /** The worksheet is kept, keeps its size, and no non-empty cell changes. */
  ghost predicate Grows(a: Option<Grid>, b: Option<Grid>) {
    && a.Some? == b.Some?
    && (a.Some? ==> a.value.rows == b.value.rows && a.value.cols == b.value.cols)
    && (a.Some? ==> forall i, j :: Cell(a.value, i, j) != "" ==> Cell(b.value, i, j) == Cell(a.value, i, j))
  }

  lemma GrowsTrans(a: Option<Grid>, b: Option<Grid>, c: Option<Grid>)
    requires Grows(a, b) && Grows(b, c)
    ensures Grows(a, c)
  {
  }

  // ---------------------------------------------------------------------------
  // _load_structure
  // ---------------------------------------------------------------------------

  /** Some entry after the first (the header) holds the non-empty text `k`. */
  predicate Occurs(vals: seq<string>, k: string) {
    k != "" && exists i :: 1 <= i < |vals| && vals[i] == k
  }

  /** A text occurs in a list when it occurs before the last entry or is the last entry. */
  lemma OccursSnoc(vals: seq<string>, k: string)
    requires |vals| >= 2
    ensures Occurs(vals, k) <==> Occurs(vals[..|vals| - 1], k) || (k != "" && vals[|vals| - 1] == k)
  {
    var front := vals[..|vals| - 1];
    if Occurs(vals, k) && vals[|vals| - 1] != k {
      var i :| 1 <= i < |vals| && vals[i] == k;
      assert front[i] == k;
    }
    if Occurs(front, k) {
      var i :| 1 <= i < |front| && front[i] == k;
      assert vals[i] == k;
    }
  }

  /**
   The indexing loop of `_load_structure` over a list of cell values (the
   first column or the header row): every non-empty entry after the first is
   recorded at its 1-based position, a later duplicate overwriting an earlier one.
   */
  function IndexLine(acc: map<string, int>, vals: seq<string>): (r: map<string, int>)
    ensures acc.Keys <= r.Keys
    decreases |vals|
  {
    if |vals| < 2 then acc
    else
      var a := IndexLine(acc, vals[..|vals| - 1]);
      var last := vals[|vals| - 1];
      if last != "" then a[last := |vals|] else a
  }

  /**
   What the indexing loop records for one text: an entry of the list is
   indexed at its last position (1-based), a text not in the list keeps what
   the index held, and nothing else is added.
   */
  lemma {:induction false} IndexLineAt(acc: map<string, int>, vals: seq<string>, k: string)
    ensures k in IndexLine(acc, vals) <==> k in acc || Occurs(vals, k)
    ensures Occurs(vals, k) ==>
      var r := IndexLine(acc, vals);
      && 2 <= r[k] <= |vals| && vals[r[k] - 1] == k
      && forall i :: r[k] <= i < |vals| ==> vals[i] != k
    ensures k in acc && !Occurs(vals, k) ==> IndexLine(acc, vals)[k] == acc[k]
    decreases |vals|
  {
    if |vals| >= 2 {
      var front := vals[..|vals| - 1];
      IndexLineAt(acc, front, k);
      OccursSnoc(vals, k);
      if Occurs(vals, k) && k != vals[|vals| - 1] {
        var r, a := IndexLine(acc, vals), IndexLine(acc, front);
        assert r[k] == a[k] && front[a[k] - 1] == k;
        assert forall i :: 0 <= i < |front| ==> front[i] == vals[i];
      }
    }
  }

  /**
   The first half of `_load_structure`: the names in the first column below
   the header. Every non-empty such cell is indexed at its own row or at a
   later one holding the same name (the later duplicate wins), and every
   entry not held before points at a cell holding its name.
   */
  function IndexNames(sh: Grid, acc: map<string, int>): (rows: map<string, int>)
    ensures forall i :: 2 <= i <= ColLen(sh, 1) && Cell(sh, i, 1) != "" ==>
      Cell(sh, i, 1) in rows && i <= rows[Cell(sh, i, 1)] <= ColLen(sh, 1)
      && Cell(sh, rows[Cell(sh, i, 1)], 1) == Cell(sh, i, 1)
    ensures forall name :: name in rows && name !in acc ==>
      2 <= rows[name] <= ColLen(sh, 1) && Cell(sh, rows[name], 1) == name
    ensures forall name :: name in acc ==> name in rows
  {
    var names := ColValues(sh, 1);
    var rows := IndexLine(acc, names);
    forall i | 2 <= i <= |names| && names[i - 1] != ""
      ensures Cell(sh, i, 1) in rows && i <= rows[Cell(sh, i, 1)] <= |names|
      ensures Cell(sh, rows[Cell(sh, i, 1)], 1) == Cell(sh, i, 1)
    {
      IndexLineAt(acc, names, names[i - 1]);
    }
    forall name | name in rows && name !in acc
      ensures 2 <= rows[name] <= |names| && Cell(sh, rows[name], 1) == name
    {
      IndexLineAt(acc, names, name);
    }
    rows
  }

  /** The second half of `_load_structure`: the day keys in the header row right of the first column. */
  function IndexDates(sh: Grid, acc: map<string, int>): (cols: map<string, int>)
    ensures forall j :: 2 <= j <= RowLen(sh, 1) && Cell(sh, 1, j) != "" ==>
      Cell(sh, 1, j) in cols && j <= cols[Cell(sh, 1, j)] <= RowLen(sh, 1)
      && Cell(sh, 1, cols[Cell(sh, 1, j)]) == Cell(sh, 1, j)
    ensures forall key :: key in cols && key !in acc ==>
      2 <= cols[key] <= RowLen(sh, 1) && Cell(sh, 1, cols[key]) == key
    ensures forall key :: key in acc ==> key in cols
  {
    var dates := RowValues(sh, 1);
    var cols := IndexLine(acc, dates);
    forall j | 2 <= j <= |dates| && dates[j - 1] != ""
      ensures Cell(sh, 1, j) in cols && j <= cols[Cell(sh, 1, j)] <= |dates|
      ensures Cell(sh, 1, cols[Cell(sh, 1, j)]) == Cell(sh, 1, j)
    {
      IndexLineAt(acc, dates, dates[j - 1]);
    }
    forall key | key in cols && key !in acc
      ensures 2 <= cols[key] <= |dates| && Cell(sh, 1, cols[key]) == key
    {
      IndexLineAt(acc, dates, key);
    }
    cols
  }

  /**
   `_load_structure`: indexes the plant names and the day keys of the
   worksheet into the indexes already held; without a worksheet nothing
   happens, and the sheet is only read.
   */
  function LoadStructure(m: Mirror): (r: Mirror)
    ensures m.sheet.None? ==> r == m
    ensures r.sheet == m.sheet && r.enabled == m.enabled
    ensures m.sheet.Some? ==> r.plantRows == IndexNames(m.sheet.value, m.plantRows)
    ensures m.sheet.Some? ==> r.dateCols == IndexDates(m.sheet.value, m.dateCols)
  {
    match m.sheet
    case None => m
    case Some(sh) => m.(plantRows := IndexNames(sh, m.plantRows), dateCols := IndexDates(sh, m.dateCols))
  }

  // ---------------------------------------------------------------------------
  // _ensure_plant_row
  // ---------------------------------------------------------------------------

  /**
   `_ensure_plant_row`: a cached name returns its row with no write; otherwise
   the name goes into the first empty row after the first column's contents
   and is cached there, or, when that row lies outside the grid, the API error
   yields -1 with nothing changed. Without a worksheet the answer is -1.
   */
  function EnsurePlantRow(m: Mirror, name: string): (r: (Mirror, int))
    ensures m.sheet.None? ==> r == (m, -1)
    ensures m.sheet.Some? && name in m.plantRows ==> r == (m, m.plantRows[name])
    ensures r.0.enabled == m.enabled && r.0.dateCols == m.dateCols
    ensures Grows(m.sheet, r.0.sheet)
    ensures forall k :: k in m.plantRows ==> k in r.0.plantRows && r.0.plantRows[k] == m.plantRows[k]
    ensures m.sheet.Some? && name in r.0.plantRows ==> r.1 == r.0.plantRows[name]
  {
    match m.sheet
    case None => (m, -1)
    case Some(sh) =>
      if name in m.plantRows then (m, m.plantRows[name])
      else
        var next := ColLen(sh, 1) + 1;
        match UpdateCell(sh, next, 1, name)
        case None => (m, -1)
        case Some(sh') => (m.(sheet := Some(sh'), plantRows := m.plantRows[name := next]), next)
  }

  /**
   An uncached name: the row just past the first column's contents, when the
   grid reaches that far, takes the name and is cached; otherwise nothing
   changes and -1 is returned.
   */
  lemma EnsurePlantRowAdds(m: Mirror, name: string)
    requires m.sheet.Some? && name !in m.plantRows
    ensures var r := EnsurePlantRow(m, name);
      var sh := m.sheet.value;
      && (r.1 == -1 <==> !InGrid(sh, ColLen(sh, 1) + 1, 1))
      && (r.1 == -1 ==> r.0 == m)
      && (r.1 != -1 ==>
            && r.1 == ColLen(sh, 1) + 1 && Cell(sh, r.1, 1) == ""
            && Cell(r.0.sheet.value, r.1, 1) == name
            && (forall i, j :: (i, j) != (r.1, 1) ==> Cell(r.0.sheet.value, i, j) == Cell(sh, i, j))
            && r.0.plantRows == m.plantRows[name := r.1])
  {
  }

  // ---------------------------------------------------------------------------
  // _ensure_date_column
  // ---------------------------------------------------------------------------

  /** A largest element of a finite non-empty set, found by removing elements one at a time. */
  ghost function Largest(s: set<int>): (x: int)
    requires s != {}
    ensures x in s && forall y :: y in s ==> y <= x
    decreases |s|
  {
    assert exists a :: a in s by {
      if forall a :: a !in s {
        assert false;
      }
    }
    var a :| a in s;
    var rest := s - {a};
    if rest == {} then
      assert forall y :: y in s ==> y == a by {
        forall y | y in s ensures y == a { assert y == a || y in rest; }
      }
      a
    else
      var m := Largest(rest);
      assert forall y :: y in s ==> y == a || y in rest;
      if a > m then a else m
  }

  /** The largest element of a finite non-empty set. */
  function MaxOf(s: set<int>): (x: int)
    requires s != {}
    ensures x in s && forall y :: y in s ==> y <= x
  {
    assert Largest(s) in s;
    var x :| x in s && forall y :: y in s ==> y <= x;
    x
  }

  /**
   A cached key names a day before the target within the target's year: it
   reads back as (day, month), that day exists in the target's year, and
   (month, day) comes before the target's (month, day). Keys that do not read
   back, or name no such day, are skipped (the `except: continue`).
   */
  predicate Precedes(key: string, target: Civil) {
    var parsed := ParseKey(key);
    && parsed.Some?
    && var (day, month) := (parsed.value.0, parsed.value.1);
    && IsValidDate(target.year, month, day)
    && (month < target.month || (month == target.month && day < target.day))
  }

  /**
   The insertion position the scan over the cached keys settles on: just after
   the right-most column holding an earlier day, or column 2 when there is none.
   */
  function InsertPosition(cols: map<string, int>, target: Civil): (c: int)
    ensures forall k :: k in cols && Precedes(k, target) ==> c > cols[k]
    ensures (forall k :: k in cols ==> !Precedes(k, target)) ==> c == 2
    ensures c == 2 || exists k :: k in cols && Precedes(k, target) && c == cols[k] + 1
  {
    var earlier := set k | k in cols && Precedes(k, target) :: cols[k];
    forall k | k in cols && Precedes(k, target)
      ensures cols[k] in earlier
    {
    }
    if earlier == {} then 2 else MaxOf(earlier) + 1
  }

  /**
   `_ensure_date_column`: the key of the given day (today when absent). A
   cached key returns its column with no write. Otherwise the column is the
   insertion position, pushed past the header row's contents when it would
   land inside them, so the header cell written is always empty; the key is
   written there and cached, or, outside the grid, -1 comes back with nothing
   changed. Without a worksheet the answer is -1.
   */
  function EnsureDateColumn(m: Mirror, d: Option<Date>, today: Date): (r: (Mirror, int))
    ensures m.sheet.None? ==> r == (m, -1)
    ensures m.sheet.Some? && DateKey(d.GetOr(today)) in m.dateCols ==>
      r == (m, m.dateCols[DateKey(d.GetOr(today))])
    ensures r.0.enabled == m.enabled && r.0.plantRows == m.plantRows
    ensures Grows(m.sheet, r.0.sheet)
    ensures forall k :: k in m.dateCols ==> k in r.0.dateCols && r.0.dateCols[k] == m.dateCols[k]
    ensures m.sheet.Some? && DateKey(d.GetOr(today)) in r.0.dateCols ==> r.1 == r.0.dateCols[DateKey(d.GetOr(today))]
    ensures DateKey(d.GetOr(today)) !in r.0.dateCols ==> r.1 == -1
  {
    match m.sheet
    case None => (m, -1)
    case Some(sh) =>
      var target := d.GetOr(today);
      var key := DateKey(target);
      if key in m.dateCols then (m, m.dateCols[key])
      else
        var raw := InsertPosition(m.dateCols, ToCivil(target));
        var len := RowLen(sh, 1);
        var col := if raw <= len then len + 1 else raw;
        match UpdateCell(sh, 1, col, key)
        case None => (m, -1)
        case Some(sh') => (m.(sheet := Some(sh'), dateCols := m.dateCols[key := col]), col)
  }

  /**
   An uncached day: the new column lies past the header row's contents and
   after the column of every cached earlier day; it takes the key and is
   cached, unless it falls outside the grid, when nothing changes.
   */
  lemma EnsureDateColumnAdds(m: Mirror, d: Option<Date>, today: Date)
    requires m.sheet.Some? && DateKey(d.GetOr(today)) !in m.dateCols
    ensures var r := EnsureDateColumn(m, d, today);
      var sh := m.sheet.value;
      var key := DateKey(d.GetOr(today));
      && (r.1 == -1 ==> r.0 == m)
      && (r.1 != -1 ==>
            && r.1 > RowLen(sh, 1) && Cell(sh, 1, r.1) == ""
            && (forall k :: k in m.dateCols && Precedes(k, ToCivil(d.GetOr(today))) ==> r.1 > m.dateCols[k])
            && Cell(r.0.sheet.value, 1, r.1) == key
            && (forall i, j :: (i, j) != (1, r.1) ==> Cell(r.0.sheet.value, i, j) == Cell(sh, i, j))
            && r.0.dateCols == m.dateCols[key := r.1])
  {
  }

  // ---------------------------------------------------------------------------
  // _ensure_date_columns_for_period
  // ---------------------------------------------------------------------------

  /** The days `from .. from+count-1`, in order, whose keys are not cached. */
  function MissingDays(cols: map<string, int>, from: Date, count: int): (ds: seq<Date>)
    ensures forall j :: 0 <= j < |ds| ==> from <= ds[j] < from + count && DateKey(ds[j]) !in cols
    ensures forall j, k :: 0 <= j < k < |ds| ==> ds[j] < ds[k]
    ensures forall d :: from <= d < from + count && DateKey(d) !in cols ==> d in ds
  {
    var cached := set d | from <= d < from + count && DateKey(d) in cols;
    Gaps(cached, from, count)
  }

  /** The days `from .. from+count-1`, in order, that are not in `cached`. */
  function Gaps(cached: set<Date>, from: Date, count: int): (ds: seq<Date>)
    ensures GapsIn(cached, from, count, ds)
    decreases count
  {
    if count <= 0 then []
    else
      var front := Gaps(cached, from, count - 1);
      var d := from + count - 1;
      var ds := if d !in cached then front + [d] else front;
      assert GapsIn(cached, from, count, ds) by { GapsStep(cached, from, count, front); }
      ds
  }

  /** `ds` lists, in increasing order, exactly the days of the period that are not in `cached`. */
  predicate GapsIn(cached: set<Date>, from: Date, count: int, ds: seq<Date>) {
    && (forall j :: 0 <= j < |ds| ==> from <= ds[j] < from + count && ds[j] !in cached)
    && (forall j, k :: 0 <= j < k < |ds| ==> ds[j] < ds[k])
    && (forall d :: from <= d < from + count && d !in cached ==> d in ds)
  }

  /** One more day of the period: it is appended exactly when it is not in `cached`. */
  lemma GapsStep(cached: set<Date>, from: Date, count: int, front: seq<Date>)
    requires count > 0 && GapsIn(cached, from, count - 1, front)
    ensures var d := from + count - 1;
      GapsIn(cached, from, count, if d !in cached then front + [d] else front)
  {
    var d := from + count - 1;
    if d !in cached {
      var ds := front + [d];
      assert forall j :: 0 <= j < |front| ==> ds[j] == front[j];
      forall x | from <= x < from + count && x !in cached ensures x in ds {
        if x < d {
          assert x in front;
        } else {
          assert ds[|front|] == x;
        }
      }
    }
  }

  /** The keys of a list of days. */
  function KeysOf(ds: seq<Date>): (keys: seq<string>)
    ensures |keys| == |ds| && forall j :: 0 <= j < |ds| ==> keys[j] == DateKey(ds[j])
  {
    seq(|ds|, j requires 0 <= j < |ds| => DateKey(ds[j]))
  }

  /**
   The caching loop of the period fill: the j-th key is cached at column
   `start + j`, in order, so a repeated key ends at its last position.
   */
  function AssignColumns(cols: map<string, int>, keys: seq<string>, start: int): (r: map<string, int>)
    ensures cols.Keys <= r.Keys
    decreases |keys|
  {
    if keys == [] then cols
    else
      var n := |keys|;
      AssignColumns(cols, keys[..n - 1], start)[keys[n - 1] := start + n - 1]
  }

  /**
   What the caching loop leaves for one key: a key of the list sits at the
   column of its last occurrence, any other cached key keeps its column, and
   nothing else is added.
   */
  lemma {:induction false} AssignColumnsAt(cols: map<string, int>, keys: seq<string>, start: int, k: string)
    ensures k in AssignColumns(cols, keys, start) <==> k in cols || k in keys
    ensures k in keys ==>
      var r := AssignColumns(cols, keys, start);
      && 0 <= r[k] - start < |keys| && keys[r[k] - start] == k
      && forall i :: r[k] - start < i < |keys| ==> keys[i] != k
    ensures k in cols && k !in keys ==> AssignColumns(cols, keys, start)[k] == cols[k]
    decreases |keys|
  {
    if keys != [] {
      var n := |keys|;
      var front := keys[..n - 1];
      AssignColumnsAt(cols, front, start, k);
      assert k in keys <==> k in front || k == keys[n - 1];
      if k in front && k != keys[n - 1] {
        assert forall i :: 0 <= i < |front| ==> front[i] == keys[i];
      }
    }
  }

  /** `AssignColumnsAt` for every key at once. */
  lemma AssignColumnsAll(cols: map<string, int>, keys: seq<string>, start: int)
    ensures var r := AssignColumns(cols, keys, start);
      && (forall k :: k in r <==> k in cols || k in keys)
      && (forall k :: k in cols && k !in keys ==> r[k] == cols[k])
      && (forall k :: k in keys ==>
        && 0 <= r[k] - start < |keys| && keys[r[k] - start] == k
        && forall i :: r[k] - start < i < |keys| ==> keys[i] != k)
  {
    AssignColumnsDomain(cols, keys, start);
    AssignColumnsLast(cols, keys, start);
  }

  /** The caching loop caches exactly the old keys and the listed ones, and keeps unlisted columns. */
  lemma AssignColumnsDomain(cols: map<string, int>, keys: seq<string>, start: int)
    ensures var r := AssignColumns(cols, keys, start);
      && (forall k :: k in r <==> k in cols || k in keys)
      && (forall k :: k in cols && k !in keys ==> r[k] == cols[k])
  {
    var r := AssignColumns(cols, keys, start);
    forall k
      ensures k in r <==> k in cols || k in keys
      ensures k in cols && k !in keys ==> r[k] == cols[k]
    {
      AssignColumnsAt(cols, keys, start, k);
    }
  }

  /** The caching loop puts each listed key at the start column plus the index of its last occurrence. */
  lemma AssignColumnsLast(cols: map<string, int>, keys: seq<string>, start: int)
    ensures var r := AssignColumns(cols, keys, start);
      forall k :: k in keys ==>
        && k in r && 0 <= r[k] - start < |keys| && keys[r[k] - start] == k
        && forall i :: r[k] - start < i < |keys| ==> keys[i] != k
  {
    var r := AssignColumns(cols, keys, start);
    forall k | k in keys
      ensures k in r && 0 <= r[k] - start < |keys| && keys[r[k] - start] == k
      ensures forall i :: r[k] - start < i < |keys| ==> keys[i] != k
    {
      AssignColumnsAt(cols, keys, start, k);
    }
  }

  /**
   The writing loop of the period fill: header cells `start, start+1, ...`
   take the keys in order until a write falls outside the grid; that API
   error ends the loop (it is caught by the caller) and leaves the rest unwritten.
   */
  function WriteHeader(sh: Grid, keys: seq<string>, start: int): (r: Grid)
    requires start >= 1
    ensures r.rows == sh.rows && r.cols == sh.cols && r.colors == sh.colors
    ensures forall j :: 0 <= j < |keys| && InGrid(sh, 1, start + j) ==> Cell(r, 1, start + j) == keys[j]
    ensures forall i, c :: !(i == 1 && start <= c < start + |keys|) ==> Cell(r, i, c) == Cell(sh, i, c)
    ensures forall c :: start <= c < start + |keys| && !InGrid(sh, 1, c) ==> Cell(r, 1, c) == Cell(sh, 1, c)
    decreases |keys|
  {
    if keys == [] then sh
    else
      var n := |keys|;
      var front := WriteHeader(sh, keys[..n - 1], start);
      var r := match UpdateCell(front, 1, start + n - 1, keys[n - 1])
        case None => front
        case Some(g) => g;
      assert forall j :: 0 <= j < |keys| && InGrid(sh, 1, start + j) ==> Cell(r, 1, start + j) == keys[j] by {
        forall j | 0 <= j < |keys| && InGrid(sh, 1, start + j) ensures Cell(r, 1, start + j) == keys[j] {
          if j < n - 1 {
            assert keys[..n - 1][j] == keys[j];
          }
        }
      }
      r
  }

  /** Writing past the header row's contents overwrites nothing. */
  lemma WriteHeaderGrows(sh: Grid, keys: seq<string>, start: int)
    requires start == RowLen(sh, 1) + 1
    ensures Grows(Some(sh), Some(WriteHeader(sh, keys, start)))
  {
    var g := WriteHeader(sh, keys, start);
    forall i, j | Cell(sh, i, j) != ""
      ensures Cell(g, i, j) == Cell(sh, i, j)
    {
      assert !(i == 1 && j > RowLen(sh, 1));
    }
  }

  /**
   The batch step of the period fill: the keys are cached at consecutive
   columns from `start` (a repeated key at its last position), then written
   there in order. Nothing is overwritten, since every column from `start` on
   is empty in the header row.
   */
  function AddColumns(m: Mirror, sh: Grid, keys: seq<string>, start: int): (r: Mirror)
    requires m.sheet == Some(sh) && start == RowLen(sh, 1) + 1
    ensures r.enabled == m.enabled && r.plantRows == m.plantRows
    ensures Grows(m.sheet, r.sheet)
    ensures forall k :: k in r.dateCols <==> k in m.dateCols || k in keys
    ensures forall k :: k in m.dateCols && k !in keys ==> r.dateCols[k] == m.dateCols[k]
    ensures forall k :: k in keys ==>
      && start <= r.dateCols[k] < start + |keys|
      && (InGrid(sh, 1, r.dateCols[k]) ==> Cell(r.sheet.value, 1, r.dateCols[k]) == k)
    ensures forall k :: k in keys ==>
      && keys[r.dateCols[k] - start] == k
      && forall i :: r.dateCols[k] - start < i < |keys| ==> keys[i] != k
    ensures forall j :: 0 <= j < |keys| && InGrid(sh, 1, start + j) ==> Cell(r.sheet.value, 1, start + j) == keys[j]
    ensures forall i, c :: !(i == 1 && start <= c < start + |keys|) ==> Cell(r.sheet.value, i, c) == Cell(sh, i, c)
  {
    var g := WriteHeader(sh, keys, start);
    var cols := AssignColumns(m.dateCols, keys, start);
    WriteHeaderGrows(sh, keys, start);
    AssignColumnsAll(m.dateCols, keys, start);
    Mirror(m.enabled, Some(g), m.plantRows, cols)
  }

  /**
   `_ensure_date_columns_for_period`: collects the days from today on, for
   `days` days, whose keys are not cached (checked against the index as it was
   before the loop); if any, caches them at consecutive columns from just past
   the header row's contents and writes them there. Afterwards every day of
   the period has a cached column; cached keys keep their columns; each new
   key sits past the old header contents and is written there when the grid
   reaches that far. Nothing is overwritten; without a worksheet, or with
   nothing missing, nothing happens.
   */
  function EnsureDateColumnsForPeriod(m: Mirror, days: int, today: Date): (r: Mirror)
    ensures m.sheet.None? ==> r == m
    ensures r.enabled == m.enabled && r.plantRows == m.plantRows
    ensures Grows(m.sheet, r.sheet)
    ensures m.sheet.Some? ==> forall d :: today <= d < today + days ==> DateKey(d) in r.dateCols
    ensures forall k :: k in m.dateCols ==> k in r.dateCols && r.dateCols[k] == m.dateCols[k]
    ensures m.sheet.Some? ==> forall k :: k in r.dateCols && k !in m.dateCols ==>
      && r.dateCols[k] > RowLen(m.sheet.value, 1)
      && (InGrid(m.sheet.value, 1, r.dateCols[k]) ==> Cell(r.sheet.value, 1, r.dateCols[k]) == k)
    ensures m.sheet.Some? ==> r.sheet.Some? && PeriodLayout(m, r,
      MissingDays(m.dateCols, today, days), RowLen(m.sheet.value, 1) + 1)
  {
    if m.sheet.None? then m
    else
      var sh := m.sheet.value;
      var ds := MissingDays(m.dateCols, today, days);
      var start := RowLen(sh, 1) + 1;
      MissingKeys(m.dateCols, today, days);
      if |ds| == 0 then
        NothingMissingLayout(m, ds, start);
        m
      else
        var r := AddColumns(m, sh, KeysOf(ds), start);
        AddColumnsLayout(m, sh, ds, start);
        LayoutNewKeys(m, r, ds, start);
        r
  }

  /** Under the period layout a new key lies past the old header and is written where the grid reaches. */
  lemma LayoutNewKeys(m: Mirror, r: Mirror, ds: seq<Date>, start: int)
    requires m.sheet.Some? && r.sheet.Some? && start == RowLen(m.sheet.value, 1) + 1
    requires PeriodLayout(m, r, ds, start)
    ensures forall k :: k in r.dateCols && k !in m.dateCols ==>
      && r.dateCols[k] > RowLen(m.sheet.value, 1)
      && (InGrid(m.sheet.value, 1, r.dateCols[k]) ==> Cell(r.sheet.value, 1, r.dateCols[k]) == k)
  {
  }

  /** With no missing day the layout is the one already there. */
  lemma NothingMissingLayout(m: Mirror, ds: seq<Date>, start: int)
    requires m.sheet.Some? && |ds| == 0
    ensures PeriodLayout(m, m, ds, start)
  {
  }

  /**
   The layout the period fill leaves, in terms of the missing days `ds` and
   the first free header column `start`: the cached keys are the old ones and
   those of the missing days; a new key sits at `start + j` for the last `j`
   whose day has that key; header cell `start + j` holds the key of the j-th
   missing day when the grid reaches that far; and every cell outside the
   header cells `start .. start + |ds| - 1` is as it was.
   */
  ghost predicate PeriodLayout(m: Mirror, r: Mirror, ds: seq<Date>, start: int)
    requires m.sheet.Some? && r.sheet.Some?
  {
    && LayoutKeys(m.dateCols, r.dateCols, ds)
    && LayoutColumns(m.dateCols, r.dateCols, ds, start)
    && LayoutHeader(m.sheet.value, r.sheet.value, ds, start)
    && LayoutFrame(m.sheet.value, r.sheet.value, |ds|, start)
  }

  /** The cached keys are the old ones and those of the days of `ds`. */
  ghost predicate LayoutKeys(before: map<string, int>, after: map<string, int>, ds: seq<Date>) {
    forall k :: k in after <==> k in before || exists j :: 0 <= j < |ds| && DateKey(ds[j]) == k
  }

  /** A newly cached key sits at `start + j` for the last `j` whose day has it. */
  ghost predicate LayoutColumns(before: map<string, int>, after: map<string, int>, ds: seq<Date>, start: int) {
    forall k :: k in after && k !in before ==>
      && 0 <= after[k] - start < |ds| && DateKey(ds[after[k] - start]) == k
      && forall i :: after[k] - start < i < |ds| ==> DateKey(ds[i]) != k
  }

  /** Header cell `start + j` holds the key of the j-th day, inside the grid. */
  ghost predicate LayoutHeader(sh: Grid, g: Grid, ds: seq<Date>, start: int) {
    forall j :: 0 <= j < |ds| && InGrid(sh, 1, start + j) ==> Cell(g, 1, start + j) == DateKey(ds[j])
  }

  /** Only the `n` header cells from `start` on may differ. */
  ghost predicate LayoutFrame(sh: Grid, g: Grid, n: int, start: int) {
    forall i, c :: !(i == 1 && start <= c < start + n) ==> Cell(g, i, c) == Cell(sh, i, c)
  }

  /** The batch step, applied to the keys of `ds`, leaves the period layout. */
  lemma AddColumnsLayout(m: Mirror, sh: Grid, ds: seq<Date>, start: int)
    requires m.sheet == Some(sh) && start == RowLen(sh, 1) + 1
    ensures AddColumns(m, sh, KeysOf(ds), start).sheet.Some?
    ensures PeriodLayout(m, AddColumns(m, sh, KeysOf(ds), start), ds, start)
  {
    AddColumnsKeys(m, sh, ds, start);
    AddColumnsColumns(m, sh, ds, start);
    AddColumnsHeader(m, sh, ds, start);
  }

  /** The batch step caches exactly the old keys and those of the days of `ds`. */
  lemma AddColumnsKeys(m: Mirror, sh: Grid, ds: seq<Date>, start: int)
    requires m.sheet == Some(sh) && start == RowLen(sh, 1) + 1
    ensures LayoutKeys(m.dateCols, AddColumns(m, sh, KeysOf(ds), start).dateCols, ds)
  {
    KeysOfHas(ds);
  }

  /** The batch step caches a new key at the last day of `ds` that has it. */
  lemma AddColumnsColumns(m: Mirror, sh: Grid, ds: seq<Date>, start: int)
    requires m.sheet == Some(sh) && start == RowLen(sh, 1) + 1
    ensures LayoutColumns(m.dateCols, AddColumns(m, sh, KeysOf(ds), start).dateCols, ds, start)
  {
    var keys := KeysOf(ds);
    AddColumnsPlaces(m, sh, keys, start);
    ColumnsOfKeys(m.dateCols, AddColumns(m, sh, keys, start).dateCols, keys, ds, start);
  }

  /** Where the batch step puts each key, in the form `ColumnsOfKeys` takes. */
  lemma AddColumnsPlaces(m: Mirror, sh: Grid, keys: seq<string>, start: int)
    requires m.sheet == Some(sh) && start == RowLen(sh, 1) + 1
    ensures PlacedAtLast(m.dateCols, AddColumns(m, sh, keys, start).dateCols, keys, start)
  {
  }

  /**
   `after` adds to `before` only keys of `keys`, each at `start` plus the
   index of its last occurrence.
   */
  ghost predicate PlacedAtLast(before: map<string, int>, after: map<string, int>, keys: seq<string>, start: int) {
    && (forall k :: k in after && k !in before ==> k in keys)
    && (forall k :: k in keys ==>
      && k in after && 0 <= after[k] - start < |keys| && keys[after[k] - start] == k
      && forall i :: after[k] - start < i < |keys| ==> keys[i] != k)
  }

  /**
   A key placed at its last position among the keys of `ds` is placed at the
   last day of `ds` that has it.
   */
  lemma ColumnsOfKeys(before: map<string, int>, after: map<string, int>, keys: seq<string>, ds: seq<Date>, start: int)
    requires |keys| == |ds| && forall j :: 0 <= j < |ds| ==> keys[j] == DateKey(ds[j])
    requires PlacedAtLast(before, after, keys, start)
    ensures LayoutColumns(before, after, ds, start)
  {
    forall k | k in after && k !in before
      ensures 0 <= after[k] - start < |ds| && DateKey(ds[after[k] - start]) == k
      ensures forall i :: after[k] - start < i < |ds| ==> DateKey(ds[i]) != k
    {
      var j := after[k] - start;
      assert keys[j] == k;
      forall i | j < i < |ds| ensures DateKey(ds[i]) != k {
        assert keys[i] != k;
      }
    }
  }

  /** The batch step writes the keys of `ds` into the header and nothing else. */
  lemma AddColumnsHeader(m: Mirror, sh: Grid, ds: seq<Date>, start: int)
    requires m.sheet == Some(sh) && start == RowLen(sh, 1) + 1
    ensures AddColumns(m, sh, KeysOf(ds), start).sheet.Some?
    ensures LayoutHeader(sh, AddColumns(m, sh, KeysOf(ds), start).sheet.value, ds, start)
    ensures LayoutFrame(sh, AddColumns(m, sh, KeysOf(ds), start).sheet.value, |ds|, start)
  {
  }

  /** A key is among `KeysOf(ds)` exactly when some day of `ds` has it. */
  lemma KeysOfHas(ds: seq<Date>)
    ensures forall k :: k in KeysOf(ds) <==> exists j :: 0 <= j < |ds| && DateKey(ds[j]) == k
  {
    var keys := KeysOf(ds);
    forall k ensures k in keys <==> exists j :: 0 <= j < |ds| && DateKey(ds[j]) == k {
      if k in keys {
        var j :| 0 <= j < |keys| && keys[j] == k;
        assert DateKey(ds[j]) == k;
      }
      if exists j :: 0 <= j < |ds| && DateKey(ds[j]) == k {
        var j :| 0 <= j < |ds| && DateKey(ds[j]) == k;
        assert keys[j] == k;
      }
    }
  }

  /**
   The keys of the missing days are all uncached, and every day of the period
   has its key either cached already or among them; with no missing day,
   every day of the period is cached.
   */
  lemma MissingKeys(cols: map<string, int>, from: Date, count: int)
    ensures var keys := KeysOf(MissingDays(cols, from, count));
      && (forall k :: k in keys ==> k !in cols)
      && (forall d :: from <= d < from + count ==> DateKey(d) in cols || DateKey(d) in keys)
  {
    var ds := MissingDays(cols, from, count);
    var keys := KeysOf(ds);
    forall d | from <= d < from + count && DateKey(d) !in cols ensures DateKey(d) in keys {
      var j :| 0 <= j < |ds| && ds[j] == d;
      assert keys[j] == DateKey(d);
    }
  }

  // ---------------------------------------------------------------------------
  // Locating a plant's cell for a day, and the three marks
  // ---------------------------------------------------------------------------

  /** The grid's first column can take no further plant name: the next free row is outside it. */
  predicate NamesFull(sh: Grid) {
    !InGrid(sh, ColLen(sh, 1) + 1, 1)
  }

  /** A growing worksheet never shortens a column. */
  lemma GrowsColLen(a: Grid, b: Grid, c: int)
    requires Grows(Some(a), Some(b))
    ensures ColLen(b, c) >= ColLen(a, c)
  {
    var n := ColLen(a, c);
    if n > 0 {
      assert Cell(b, n, c) == Cell(a, n, c);
    }
  }

  /** Once the first column is full it stays full while the worksheet grows. */
  lemma NamesFullPersists(a: Grid, b: Grid)
    requires Grows(Some(a), Some(b))
    ensures NamesFull(a) ==> NamesFull(b)
  {
    GrowsColLen(a, b, 1);
  }

  /**
   The first steps of every mark: `_ensure_plant_row` and then
   `_ensure_date_column` for the day (today when absent), giving the row and
   the column, either of which may be -1.
   */
  function Locate(m: Mirror, name: string, d: Option<Date>, today: Date): (r: (Mirror, int, int))
    requires m.sheet.Some?
    ensures r.0.enabled == m.enabled && r.0.sheet.Some?
    ensures Grows(m.sheet, r.0.sheet)
    ensures name in m.plantRows ==> r.1 == m.plantRows[name]
    ensures DateKey(d.GetOr(today)) in m.dateCols ==> r.2 == m.dateCols[DateKey(d.GetOr(today))]
    ensures forall k :: k in m.plantRows ==> k in r.0.plantRows && r.0.plantRows[k] == m.plantRows[k]
    ensures forall k :: k in m.dateCols ==> k in r.0.dateCols && r.0.dateCols[k] == m.dateCols[k]
  {
    var (m1, row) := EnsurePlantRow(m, name);
    var (m2, col) := EnsureDateColumn(m1, d, today);
    GrowsTrans(m.sheet, m1.sheet, m2.sheet);
    (m2, row, col)
  }

  /**
   What locating finds: the row and column the indexes hold afterwards, or -1
   when the plant could not be given a row (the first column is full) or the
   day could not be given a column.
   */
  lemma LocateFinds(m: Mirror, name: string, d: Option<Date>, today: Date)
    requires m.sheet.Some?
    ensures var r := Locate(m, name, d, today);
      && (name in r.0.plantRows ==> r.1 == r.0.plantRows[name])
      && (name !in r.0.plantRows ==> r.1 == -1 && NamesFull(r.0.sheet.value))
      && (DateKey(d.GetOr(today)) in r.0.dateCols ==> r.2 == r.0.dateCols[DateKey(d.GetOr(today))])
      && (DateKey(d.GetOr(today)) !in r.0.dateCols ==> r.2 == -1)
  {
    var (m1, row) := EnsurePlantRow(m, name);
    var (m2, col) := EnsureDateColumn(m1, d, today);
    if name !in m1.plantRows {
      NamesFullPersists(m.sheet.value, m2.sheet.value);
    }
  }

  /**
   `mark_scheduled`: with the integration enabled and a worksheet, locates the
   plant's cell for the day and, when both are found and the cell is empty,
   writes the placeholder there; a cell outside the grid is an API error that
   leaves the located state as it is. It never overwrites a non-empty cell,
   and a cell it could locate inside the grid ends non-empty.
   */
  function MarkScheduled(m: Mirror, name: string, d: Option<Date>, today: Date): (r: Mirror)
    ensures !m.enabled || m.sheet.None? ==> r == m
    ensures r.enabled == m.enabled
    ensures Grows(m.sheet, r.sheet)
    ensures forall k :: k in m.plantRows ==> k in r.plantRows && r.plantRows[k] == m.plantRows[k]
    ensures forall k :: k in m.dateCols ==> k in r.dateCols && r.dateCols[k] == m.dateCols[k]
    ensures m.enabled && m.sheet.Some? ==> name in r.plantRows || NamesFull(r.sheet.value)
    ensures m.enabled && m.sheet.Some? && name in r.plantRows && DateKey(d.GetOr(today)) in r.dateCols ==>
      var row, col := r.plantRows[name], r.dateCols[DateKey(d.GetOr(today))];
      row > 0 && col > 0 && InGrid(r.sheet.value, row, col) ==> Cell(r.sheet.value, row, col) != ""
  {
    if !m.enabled || m.sheet.None? then m
    else
      var (m2, row, col) := Locate(m, name, d, today);
      var sh := m2.sheet.value;
      if row > 0 && col > 0 && Cell(sh, row, col) == "" then
        match UpdateCell(sh, row, col, Placeholder)
        case None => m2
        case Some(g) => m2.(sheet := Some(g))
      else m2
  }

  /**
   What `MarkScheduled` writes once it has located the cell: the placeholder,
   in the located cell, exactly when that cell was found inside the grid and
   empty; no other cell and no colour changes, and the indexes are the ones
   locating left.
   */
  lemma MarkScheduledWrites(m: Mirror, name: string, d: Option<Date>, today: Date)
    requires m.enabled && m.sheet.Some?
    ensures var r := MarkScheduled(m, name, d, today);
      var loc := Locate(m, name, d, today);
      var (row, col) := (loc.1, loc.2);
      var sh := loc.0.sheet.value;
      && r.plantRows == loc.0.plantRows && r.dateCols == loc.0.dateCols
      && r.sheet.Some? && r.sheet.value.colors == sh.colors
      && (row > 0 && col > 0 && InGrid(sh, row, col) && Cell(sh, row, col) == "" ==>
            Cell(r.sheet.value, row, col) == Placeholder)
      && (forall i, j :: (i, j) != (row, col) ==> Cell(r.sheet.value, i, j) == Cell(sh, i, j))
      && (!(row > 0 && col > 0 && InGrid(sh, row, col) && Cell(sh, row, col) == "") ==> r == loc.0)
  {
    var loc := Locate(m, name, d, today);
    var sh := loc.0.sheet.value;
    var u := UpdateCell(sh, loc.1, loc.2, Placeholder);
    assert MarkScheduled(m, name, d, today) ==
      if loc.1 > 0 && loc.2 > 0 && Cell(sh, loc.1, loc.2) == "" && u.Some? then loc.0.(sheet := u) else loc.0;
  }

  /**
   `mark_sent` and `mark_answered`: with the integration enabled and a
   worksheet, locates the plant's cell for the day and, when both are found,
   writes the text there and then colours the cell through its A1 address.
   A write outside the grid is an API error: the cell is neither written nor
   coloured. The located cell, when inside the grid, ends holding the text in
   that colour; no other cell is written except by locating.
   */
  function MarkCell(m: Mirror, name: string, d: Option<Date>, today: Date, text: string, color: Color): Mirror {
    if !m.enabled || m.sheet.None? then m
    else
      var (m2, row, col) := Locate(m, name, d, today);
      match WriteColored(m2.sheet.value, row, col, text, color)
      case None => m2
      case Some(g) => m2.(sheet := Some(g))
  }

  /**
   The two calls behind a mark once the cell is located: a row and column not
   found skip the write, a write outside the grid fails, and otherwise the
   text is written and the cell coloured through its A1 address.
   */
  function WriteColored(sh: Grid, row: int, col: int, text: string, color: Color): (r: Option<Grid>)
    ensures r.Some? <==> row > 0 && col > 0 && InGrid(sh, row, col)
    ensures r.Some? ==>
      && Cell(r.value, row, col) == text
      && r.value.colors == sh.colors[(row, col) := color]
      && forall i, j :: (i, j) != (row, col) ==> Cell(r.value, i, j) == Cell(sh, i, j)
  {
    if row > 0 && col > 0 then
      match UpdateCell(sh, row, col, text)
      case None => None
      case Some(g) =>
        SetColorAt(g, row, col, color);
        Some(SetColor(g, A1(row, col), color))
    else None
  }

  /** `MarkCell` changes nothing when disabled or without a worksheet, and only grows the indexes. */
  lemma MarkCellKeeps(m: Mirror, name: string, d: Option<Date>, today: Date, text: string, color: Color)
    ensures var r := MarkCell(m, name, d, today, text, color);
      && (!m.enabled || m.sheet.None? ==> r == m)
      && r.enabled == m.enabled && r.sheet.Some? == m.sheet.Some?
      && (forall k :: k in m.plantRows ==> k in r.plantRows && r.plantRows[k] == m.plantRows[k])
      && (forall k :: k in m.dateCols ==> k in r.dateCols && r.dateCols[k] == m.dateCols[k])
  {
    if m.enabled && m.sheet.Some? {
      var loc := Locate(m, name, d, today);
      var r := MarkCell(m, name, d, today, text, color);
      assert r.plantRows == loc.0.plantRows && r.dateCols == loc.0.dateCols;
    }
  }

  /**
   What `MarkCell` writes: the located cell, when inside the grid, ends
   holding the text in the colour, and no other cell changes; otherwise the
   mirror is left as locating left it.
   */
  lemma MarkCellWrites(m: Mirror, name: string, d: Option<Date>, today: Date, text: string, color: Color)
    requires m.enabled && m.sheet.Some?
    ensures var r := MarkCell(m, name, d, today, text, color);
      var loc := Locate(m, name, d, today);
      var (row, col) := (loc.1, loc.2);
      var sh := loc.0.sheet.value;
      && r.plantRows == loc.0.plantRows && r.dateCols == loc.0.dateCols
      && (row > 0 && col > 0 && InGrid(sh, row, col) ==>
            && r.sheet.Some? && Cell(r.sheet.value, row, col) == text
            && r.sheet.value.colors == sh.colors[(row, col) := color]
            && forall i, j :: (i, j) != (row, col) ==> Cell(r.sheet.value, i, j) == Cell(sh, i, j))
      && (!(row > 0 && col > 0 && InGrid(sh, row, col)) ==> r == loc.0)
  {
    var loc := Locate(m, name, d, today);
    var w := WriteColored(loc.0.sheet.value, loc.1, loc.2, text, color);
    assert MarkCell(m, name, d, today, text, color) == if w.Some? then loc.0.(sheet := w) else loc.0;
  }

  /** `mark_sent`: the "📨" mark on a yellow background. */
  function MarkSent(m: Mirror, name: string, d: Option<Date>, today: Date): (r: Mirror)
  {
    MarkCell(m, name, d, today, SentMark, Yellow)
  }

  /** `mark_answered`: the answer text on a green background. */
  function MarkAnswered(m: Mirror, name: string, answer: string, d: Option<Date>, today: Date): (r: Mirror)
  {
    MarkCell(m, name, d, today, answer, Green)
  }

  /**
   An answer followed by the scheduling mark of the next check, as the
   handlers write them: when the day's cell could be located inside the grid,
   it keeps the answer, since the placeholder goes only into empty cells.
   */
  lemma AnswerSurvivesSchedule(m: Mirror, name: string, answer: string, next: Date, today: Date)
    requires m.enabled && m.sheet.Some? && answer != ""
    ensures var loc := Locate(m, name, None, today);
      var r := MarkScheduled(MarkAnswered(m, name, answer, None, today), name, Some(next), today);
      loc.1 > 0 && loc.2 > 0 && InGrid(loc.0.sheet.value, loc.1, loc.2) ==>
        Cell(r.sheet.value, loc.1, loc.2) == answer
  {
    MarkCellWrites(m, name, None, today, answer, Green);
  }

  /**
   Locating again right after locating changes nothing and finds the same
   row and column: what was found is cached, and what failed fails again.
   */
  lemma LocateIdempotent(m: Mirror, name: string, d: Option<Date>, today: Date)
    requires m.sheet.Some?
    ensures Locate(Locate(m, name, d, today).0, name, d, today) == Locate(m, name, d, today)
  {
    var (m1, row) := EnsurePlantRow(m, name);
    var (m2, col) := EnsureDateColumn(m1, d, today);
    assert EnsurePlantRow(m2, name) == (m2, row);
    var key := DateKey(d.GetOr(today));
    if key !in m2.dateCols {
      assert m2 == m1;
    }
    assert EnsureDateColumn(m2, d, today) == (m2, col);
  }

  /** Marking a scheduled check twice is the same as marking it once. */
  lemma MarkScheduledIdempotent(m: Mirror, name: string, d: Option<Date>, today: Date)
    ensures MarkScheduled(MarkScheduled(m, name, d, today), name, d, today) == MarkScheduled(m, name, d, today)
  {
    if m.enabled && m.sheet.Some? {
      var (m2, row, col) := Locate(m, name, d, today);
      LocateIdempotent(m, name, d, today);
      var r := MarkScheduled(m, name, d, today);
      if r != m2 {
        assert r.plantRows == m2.plantRows && r.dateCols == m2.dateCols;
        assert Locate(r, name, d, today) == (r, row, col);
      }
    }
  }

  /** With both the row and the column cached, locating reads them and writes nothing. */
  lemma LocateCached(m: Mirror, name: string, d: Option<Date>, today: Date)
    requires m.sheet.Some? && name in m.plantRows && DateKey(d.GetOr(today)) in m.dateCols
    ensures Locate(m, name, d, today) == (m, m.plantRows[name], m.dateCols[DateKey(d.GetOr(today))])
  {
  }

  /** Writing a cell's own text and colour again leaves the worksheet as it is. */
  lemma RewriteSame(g: Grid, row: int, col: int, text: string, color: Color)
    requires InGrid(g, row, col) && Cell(g, row, col) == text
    requires (row, col) in g.colors && g.colors[(row, col)] == color
    ensures UpdateCell(g, row, col, text) == Some(g)
    ensures SetColor(g, A1(row, col), color) == g
  {
    if text == "" {
      assert g.cells - {(row, col)} == g.cells;
    } else {
      assert g.cells[(row, col) := text] == g.cells;
    }
    assert g.colors[(row, col) := color] == g.colors;
    SetColorAt(g, row, col, color);
  }

  /** Writing the same mark twice is the same as writing it once. */
  lemma MarkCellIdempotent(m: Mirror, name: string, d: Option<Date>, today: Date, text: string, color: Color)
    ensures MarkCell(MarkCell(m, name, d, today, text, color), name, d, today, text, color)
      == MarkCell(m, name, d, today, text, color)
  {
    if m.enabled && m.sheet.Some? {
      var (m2, row, col) := Locate(m, name, d, today);
      LocateIdempotent(m, name, d, today);
      MarkCellKeeps(m, name, d, today, text, color);
      MarkCellWrites(m, name, d, today, text, color);
      var r := MarkCell(m, name, d, today, text, color);
      if r != m2 {
        LocateCached(r, name, d, today);
        RewriteSame(r.sheet.value, row, col, text, color);
      }
    }
  }

  // ---------------------------------------------------------------------------
  // init_plants and sync_scheduled_dates
  // ---------------------------------------------------------------------------

  /** The loop of `init_plants`: `_ensure_plant_row` for each name in order. */
  function AddNames(m: Mirror, names: seq<string>): (r: Mirror)
    requires m.sheet.Some?
    ensures r.enabled == m.enabled && r.dateCols == m.dateCols && r.sheet.Some?
    ensures Grows(m.sheet, r.sheet)
    ensures forall k :: k in m.plantRows ==> k in r.plantRows && r.plantRows[k] == m.plantRows[k]
    ensures forall i :: 0 <= i < |names| ==> names[i] in r.plantRows || NamesFull(r.sheet.value)
    decreases |names|
  {
    if names == [] then m
    else
      var front := AddNames(m, names[..|names| - 1]);
      var (r, _) := EnsurePlantRow(front, names[|names| - 1]);
      NamesFullPersists(front.sheet.value, r.sheet.value);
      assert forall i :: 0 <= i < |names| - 1 ==> names[i] == names[..|names| - 1][i];
      r
  }

  /**
   `init_plants`: with the integration enabled and a worksheet, gives every
   listed plant a row; afterwards each name is indexed unless the first
   column has run out of rows. Otherwise nothing happens.
   */
  function InitPlants(m: Mirror, names: seq<string>): (r: Mirror)
    ensures !m.enabled || m.sheet.None? ==> r == m
    ensures r.enabled == m.enabled && r.dateCols == m.dateCols
    ensures Grows(m.sheet, r.sheet)
    ensures forall k :: k in m.plantRows ==> k in r.plantRows && r.plantRows[k] == m.plantRows[k]
    ensures m.enabled && m.sheet.Some? ==>
      forall i :: 0 <= i < |names| ==> names[i] in r.plantRows || NamesFull(r.sheet.value)
  {
    if !m.enabled || m.sheet.None? then m else AddNames(m, names)
  }

  /** The inner loop of `sync_scheduled_dates`: `mark_scheduled` for each day of one plant. */
  function MarkDays(m: Mirror, name: string, days: seq<Date>, today: Date): (r: Mirror)
    requires m.enabled && m.sheet.Some?
    ensures r.enabled && r.sheet.Some?
    ensures Grows(m.sheet, r.sheet)
    ensures forall k :: k in m.plantRows ==> k in r.plantRows && r.plantRows[k] == m.plantRows[k]
    ensures forall k :: k in m.dateCols ==> k in r.dateCols && r.dateCols[k] == m.dateCols[k]
    ensures days != [] ==> name in r.plantRows || NamesFull(r.sheet.value)
    decreases |days|
  {
    if days == [] then m
    else
      var r := MarkScheduled(MarkDays(m, name, days[..|days| - 1], today), name, Some(days[|days| - 1]), today);
      r
  }

  /** The outer loop: every plant of the schedule in turn. */
  function MarkAll(m: Mirror, schedule: seq<(string, seq<Date>)>, today: Date): (r: Mirror)
    requires m.enabled && m.sheet.Some?
    ensures r.enabled && r.sheet.Some?
    ensures Grows(m.sheet, r.sheet)
    ensures forall k :: k in m.plantRows ==> k in r.plantRows && r.plantRows[k] == m.plantRows[k]
    ensures forall k :: k in m.dateCols ==> k in r.dateCols && r.dateCols[k] == m.dateCols[k]
    ensures forall i :: 0 <= i < |schedule| && schedule[i].1 != [] ==>
      schedule[i].0 in r.plantRows || NamesFull(r.sheet.value)
    decreases |schedule|
  {
    if schedule == [] then m
    else
      var n := |schedule|;
      var front := MarkAll(m, schedule[..n - 1], today);
      var r := MarkDays(front, schedule[n - 1].0, schedule[n - 1].1, today);
      NamesFullPersists(front.sheet.value, r.sheet.value);
      assert forall i :: 0 <= i < n - 1 ==> schedule[i] == schedule[..n - 1][i];
      r
  }

  /**
   `sync_scheduled_dates`: with the integration enabled and a worksheet,
   marks every listed day of every listed plant as scheduled. No non-empty
   cell is overwritten, no cached row or column moves, and every plant with
   at least one day ends with a row unless the first column is full.
   */
  function SyncScheduledDates(m: Mirror, schedule: seq<(string, seq<Date>)>, today: Date): (r: Mirror)
    ensures !m.enabled || m.sheet.None? ==> r == m
    ensures r.enabled == m.enabled
    ensures Grows(m.sheet, r.sheet)
    ensures forall k :: k in m.plantRows ==> k in r.plantRows && r.plantRows[k] == m.plantRows[k]
    ensures forall k :: k in m.dateCols ==> k in r.dateCols && r.dateCols[k] == m.dateCols[k]
    ensures m.enabled && m.sheet.Some? ==> forall i :: 0 <= i < |schedule| && schedule[i].1 != [] ==>
      schedule[i].0 in r.plantRows || NamesFull(r.sheet.value)
  {
    if !m.enabled || m.sheet.None? then m else MarkAll(m, schedule, today)
  }

  // ---------------------------------------------------------------------------
  // init
  // ---------------------------------------------------------------------------

  /** The first column's header, "Растение" ("Plant"). */
  const PlantHeader: string := "\U{0420}\U{0430}\U{0441}\U{0442}\U{0435}\U{043D}\U{0438}\U{0435}"

  /**
   What connecting to the spreadsheet service yields: an error (credentials,
   network, unknown spreadsheet), the existing "Календарь" worksheet, or no
   such worksheet, so one is added.
   */
  datatype Connection = Unreachable | Opened(sheet: Grid) | NotFound

  /** The worksheet `add_worksheet(rows=50, cols=100)` creates, with the header written into A1. */
  function NewCalendar(): (g: Grid)
    ensures g.rows == 50 && g.cols == 100
    ensures Cell(g, 1, 1) == PlantHeader
    ensures forall i, j :: (i, j) != (1, 1) ==> Cell(g, i, j) == ""
  {
    Sheet(map[(1, 1) := PlantHeader], map[], 50, 100)
  }

  /**
   `init`: with the integration disabled, or when the service cannot be
   reached, nothing changes. Otherwise the worksheet is opened (or created),
   its structure is loaded into the indexes and the next 30 days get
   columns: afterwards every one of those days has a cached column.
   */
  function Init(m: Mirror, conn: Connection, today: Date): (r: Mirror)
    ensures !m.enabled || conn.Unreachable? ==> r == m
    ensures r.enabled == m.enabled
    ensures m.enabled && conn.Opened? ==> r.sheet.Some? && r.sheet.value.rows == conn.sheet.rows && r.sheet.value.cols == conn.sheet.cols
    ensures m.enabled && conn.NotFound? ==>
      r.sheet.Some? && r.sheet.value.rows == 50 && r.sheet.value.cols == 100 && Cell(r.sheet.value, 1, 1) == PlantHeader
    ensures m.enabled && !conn.Unreachable? ==> forall d :: today <= d < today + 30 ==> DateKey(d) in r.dateCols
  {
    if !m.enabled then m
    else match conn
      case Unreachable => m
      case Opened(g) => EnsureDateColumnsForPeriod(LoadStructure(m.(sheet := Some(g))), 30, today)
      case NotFound => EnsureDateColumnsForPeriod(LoadStructure(m.(sheet := Some(NewCalendar()))), 30, today)
  }
}

=== FILE: text.dfy ===
/**
 The few Python string operations the bot relies on, as pure functions:
 `str.split(sep)`, `str.strip()`, `int(str)` and `str(int)`.
 */
module Text {
  import opened Wrappers

  // ---------------------------------------------------------------------------
  // str.split(sep) with a one-character separator, and its inverse sep.join
  // ---------------------------------------------------------------------------

  /** Python's `s.split(sep)`: never empty, and no part contains `sep`. */
  function Split(s: string, sep: char): (parts: seq<string>)
    ensures |parts| >= 1
    ensures forall i :: 0 <= i < |parts| ==> sep !in parts[i]
    decreases |s|
  {
    if s == [] then [""]
    else
      var rest := Split(s[1..], sep);
      if s[0] == sep then [""] + rest
      else [[s[0]] + rest[0]] + rest[1..]
  }

  /** Python's `sep.join(parts)`. */
  function Join(parts: seq<string>, sep: char): string
    requires |parts| >= 1
    decreases |parts|
  {
    if |parts| == 1 then parts[0] else parts[0] + [sep] + Join(parts[1..], sep)
  }

  /** Joining the parts of a split gives back the original string. */
  lemma {:induction false} JoinSplit(s: string, sep: char)
    ensures Join(Split(s, sep), sep) == s
    decreases |s|
  {
    if s != [] {
      var rest := Split(s[1..], sep);
      JoinSplit(s[1..], sep);
      if s[0] == sep {
        assert Split(s, sep) == [""] + rest;
        assert ([""] + rest)[1..] == rest;
      } else {
        var parts := Split(s, sep);
        assert parts == [[s[0]] + rest[0]] + rest[1..];
        if |rest| == 1 {
          assert parts == [[s[0]] + rest[0]];
        } else {
          assert parts[1..] == rest[1..];
          assert Join(rest, sep) == rest[0] + [sep] + Join(rest[1..], sep);
        }
      }
    }
  }

  /** A separator-free string followed by the separator splits into that string and the rest. */
  lemma {:induction false} SplitCons(a: string, rest: string, sep: char)
    requires sep !in a
    ensures Split(a + [sep] + rest, sep) == [a] + Split(rest, sep)
    decreases |a|
  {
    if a == [] {
      assert a + [sep] + rest == [sep] + rest;
      assert ([sep] + rest)[1..] == rest;
    } else {
      var s := a + [sep] + rest;
      assert s[0] == a[0] && s[1..] == a[1..] + [sep] + rest;
      SplitCons(a[1..], rest, sep);
      assert [a[0]] + a[1..] == a;
    }
  }

  /** A string without the separator splits into itself alone. */
  lemma {:induction false} SplitNone(a: string, sep: char)
    requires sep !in a
    ensures Split(a, sep) == [a]
    decreases |a|
  {
    if a != [] {
      SplitNone(a[1..], sep);
      assert [a[0]] + a[1..] == a;
    }
  }

  /** Splitting a join of separator-free parts recovers the parts. */
  lemma {:induction false} SplitJoin(parts: seq<string>, sep: char)
    requires |parts| >= 1
    requires forall i :: 0 <= i < |parts| ==> sep !in parts[i]
    ensures Split(Join(parts, sep), sep) == parts
    decreases |parts|
  {
    if |parts| == 1 {
      SplitNone(parts[0], sep);
    } else {
      SplitJoin(parts[1..], sep);
      SplitCons(parts[0], Join(parts[1..], sep), sep);
      assert [parts[0]] + parts[1..] == parts;
    }
  }

  /** Three separator-free fields joined by the separator split back into the three fields. */
  lemma Split3(a: string, b: string, c: string, sep: char)
    requires sep !in a && sep !in b && sep !in c
    ensures Split(a + [sep] + b + [sep] + c, sep) == [a, b, c]
  {
    assert a + [sep] + b + [sep] + c == a + [sep] + (b + [sep] + c);
    SplitCons(a, b + [sep] + c, sep);
    SplitCons(b, c, sep);
    SplitNone(c, sep);
  }

  /** Two separator-free fields joined by the separator split back into the two fields. */
  lemma Split2(a: string, b: string, sep: char)
    requires sep !in a && sep !in b
    ensures Split(a + [sep] + b, sep) == [a, b]
  {
    SplitCons(a, b, sep);
    SplitNone(b, sep);
  }

  // ---------------------------------------------------------------------------
  // str.strip()
  // ---------------------------------------------------------------------------

  /** Python's `str.isspace()` on one character. */
  predicate IsSpace(c: char) {
    || ('\t' <= c <= '\r') || ('\U{1C}' <= c <= '\U{1F}') || c == ' '
    || c == '\U{85}' || c == '\U{A0}' || c == '\U{1680}'
    || ('\U{2000}' <= c <= '\U{200A}') || c == '\U{2028}' || c == '\U{2029}'
    || c == '\U{202F}' || c == '\U{205F}' || c == '\U{3000}'
  }

  /** Python's `s.lstrip()`: the suffix left after dropping leading whitespace. */
  function StripLeft(s: string): (r: string)
    ensures |r| <= |s| && r == s[|s| - |r|..]
    ensures r == [] || !IsSpace(r[0])
    ensures forall i :: 0 <= i < |s| - |r| ==> IsSpace(s[i])
    decreases |s|
  {
    if s != [] && IsSpace(s[0]) then StripLeft(s[1..]) else s
  }

  /** Python's `s.rstrip()`: the prefix left after dropping trailing whitespace. */
  function StripRight(s: string): (r: string)
    ensures |r| <= |s| && r == s[..|r|]
    ensures r == [] || !IsSpace(r[|r| - 1])
    ensures forall i :: |r| <= i < |s| ==> IsSpace(s[i])
    decreases |s|
  {
    if s != [] && IsSpace(s[|s| - 1]) then StripRight(s[..|s| - 1]) else s
  }

  /** Python's `s.strip()`. */
  function Strip(s: string): (r: string)
    ensures |r| <= |s|
    ensures r == [] || (!IsSpace(r[0]) && !IsSpace(r[|r| - 1]))
    ensures s != [] && !IsSpace(s[0]) && !IsSpace(s[|s| - 1]) ==> r == s
  {
    StripRight(StripLeft(s))
  }

  // ---------------------------------------------------------------------------
  // Decimal digits, int(str) and str(int)
  // ---------------------------------------------------------------------------

  predicate IsDigit(c: char) { '0' <= c <= '9' }

  predicate AllDigits(s: string) { forall i :: 0 <= i < |s| ==> IsDigit(s[i]) }

  /** The value of a string of decimal digits, most significant first. */
  function DigitsValue(s: string): nat
    requires AllDigits(s)
    decreases |s|
  {
    if s == [] then 0
    else DigitsValue(s[..|s| - 1]) * 10 + (s[|s| - 1] as int - '0' as int)
  }

  /** The shortest decimal spelling of a natural number. */
  function NatToDigits(n: nat): (s: string)
    ensures |s| >= 1 && AllDigits(s)
    ensures n >= 10 ==> s[0] != '0'
    decreases n
  {
    if n < 10 then ['0' + n as char] else NatToDigits(n / 10) + ['0' + (n % 10) as char]
  }

  lemma {:induction false} DigitsRoundTrip(n: nat)
    ensures DigitsValue(NatToDigits(n)) == n
    decreases n
  {
    if n >= 10 {
      DigitsRoundTrip(n / 10);
      var s := NatToDigits(n);
      assert s[..|s| - 1] == NatToDigits(n / 10);
    }
  }

  /**
   Python's `int(s)` for a base-10 literal: surrounding whitespace, an optional
   sign, then at least one ASCII digit; anything else raises (None here).
   */
  function ParseInt(s: string): (r: Option<int>)
    ensures r.Some? ==> Strip(s) != []
    ensures var t := Strip(s);
      r.Some? <==> (t != [] && AllDigits(t)) || (|t| >= 2 && (t[0] == '+' || t[0] == '-') && AllDigits(t[1..]))
    ensures var t := Strip(s);
      r.Some? && t != [] && AllDigits(t) ==> r.value == DigitsValue(t) as int
    ensures var t := Strip(s);
      r.Some? && |t| >= 2 && (t[0] == '+' || t[0] == '-') && AllDigits(t[1..]) ==>
        r.value == (if t[0] == '-' then -(DigitsValue(t[1..]) as int) else DigitsValue(t[1..]) as int)
  {
    var t := Strip(s);
    if t == [] then None
    else if (t[0] == '-' || t[0] == '+') && |t| >= 2 && AllDigits(t[1..]) then
      Some(if t[0] == '-' then -(DigitsValue(t[1..]) as int) else DigitsValue(t[1..]))
    else if AllDigits(t) then Some(DigitsValue(t))
    else None
  }

  /** Python's `str(n)` (and `f"{n}"`) for an integer. */
  function IntToString(n: int): (s: string)
    ensures |s| >= 1
    ensures n >= 0 ==> AllDigits(s)
    ensures n < 0 ==> s[0] == '-' && AllDigits(s[1..])
  {
    if n >= 0 then NatToDigits(n) else "-" + NatToDigits(-n)
  }

  /** A spelled-out natural number has no whitespace at either end. */
  lemma DigitsNotSpace(s: string)
    requires |s| >= 1 && AllDigits(s)
    ensures !IsSpace(s[0]) && !IsSpace(s[|s| - 1])
  {
    assert IsDigit(s[0]) && IsDigit(s[|s| - 1]);
  }

  /** `int(str(n)) == n` for every natural number. */
  lemma ParseIntOfNat(n: nat)
    ensures ParseInt(IntToString(n)) == Some(n)
  {
    var d := NatToDigits(n);
    DigitsNotSpace(d);
    assert Strip(d) == d;
    DigitsRoundTrip(n);
    assert !(d[0] == '-' || d[0] == '+');
  }

  /** A clean literal of a minus sign and digits reads as the negated digits. */
  lemma ParseNegativeLiteral(t: string)
    requires |t| >= 2 && t[0] == '-' && AllDigits(t[1..]) && Strip(t) == t
    ensures ParseInt(t) == Some(-(DigitsValue(t[1..]) as int))
  {
  }

  /** `int(str(n)) == n` for every negative integer. */
  lemma ParseIntOfNegative(n: int)
    requires n < 0
    ensures ParseInt(IntToString(n)) == Some(n)
  {
    var m: nat := -n;
    var d := NatToDigits(m);
    var s := "-" + d;
    assert IntToString(n) == s;
    assert s[1..] == d;
    assert Strip(s) == s by {
      DigitsNotSpace(d);
      assert s[|s| - 1] == d[|d| - 1] && s[0] == '-';
    }
    assert DigitsValue(d) == m by {
      DigitsRoundTrip(m);
    }
    ParseNegativeLiteral(s);
  }

  /** `int(str(n)) == n` for every integer. */
  lemma ParseIntOfString(n: int)
    ensures ParseInt(IntToString(n)) == Some(n)
  {
    if n >= 0 {
      ParseIntOfNat(n);
    } else {
      ParseIntOfNegative(n);
    }
  }
}

=== FILE: wrappers.dfy ===
/** Option and Result, the failure-carrying values used throughout the model. */
module Wrappers {

  /** A value that may be absent (Python's `Optional`, with `None`). */
  datatype Option<+T> = None | Some(value: T) {

    /** The wrapped value, or `default` when absent (Python's `dict.get(k, default)`). */
    function GetOr(default: T): T {
      match this
      case Some(v) => v
      case None => default
    }
  }

  /** The outcome of an operation that can raise: `Ok` or the error it raised. */
  datatype Result<+T, +E> = Ok(value: T) | Err(error: E)
}
